=== FILE: README.md ===
# Sales tracker bot — a Dafny model of its core

The bot is a Telegram assistant for a sales team. A newcomer sends `/start`
and is registered as *pending*. An admin then approves (the role becomes
*worker*) or declines the request. A worker fills in a step-by-step form
for each client they bring: phone, name, messenger, order link, amount,
sale status and an optional receipt. On confirmation the client is
appended to the *Clients* sheet, the worker's client count goes up, and a
*paid* sale credits the worker a commission. The commission is 5 % while
the worker has at most 10 clients and 10 % after that. A worker can ask
for a payout. That records a PENDING row in the *Withdrawals* sheet and
takes the amount off the balance at once. An admin approves the payout
(DONE) or declines it (DECLINED, amount given back). The admin panel
lists the top workers by balance and the pending payouts, and exports
the finished ones.

The model is written over immutable values:

- Google Sheets becomes a `Tables` value with three row sequences.
- The handlers keep each chat's form in telebot's own state storage (`bot.set_state`, `bot.retrieve_data`, `bot.delete_state`), not in `bot/fsm.py`. `Intake` and `Withdrawals` model that storage with the `Fsm` types `UserState`, `WithState` and `WithField`, and `delete_state` becomes `Cleared()`. `bot/fsm.py` itself is modelled on its own as `Fsm`.
- Every handler is a pure function from (session, tables, input) to
  (session, tables, messages sent).
- A remote call that fails after its retries is a parameter,
  `fault: Option<nat>`. It names the index, in handler order, of the call
  that raises. Writes made before that call stay made, as in the sheet.
- Money is held in integer cents, commission rates in integer percent.

| file | module | models |
|---|---|---|
| wrappers.dfy | Wrappers | `Option` |
| text.dfy | Text | `str.strip`, `str.replace`, `int()`, `str(int)`, `str.split` |
| validators.dfy | Validators | `bot/utils/validators.py` |
| commission.dfy | Commission | `bot/services/commission.py` |
| fsm.dfy | Fsm | `bot/fsm.py` |
| chat.dfy | Chat | the messages the handlers send, and admin membership |
| sheets.dfy | Sheets | `bot/sheets.py` |
| forms.dfy | Forms | the client form's session keys and its invariant |
| intake.dfy | Intake | the add-client flow of `bot/handlers/worker.py` |
| withdrawal.dfy | Withdrawals | the payout request of `bot/handlers/worker.py` |
| admin.dfy | Admin | `bot/handlers/admin.py` |
| start.dfy | Start | `bot/handlers/start.py` |
| payouts.dfy | Payouts | request → approve/decline across handlers |

## Model

| member | source | states |
|---|---|---|
| Text.SpaceRunFrom | bot/utils/validators.py:23 | the run of whitespace from a position is all whitespace and stops at the end or at a non-space character |
| Text.SpaceRunBefore | bot/utils/validators.py:23 | the run of whitespace before a position is all whitespace and stops at the lower bound or after a non-space character |
| Text.Trim | bot/utils/validators.py:23 | `strip()` gives a result that neither starts nor ends with whitespace and is no longer than the input |
| Text.TrimIsSlice | bot/utils/validators.py:23 | `strip()` returns one contiguous slice of its input, with only whitespace cut on either side |
| Text.TrimOfTrimmed | bot/utils/validators.py:23 | text with no whitespace at either end is left as it is |
| Text.TrimIdempotent | bot/utils/validators.py:23 | stripping twice is the same as stripping once |
| Text.Replace | bot/utils/validators.py:36 | `replace` keeps the length and swaps exactly the chosen character at every position |
| Text.ReplaceOnce | bot/utils/validators.py:36 | replacing the only occurrence of a character swaps just that one position |
| Text.NatToStringRoundTrip | bot/handlers/start.py:109 | the decimal digits written for a number read back as that number |
| Text.ParseLiteralRoundTrip | bot/handlers/start.py:125 | a signed number's decimal text, with no whitespace to strip, reads back as the number |
| Text.ParseIntRoundTrip | bot/handlers/start.py:125 | `int(str(i)) == i` for every integer, negative ones included |
| Text.ParseInt | bot/handlers/start.py:125 | `int()` on the id field: the stripped text as an optionally signed run of ASCII digits, none otherwise; what it reads back is stated by Text.ParseIntRoundTrip |
| Text.Split | bot/handlers/start.py:125 | `split` always returns at least one piece, and no piece contains the separator |
| Text.JoinSplit | bot/handlers/start.py:125 | joining the pieces of a split with its separator gives back the original string |
| Text.SplitAround | bot/handlers/start.py:125 | a separator between two strings splits them into the pieces of the first followed by the pieces of the second |
| Text.SecondField | bot/handlers/start.py:125 | in `a_b` with no `_` inside `a` or `b`, piece 1 of the split is `b` |
| Text.ThirdField | bot/handlers/admin.py:161 | in `a_b_c` with no `_` inside the parts, piece 2 of the split is `c` |
| Text.NumberHasNo | bot/handlers/start.py:109 | a formatted integer contains no `_`, so the button data splits where it was joined |
| Validators.IsPhoneIff | bot/utils/validators.py:9-23 | a phone is accepted exactly when its stripped text is 10 to 15 ASCII digits |
| Validators.IsPhone | bot/utils/validators.py:23 | `is_phone`: the phone pattern applied to the stripped text; what it accepts is stated by Validators.IsPhoneIff |
| Validators.ElevenDigitPhoneExample | bot/utils/validators.py:9-23 | 11 digits pass |
| Validators.NineDigitPhoneExample | bot/utils/validators.py:9-23 | 9 digits fail |
| Validators.SixteenDigitPhoneExample | bot/utils/validators.py:9-23 | 16 digits fail |
| Validators.PlusPhoneExample | bot/utils/validators.py:9-23 | a leading `+` fails |
| Validators.NormalizeMoney | bot/utils/validators.py:39-49 | the result is the stripped text with every `,` turned into `.`, and it holds no comma |
| Validators.NormalizeMoneyIdempotent | bot/utils/validators.py:49 | normalising an already normalised amount changes nothing |
| Validators.NormalizeMoneyEdits | bot/utils/validators.py:49 | normalising only cuts whitespace off both ends and turns commas into dots; every other character stays in its place |
| Validators.IsMoneyIff | bot/utils/validators.py:36-37 | an amount is accepted exactly when its normal form is one or more digits, optionally followed by `.` and 1 or 2 digits |
| Validators.IsMoney | bot/utils/validators.py:36-37 | `is_money`: the money pattern applied to the normalised text; what it accepts is stated by Validators.IsMoneyIff |
| Validators.MoneyPatternIff | bot/utils/validators.py:10 | the money pattern matches exactly the strings that split into an integer part and a fraction of at most two digits |
| Validators.IsMoneyOfNormalized | bot/utils/validators.py:36-49 | checking the normalised amount gives the same verdict as checking the raw text |
| Validators.ParseMoneyAccepts | bot/handlers/worker.py:149-176 | an amount is read into cents exactly when the money check accepts it |
| Validators.ParseMoney | bot/handlers/worker.py:157 | `float(normalize_money(..))` in cents; when it reads an amount is stated by Validators.ParseMoneyAccepts, the cents it reads by Validators.ParseMoneyOfNormal |
| Validators.ParseMoneyOfNormal | bot/utils/validators.py:10 | digits `d` with fraction `f` are read as `d` units plus `f` cents, padded to two places |
| Validators.CommaReadsAsDot | bot/utils/validators.py:36-49 | digits, a comma and one or two digits normalise to the same text with a dot and read as the same cents |
| Validators.DotSplits | bot/utils/validators.py:10 | digits, a dot and one or two digits split into exactly those two digit runs |
| Validators.WholeAmountExample | bot/utils/validators.py:10-37 | `1000` reads as 1000.00 |
| Validators.CentsAmountExample | bot/utils/validators.py:10-37 | `1000.50` reads as 1000.50 |
| Validators.CommaAmountExample | bot/utils/validators.py:10-49 | `1000,50` reads as 1000.50 |
| Validators.NegativeAmountExample | bot/utils/validators.py:10-37 | `-5` is refused |
| Validators.ThreeDecimalsExample | bot/utils/validators.py:10-37 | `12.345` is refused |
| Validators.LettersExample | bot/utils/validators.py:10-37 | `abc` is refused |
| Validators.FormatCentsSplits | bot/utils/validators.py:10 | an amount printed with two decimals splits into its whole digits and its two cent digits |
| Validators.ParseFormattedMoney | bot/utils/validators.py:10-37 | an amount printed with two decimals passes `is_money` and reads back as the same number of cents |
| Validators.IsUrlIff | bot/utils/validators.py:61 | a URL is accepted exactly when the stripped text starts with `http://` or `https://` |
| Validators.IsUrl | bot/utils/validators.py:61 | `is_url`: the URL pattern applied to the stripped text; what it accepts is stated by Validators.IsUrlIff |
| Commission.RateFrom | bot/services/commission.py:25-30 | when no tier from the scan position on admits the count, the default rate applies |
| Commission.RateFromFirst | bot/services/commission.py:25-30 | the first tier, in table order, that admits the count gives the rate |
| Commission.Rate | bot/services/commission.py:25-30 | the tier scan over the rate table from its first tier with the 5 % default; the rates it gives are stated by Commission.RateUpToTen, Commission.RateAboveTen and Commission.RatePastTable |
| Commission.RateUpToTen | bot/services/commission.py:9-12 | 5 % for at most 10 clients |
| Commission.RateAboveTen | bot/services/commission.py:9-12 | 10 % for 11 to 99999 clients |
| Commission.RatePastTable | bot/services/commission.py:25-30 | past the last tier the loop finds nothing, and the 5 % default applies |
| Commission.RateIsFiveOrTen | bot/services/commission.py:9-30 | for every client count the rate is 5 % or 10 % |
| Commission.RoundToCents | bot/services/commission.py:33 | rounding lands within half a cent of the exact value |
| Commission.Calc | bot/services/commission.py:14-33 | the commission is the amount times the rate, to within half a cent |
| Commission.CalcNonNegative | bot/services/commission.py:14-33 | no commission on a non-negative amount is negative |
| Commission.CalcMonotone | bot/services/commission.py:14-33 | at a fixed client count, a larger amount never earns less |
| Commission.CalcFewClientsExample | bot/services/commission.py:9-33 | 5 clients and 1000.00 earn 50.00 |
| Commission.CalcManyClientsExample | bot/services/commission.py:9-33 | 20 clients and 1000.00 earn 100.00 |
| Fsm.Touch | bot/fsm.py:25-33 | looking up an entry creates an empty one if missing and touches no other entry |
| Fsm.SetState | bot/fsm.py:35-39 | the state is set, the form data is kept, and other users' entries are untouched |
| Fsm.GetState | bot/fsm.py:41-44 | it returns the stored state, or none for an unseen user |
| Fsm.ClearState | bot/fsm.py:46-51 | both the state and the data are emptied, only for this user |
| Fsm.SetData | bot/fsm.py:53-57 | one key is written; the state and every other key are kept |
| Fsm.GetData | bot/fsm.py:59-64 | it returns the whole data as a copy, or one key's value, or none when the key is absent |
| Fsm.UpdateData | bot/fsm.py:66-70 | every given key takes its given value; every other key is kept |
| Fsm.StateHandler | bot/fsm.py:92-101 | the handler runs exactly when the sender's state is the wanted one, and otherwise nothing happens |
| Fsm.CallbackStateHandler | bot/fsm.py:103-112 | the same gate for button presses, keyed by the chat of the pressed message |
| Fsm.FreshKeyIsEmpty | bot/fsm.py:25-33 | an unseen user has no state and no data |
| Fsm.SetThenGetState | bot/fsm.py:35-44 | reading the state back gives what was set, with the data unchanged |
| Fsm.ClearIdempotent | bot/fsm.py:46-51 | clearing twice is the same as clearing once |
| Fsm.SetThenGetData | bot/fsm.py:53-64 | a written key reads back; other keys and the state do not move |
| Fsm.MissingFieldIsNone | bot/fsm.py:64 | reading an absent key gives none, not an error |
| Fsm.SnapshotUnaffectedByWrites | bot/fsm.py:63 | the whole-data read is a copy that later writes do not change |
| Fsm.UpdateOneIsSet | bot/fsm.py:53-70 | updating with one keyword is the same as setting that key |
| Fsm.DistinctKeysCommute | bot/fsm.py:21-33 | writes to different users or chats do not interfere |
| Fsm.NoStateWithData | bot/fsm.py:53-57 | writing data to an unseen user leaves the state none while the data is not empty |
| Chat.BroadcastThen | bot/handlers/worker.py:316-343 | a broadcast followed by one more message sends every admin the note in order, then that message last |
| Chat.Broadcast | bot/handlers/start.py:113-117 | every admin, in order, is sent the same message |
| Sheets.RetryApiCall | bot/sheets.py:46-57 | 429 errors are retried with waits of `backoff·2^i`; any other error, or the last attempt, is passed on; the result is the first success |
| Sheets.FindWorker | bot/sheets.py:59-69 | the index found holds the id, and no result means no row has it |
| Sheets.GetWorker | bot/sheets.py:59-69 | it returns the row with the id, or none exactly when no row has it |
| Sheets.AddWorker | bot/sheets.py:71-77 | one row is appended: pending, no clients, zero balance, earlier rows untouched |
| Sheets.GetWorkerAfterAdd | bot/sheets.py:59-77 | after adding a new id, reading it gives the new pending row, and other ids read as before |
| Sheets.UpdateFirstWorker | bot/sheets.py:79-117 | only the first row with the id is rewritten; a missing id changes nothing |
| Sheets.GetWorkerAfterUpdate | bot/sheets.py:59-117 | reading after an update gives the updated row; other ids read as before |
| Sheets.ApproveWorker | bot/sheets.py:79-89 | only the first row with the id gets the role `worker` |
| Sheets.ApproveThenGet | bot/sheets.py:79-89 | after approval the worker reads back with role `worker` and nothing else changed |
| Sheets.IncBalance | bot/sheets.py:91-103 | only the first row with the id has its balance moved by `delta` |
| Sheets.IncBalanceThenGet | bot/sheets.py:91-103 | after the increment the worker reads back with balance plus `delta` |
| Sheets.IncBalanceTwice | bot/sheets.py:91-103 | two increments add up to one increment by their sum |
| Sheets.IncBalanceZero | bot/sheets.py:91-103 | incrementing by zero changes nothing |
| Sheets.IncClientsCount | bot/sheets.py:105-117 | only the first row with the id counts one more client |
| Sheets.IncClientsCountThenGet | bot/sheets.py:105-117 | after the increment the worker reads back with one more client |
| Sheets.AppendClientRow | bot/sheets.py:119-137 | one row holding the form's fields is appended; a missing receipt is stored as empty |
| Sheets.MaxId | bot/sheets.py:147 | the largest id is one of the ids and bounds them all |
| Sheets.NextWithdrawalId | bot/sheets.py:145-148 | the next id is 1 for an empty sheet, and otherwise one more than the largest id |
| Sheets.CreateWithdrawal | bot/sheets.py:139-153 | one PENDING row is appended under an id that no earlier row holds |
| Sheets.CreatedIsFound | bot/sheets.py:139-165 | the new request is found by its id at the new last row |
| Sheets.CreateKeepsIdsUnique | bot/sheets.py:139-153 | if ids were unique, they stay unique after a request is created |
| Sheets.FindWithdrawal | bot/sheets.py:155-165 | the index found holds the id, and no result means no row has it |
| Sheets.UpdateWithdrawal | bot/sheets.py:155-165 | only the status of the first row with the id changes; a missing id changes nothing |
| Sheets.UpdateKeepsFind | bot/sheets.py:155-165 | a status update moves no row, so every id is found where it was |
| Sheets.UpdateKeepsIdsUnique | bot/sheets.py:155-165 | if ids were unique, they stay unique after a status update |
| Forms.KeyInjective | bot/handlers/worker.py:83-242 | the seven form fields are stored under seven different keys |
| Intake.StartAddClient | bot/handlers/worker.py:67-71 | the form starts at the phone step and asks for the phone |
| Intake.Advance | bot/handlers/worker.py:81-86 | an accepted answer is stored under its key and the next step is asked for; nothing else in the form changes |
| Intake.ProcessPhone | bot/handlers/worker.py:73-86 | an invalid phone is refused with the form unchanged; a valid one is stored stripped and the name is asked for |
| Intake.PhoneAcceptedIff | bot/handlers/worker.py:73-86 | the form moves on to the name exactly when the phone is valid |
| Intake.ProcessName | bot/handlers/worker.py:88-109 | a name shorter than 2 characters is refused; a longer one is stored and the messenger is asked for |
| Intake.MessengerOf | bot/handlers/worker.py:115-121 | the two known buttons name their messenger; any other button means "Другое" |
| Intake.ProcessMessenger | bot/handlers/worker.py:111-132 | the messenger is always stored and the order link is asked for |
| Intake.ProcessOrderLink | bot/handlers/worker.py:134-147 | a link shorter than 3 characters is refused; a longer one is stored and the amount is asked for |
| Intake.AmountStepOf | bot/handlers/worker.py:149-176 | once the text is read, no amount or a zero amount is refused with the form unchanged; a positive amount is stored in cents and the status is asked for |
| Intake.ProcessAmount | bot/handlers/worker.py:149-176 | a malformed amount or a zero amount is refused with the form unchanged; a positive one is stored in cents |
| Intake.AmountAcceptedIff | bot/handlers/worker.py:149-176 | the form moves on to the status exactly when the amount is well formed and positive |
| Intake.StatusOf | bot/handlers/worker.py:182-188 | `status_paid` means paid, `status_waiting` awaiting payment, anything else wants to buy |
| Intake.ShowConfirmation | bot/handlers/worker.py:246-266 | the summary can be shown exactly when all summarised fields are present, and it moves the form to confirmation |
| Intake.Confirm | bot/handlers/worker.py:246-266 | a missing summarised field makes the summary raise, leaving the form as it was |
| Intake.ProcessStatus | bot/handlers/worker.py:178-205 | a paid sale asks for a receipt; any other status goes straight to confirmation |
| Intake.ProcessReceipt | bot/handlers/worker.py:207-237 | the last photo size (Telegram's largest), or else the document, is uploaded and its link stored; a failed upload stores an empty link; the form moves to confirmation |
| Intake.SkipReceipt | bot/handlers/worker.py:239-244 | skipping stores an empty receipt and moves the form to confirmation |
| Intake.StartIsValid | bot/handlers/worker.py:67-71 | a fresh form satisfies the form invariant |
| Intake.ValidAfterPhone | bot/handlers/worker.py:73-86 | the phone step keeps the form invariant: at each step, every earlier field is present and well formed |
| Intake.ValidAfterName | bot/handlers/worker.py:88-109 | the name step keeps the form invariant |
| Intake.ValidAfterMessenger | bot/handlers/worker.py:111-132 | the messenger step keeps the form invariant |
| Intake.ValidAfterOrderLink | bot/handlers/worker.py:134-147 | the order-link step keeps the form invariant |
| Intake.ValidAfterAmountOf | bot/handlers/worker.py:149-176 | the amount step keeps the form invariant, whatever the text reads as |
| Intake.ValidAfterAmount | bot/handlers/worker.py:149-176 | the amount step keeps the form invariant |
| Intake.ValidIsSummarisable | bot/handlers/worker.py:246-266 | a form that reached confirmation holds everything the summary reads |
| Intake.ValidAfterPaid | bot/handlers/worker.py:190-199 | a paid sale stored at the status step leads to the receipt step with the invariant kept |
| Intake.ValidAfterUnpaid | bot/handlers/worker.py:190-205 | any other status stores an empty receipt link and reaches the summary with the invariant kept and without raising |
| Intake.ValidAfterStatus | bot/handlers/worker.py:178-205 | the status step keeps the form invariant and never raises |
| Intake.ValidAfterReceipt | bot/handlers/worker.py:207-237 | the receipt step keeps the form invariant and never raises |
| Intake.ValidAfterSkip | bot/handlers/worker.py:239-244 | skipping the receipt keeps the form invariant and never raises |
| Intake.ClientStepPreservesValid | bot/handlers/worker.py:42-60 | whatever input arrives at whichever step, a valid form stays valid and no step raises |
| Intake.ClientStep | bot/handlers/worker.py:42-60 | each form step gets the input kind its handler is registered for, text or button or attachment; at the receipt step text skips; every other pairing is ignored; that no step breaks the form is stated by Intake.ClientStepPreservesValid |
| Intake.ReceiptPathsReachConfirm | bot/handlers/worker.py:207-244 | both ways out of the receipt step reach confirmation with a receipt entry |
| Intake.StrField | bot/handlers/worker.py:278-325 | a text field reads back exactly when it is present and holds text |
| Intake.ClientDataOf | bot/handlers/worker.py:290-303 | a client record can be built exactly when the summary and the phone and name are there, and it holds the form's values |
| Intake.ValidConfirmHasData | bot/handlers/worker.py:268-303 | a valid form at confirmation always yields a client record with a positive amount |
| Intake.SaveClient | bot/handlers/worker.py:278-325 | the form is always cleared; the Withdrawals sheet is never touched; at most one client row is appended; a failed read changes nothing |
| Intake.ProcessConfirm | bot/handlers/worker.py:268-276 | any button but "save" cancels with nothing written; "save" saves; the form is cleared either way |
| Intake.SaveClientSaves | bot/handlers/worker.py:278-343 | for a known worker and a form holding every field the row needs, a save appends the client with the form's values, counts one more client, credits the commission only on a paid sale, and tells every admin and then the worker |
| Intake.SavedRow | bot/handlers/worker.py:278-343 | the saved row holds the form's phone, amount and status, the worker is counted and credited, and the admins and then the worker are told |
| Intake.CountThenCredit | bot/handlers/worker.py:309-313 | counting a client and then crediting the commission, when paid, leaves the worker one client up and the commission richer |
| Intake.FailedSaveTables | bot/handlers/worker.py:278-325 | a failed append writes nothing; a failed count keeps the appended row; a failed credit on a paid sale keeps the row and the count; the worker is told the save failed |
| Intake.SaveClientPartial | bot/handlers/worker.py:278-325 | when a later write fails, the writes before it remain and the worker is told the save failed |
| Withdrawals.StartWithdrawal | bot/handlers/worker.py:345-361 | the amount form opens only for a known worker with a positive balance; otherwise the reply says why |
| Withdrawals.RequestedAmount | bot/handlers/worker.py:363-372 | a payout amount is read exactly when the money check accepts the text |
| Withdrawals.Withdraw | bot/handlers/worker.py:363-402 | no table changes unless the amount is positive and within a known worker's balance |
| Withdrawals.ProcessWithdrawalAmount | bot/handlers/worker.py:363-402 | the form is cleared on every path, a refused amount included |
| Withdrawals.WithdrawalRecordsAndDebits | bot/handlers/worker.py:363-424 | a granted request appends one PENDING row under a fresh id, takes exactly the amount off, and tells every admin and then the worker |
| Withdrawals.WithdrawalNeverOverdraws | bot/handlers/worker.py:379-392 | no amount and no failure takes a non-negative balance below zero |
| Withdrawals.FailedDebitKeepsRequest | bot/handlers/worker.py:386-399 | as written, when the debit raises the PENDING row stays while the balance is untouched, and the worker is told the request failed |
| Withdrawals.FailureReplyOnlyAfterDebit | bot/handlers/worker.py:363-402 | apart from a raising debit, the failure reply comes only with the tables unchanged |
| Withdrawals.WithdrawAtomic | bot/handlers/worker.py:386-399 | corrected: the failure reply comes only with the tables unchanged; otherwise the tables are those of a granted request, and with no failing debit it is the handler as written |
| Admin.Panel | bot/handlers/admin.py:37-50 | the panel opens exactly for an admin; anyone else is refused |
| Admin.Filter | bot/handlers/admin.py:65 | the filter keeps exactly the matching rows, and only rows of the input |
| Admin.FilterConcat | bot/handlers/admin.py:259 | filtering two tables one after the other is filtering each in turn, so kept rows stay in table order |
| Admin.FilterEmpty | bot/handlers/admin.py:112-114 | the filter is empty exactly when no row matches |
| Admin.FilterSingleton | bot/handlers/admin.py:65 | a single row is kept exactly when it matches |
| Admin.FilterCount | bot/handlers/admin.py:112 | each matching row is kept as many times as it occurs, and a row that does not match is kept no times |
| Admin.InsertByBalance | bot/handlers/admin.py:68 | inserting into a list sorted by balance (high first) keeps it sorted and keeps every element |
| Admin.SortByBalance | bot/handlers/admin.py:68 | the result is sorted by balance, high first, and is a permutation of the input |
| Admin.ConsByBalance | bot/handlers/admin.py:68 | a row with a balance at least every later one keeps a sorted list sorted |
| Admin.SortedActive | bot/handlers/admin.py:65-68 | the sorted approved rows are sorted, as many as the filter keeps, all approved rows of the sheet, and every approved row is among them |
| Admin.PrefixOutranks | bot/handlers/admin.py:68-80 | the first rows of a sorted list are sorted, and every row left out is at most each of them |
| Admin.TopWorkersRanked | bot/handlers/admin.py:52-97 | the top list holds only approved workers, sorted by balance, as many as exist up to 10, and no omitted worker outranks a listed one |
| Admin.TopWorkers | bot/handlers/admin.py:64-80 | the approved rows sorted by balance, high first, cut to the first ten; what the list holds is stated by Admin.TopWorkersRanked |
| Admin.ShowTopWorkers | bot/handlers/admin.py:52-97 | a non-admin is refused before any read; a failed read shows the error; otherwise "no workers yet" exactly when no row is approved, and when an approved row exists the ranked top list of at most ten approved rows is shown |
| Admin.UsernameOf | bot/handlers/admin.py:133-136 | a payout shows its worker's username, or "unknown" when there is no worker row |
| Admin.PendingItems | bot/handlers/admin.py:129-140 | one line per request, in order |
| Admin.PendingListShowsPending | bot/handlers/admin.py:99-153 | the list shows exactly the PENDING requests, every one of them |
| Admin.PendingList | bot/handlers/admin.py:111-140 | one line per PENDING request in table order, each with its worker's username; what it shows is stated by Admin.PendingListShowsPending |
| Admin.ShowWithdrawals | bot/handlers/admin.py:99-153 | a non-admin is refused before any read; a failed read or worker lookup shows the error; otherwise "no requests" exactly when none is PENDING; when one is, the pending list is shown |
| Admin.ExportRowsOf | bot/handlers/admin.py:272-286 | one export row per request, in order |
| Admin.ExportHoldsDone | bot/handlers/admin.py:246-303 | there is nothing to export exactly when no request is DONE; otherwise the export holds every DONE request and nothing else |
| Admin.ExportRowsConcat | bot/handlers/admin.py:272-286 | the rows for two runs of requests are the rows of the first run followed by those of the second |
| Admin.ExportInTableOrder | bot/handlers/admin.py:259-286 | the export of two tables one after the other is the export of the first followed by the export of the second, so lines follow table order |
| Admin.Export | bot/handlers/admin.py:259-286 | the DONE requests as export rows, or none when there is none; what it holds is stated by Admin.ExportHoldsDone and Admin.ExportInTableOrder |
| Admin.ExportCsv | bot/handlers/admin.py:246-303 | a non-admin is refused before any read; a failed read or worker lookup shows the error; otherwise "nothing to export" exactly when no request is DONE; when one is, the export of the DONE requests is produced |
| Admin.WithdrawalIdOf | bot/handlers/admin.py:161 | `int(data.split('_')[2])`, none where the field is missing or `int()` raises; the round trip is stated by Admin.SettleTagRoundTrip |
| Admin.SettleTagRoundTrip | bot/handlers/admin.py:143-161 | the request id put into the button data is the one read back |
| Admin.ApproveWithdrawal | bot/handlers/admin.py:155-197 | non-admins are refused with nothing changed; a bad id raises; no balance ever moves; only the request's status may change |
| Admin.ApproveMarksDone | bot/handlers/admin.py:155-197 | an approved request becomes DONE, balances stay, and the worker and the admin are told |
| Admin.DeclineWithdrawal | bot/handlers/admin.py:199-244 | non-admins are refused with nothing changed; a bad id raises; only the status and the balance of the request's owner may change, and a balance moves only by the recorded amount of a request found under the id |
| Admin.DeclineRefunds | bot/handlers/admin.py:199-244 | a declined request becomes DECLINED, its amount is given back to its worker, and both sides are told |
| Admin.ApproveWithdrawalOnce | bot/handlers/admin.py:155-197 | a request already settled is left alone; otherwise approval works as in the source |
| Admin.DeclineWithdrawalOnce | bot/handlers/admin.py:199-244 | a request already settled is left alone; otherwise decline works as in the source |
| Payouts.RequestTables | bot/handlers/worker.py:379-392 | a granted request adds one PENDING row, found under its new id, and takes the amount off |
| Payouts.DeclineUndoesDebit | bot/handlers/admin.py:226-229 | declining a PENDING request gives back exactly what taking its amount took |
| Payouts.WithdrawThenDeclineRestores | bot/handlers/admin.py:199-244 | request then decline, as written: the Workers sheet is exactly as before, and the request is on record as DECLINED; with the settled check the outcome is the same |
| Payouts.WithdrawThenApproveKeepsDebit | bot/handlers/admin.py:155-197 | request then approve, as written: the balance stays reduced by the amount, and the request is on record as DONE; with the settled check the outcome is the same |
| Payouts.DeclineTwiceRefundsTwice | bot/handlers/admin.py:199-244 | as written, declining the same request twice gives its amount back twice |
| Payouts.DoubleDeclineExample | bot/handlers/admin.py:199-244 | a balance of 150.00 after a 50.00 request ends at 250.00 after two declines |
| Payouts.SettledIsFinal | bot/handlers/admin.py:155-244 | with the settled check, after a decline neither button changes the tables again, whatever fails |
| Payouts.WithdrawThenDeclineTwiceRestores | bot/handlers/admin.py:199-244 | with the settled check, request then two declines leaves the Workers sheet as it was |
| Payouts.FailedDebitThenDeclineCredits | bot/handlers/worker.py:386-399 | as written, a request whose debit raises is reported failed, yet declining it raises the balance by the amount never taken |
| Payouts.FailedDebitExample | bot/handlers/worker.py:386-399 | 200.00 on the balance, a 50.00 request whose debit fails, one decline: 250.00 |
| Payouts.FailedRequestCannotBeRefunded | bot/handlers/worker.py:386-399 | corrected: a request reported failed leaves the tables as they were, and declining its would-be id gives nothing back |
| Payouts.AtomicRequestAllOrNothing | bot/handlers/worker.py:386-399 | corrected: whatever fails, a request either adds its PENDING row and takes the amount, or leaves the tables as they were |
| Start.UsernameOrUnknown | bot/handlers/start.py:33 | a missing or empty username is recorded as "unknown"; any other is kept |
| Start.ShowCabinet | bot/handlers/start.py:78-101 | the cabinet shows the worker's current client count and balance, or says the worker is unknown |
| Start.HandleStart | bot/handlers/start.py:30-76 | an admin gets the greeting and nothing is read; the Workers sheet changes only to add an unknown non-admin sender as pending |
| Start.KnownSenderIsNotAdded | bot/handlers/start.py:44-64 | a known sender is answered by role (cabinet, pending, declined, error) and never added twice |
| Start.NewcomerRegistersOnce | bot/handlers/start.py:65-117 | a newcomer is added as pending and every admin is told; a second `/start` answers "pending" and adds nothing |
| Start.RegistrationTagRoundTrip | bot/handlers/start.py:109-125 | the worker id put into the button data is the one read back |
| Start.WorkerIdOf | bot/handlers/start.py:125 | `int(data.split('_')[1])`, none where the field is missing or `int()` raises; the round trip is stated by Start.RegistrationTagRoundTrip |
| Start.HandleApprove | bot/handlers/start.py:119-147 | non-admins are refused; a bad id raises; a failed write changes nothing and says so; otherwise the worker with the id is approved and the admin and the worker are told, and that is the only change |
| Start.ApproveSetsRole | bot/handlers/start.py:119-147 | an admin's approval makes the worker with the id role `worker` whatever their earlier role, keeps the rest of their row, and tells the admin and the worker |
| Start.RegisterApproveOpensCabinet | bot/handlers/start.py:30-147 | register, approve, `/start`: the cabinet opens with no clients and a zero balance |
| Start.HandleDecline | bot/handlers/start.py:151-176 | as written: past the admin gate and the id parse, the handler always reports failure and changes nothing |
| Start.DeclineLeavesPending | bot/handlers/start.py:151-176 | as written, a declined newcomer's next `/start` still says the request is under review |
| Start.DeclineWorker | bot/handlers/start.py:160 | the intended write: only the first row with the id gets the role `declined` |
| Start.HandleDeclineIntended | bot/handlers/start.py:151-176 | corrected: non-admins are refused; a bad id raises; a failed write changes nothing and says so; otherwise the worker with the id is declined and both are told, and that is the only change |
| Start.DeclineIntendedIsSeen | bot/handlers/start.py:151-176 | corrected: a declined sender's next `/start` says the request was declined |

## Left out

- Message text, emoji, HTML, inline keyboards and `answer_callback_query` are not modelled. Each message is a constructor of `Chat.Note` carrying the values the text shows.
- Failed sends to Telegram are not modelled. The handlers log these and go on, so every send counts as delivered.
- The receipt upload in `bot/services/receipts.py` is not part of this model. Its result is a parameter: a link, or none on failure.
- Google Sheets access, worksheet lookup and the `gspread` API are left out. The sheets are `Tables` values. Column positions and the header row are dropped.
- The "timestamp" of a saved client is a parameter, not a clock read.
- Logging is left out.
- The CSV file built by `export_csv` is left out. Only the rows it writes are modelled, not the encoding or the upload.
- The library's handler dispatch and content-type filters (`register_handlers`) are left out. `Intake.ClientStep` routes each input to the step it is meant for.
- Concurrency is left out. Two handlers running at once on the same sheet, reading rows and writing back, are not modelled.
- Commission.Calc: amounts are integer cents, not floats, and rounding is half-up to the cent. Python's `round` on floats rounds to even on representation-exact ties, so a few half-cent values can differ by one cent.
- Commission.Rate: above 99999 clients the source's loop finds no tier and keeps its 5 % default. The model follows the code, not a 10 % rate without an upper bound.
- Sheets.IncBalance: balances are integer cents, so the float `round(current + delta, 2)` is modelled as exact addition.
- Text.ParseInt: Python's `int()` also accepts underscores between digits and non-ASCII digits. The model accepts surrounding whitespace and an optional sign followed by ASCII digits, which covers the button data the bot itself produces.
- Validators.IsPhoneIff: Python's `re` `\d` also matches non-ASCII decimal digits. The model accepts ASCII digits only, for the phone and the money patterns alike (Validators.IsMoneyIff).
- Text.Trim: whitespace is a fixed set of characters, namely ASCII and the Unicode spaces that `str.isspace` accepts. There is no normalisation.
- The admin views (`show_top_workers`, `show_withdrawals`, `export_csv`) end in a view value, not a message. The keyboards, the text layout and the CSV encoding are not modelled.
- After a payout is approved or declined, `show_withdrawals` redraws the list. That redraw is left out; the list itself is `Admin.PendingList`.
- A session value of the wrong kind (text where cents are expected) is treated as missing. In the source both raise, and both reach the same `except`.
- Admin.SortByBalance: stability is not proved. Python's `list.sort` keeps equal balances in input order; the model proves sortedness and permutation only.
- Start.HandleApprove: as in the source, approval does not check that the worker is pending. It also sets the role of an already declined or approved worker, which Start.ApproveSetsRole states.
- Fsm.NoStateWithData: a user with no state can still hold form data, because `set_data` on an unseen user does not set a state. The model follows the code.

## Findings

| source | as written | input that shows it | evidently intended | confidence | as-written member | corrected member |
|---|---|---|---|---|---|---|
| bot/handlers/admin.py:199-244 | `decline_withdrawal` sets DECLINED and refunds without checking that the request is still PENDING (`approve_withdrawal` checks nothing either) | worker 7 with balance 150.00 and request 1 for 50.00 still PENDING; admin 9 presses "decline" on request 1 twice; the balance ends at 250.00 | a settled request is final: a second press changes nothing, so a decline refunds exactly once | not executed | Payouts.DeclineTwiceRefundsTwice, Payouts.DoubleDeclineExample | Admin.DeclineWithdrawalOnce, Payouts.SettledIsFinal, Payouts.WithdrawThenDeclineTwiceRestores |
| bot/handlers/start.py:160 | `handle_decline` calls `sheets.decline_worker`, which `bot/sheets.py` does not define; the `AttributeError` is caught and the admin is told the decline failed | newcomer 5 is pending; an admin presses "decline_5"; the Workers sheet is unchanged and `/start` from 5 still answers "pending" | the worker's role becomes `declined`, mirroring `approve_worker`, so their next `/start` says the request was declined | not executed | Start.HandleDecline, Start.DeclineLeavesPending | Start.DeclineWorker, Start.HandleDeclineIntended, Start.DeclineIntendedIsSeen |
| bot/handlers/worker.py:386-399 | `process_withdrawal_amount` records the request, then debits the balance; if the debit raises, the `except` tells the worker the request failed but the PENDING row stays | worker 7 with balance 200.00 asks for 50.00; `create_withdrawal` succeeds and `inc_balance` raises; an admin declines request 1; the balance ends at 250.00 | a request reported failed leaves nothing behind, so nothing can be paid out or refunded for it | not executed | Withdrawals.FailedDebitKeepsRequest, Payouts.FailedDebitThenDeclineCredits, Payouts.FailedDebitExample | Withdrawals.WithdrawAtomic, Payouts.FailedRequestCannotBeRefunded, Payouts.AtomicRequestAllOrNothing |

=== FILE: admin.dfy ===
/**
 * The admin side: the panel, the three views over the tables (top workers,
 * pending payout requests, the export of finished payouts) and the two
 * buttons that settle a payout request. Every one of them first checks the
 * sender against the admin id list and refuses anyone else before reading
 * a table.
 */
module Admin {
  import opened Wrappers
  import Text
  import opened Chat
  import opened Sheets

  // ------------------------------------------------------------------ Gate

  /** `/admin` and the back button: the panel for an admin, a refusal for anyone else. */
  function Panel(admins: seq<int>, user: int): (r: Note)
    ensures r == AdminPanel <==> user in admins
    ensures r == Forbidden <==> user !in admins
  {
    if IsAdmin(admins, user) then AdminPanel else Forbidden
  }

  // ----------------------------------------------------------------- Views

  /** A list comprehension `[x for x in s if p(x)]`. */
  function Filter<T>(s: seq<T>, p: T -> bool): (r: seq<T>)
    ensures |r| <= |s|
    ensures forall i :: 0 <= i < |r| ==> p(r[i]) && r[i] in s
    ensures forall x :: x in s && p(x) ==> x in r
  {
    if s == [] then []
    else if p(s[0]) then [s[0]] + Filter(s[1..], p)
    else Filter(s[1..], p)
  }

  /** Filtering a concatenation filters each part, keeping their order. */
  lemma {:induction false} FilterConcat<T>(a: seq<T>, b: seq<T>, p: T -> bool)
    ensures Filter(a + b, p) == Filter(a, p) + Filter(b, p)
  {
    if a != [] {
      var c := a + b;
      assert c != [] && c[0] == a[0] && c[1..] == a[1..] + b;
      FilterConcat(a[1..], b, p);
      if p(a[0]) {
        assert [a[0]] + (Filter(a[1..], p) + Filter(b, p)) == ([a[0]] + Filter(a[1..], p)) + Filter(b, p);
      }
    } else {
      assert a + b == b;
    }
  }

  /** Nothing is kept exactly when nothing matches. */
  lemma FilterEmpty<T>(s: seq<T>, p: T -> bool)
    ensures Filter(s, p) == [] <==> forall x :: x in s ==> !p(x)
  {
    if Filter(s, p) != [] {
      assert Filter(s, p)[0] in s;
    }
  }

  /** One element is kept exactly when it matches. */
  lemma FilterSingleton<T>(x: T, p: T -> bool)
    ensures Filter([x], p) == if p(x) then [x] else []
  {
  }

  /** Each matching element is kept as many times as it occurs; no other is kept. */
  lemma {:induction false} FilterCount<T>(s: seq<T>, p: T -> bool, x: T)
    ensures multiset(Filter(s, p))[x] == if p(x) then multiset(s)[x] else 0
  {
    if s != [] {
      assert s == [s[0]] + s[1..];
      FilterCount(s[1..], p, x);
    }
  }

  /** Non-increasing balances from the front. */
  predicate ByBalance(s: seq<WorkerRow>) {
    forall i, j :: 0 <= i < j < |s| ==> s[i].balance >= s[j].balance
  }

  /** `x` placed after every row with a strictly higher balance, before the rest. */
  function InsertByBalance(x: WorkerRow, s: seq<WorkerRow>): (r: seq<WorkerRow>)
    requires ByBalance(s)
    ensures ByBalance(r)
    ensures multiset(r) == multiset(s) + multiset{x}
  {
    if s == [] || s[0].balance <= x.balance then [x] + s
    else
      var rest := InsertByBalance(x, s[1..]);
      BelowHead(x, s, rest);
      ConsByBalance(s[0], rest);
      assert s == [s[0]] + s[1..];
      [s[0]] + rest
  }

  /** A row at or above everything after it keeps the list sorted. */
  lemma ConsByBalance(h: WorkerRow, rest: seq<WorkerRow>)
    requires ByBalance(rest)
    requires forall j :: 0 <= j < |rest| ==> rest[j].balance <= h.balance
    ensures ByBalance([h] + rest)
  {
    var r := [h] + rest;
    forall i, j | 0 <= i < j < |r| ensures r[i].balance >= r[j].balance {
      if i > 0 {
        assert r[i] == rest[i - 1] && r[j] == rest[j - 1];
      } else {
        assert r[j] == rest[j - 1];
      }
    }
  }

  /** What `x` is inserted into after the head stays at or below the head. */
  lemma BelowHead(x: WorkerRow, s: seq<WorkerRow>, rest: seq<WorkerRow>)
    requires ByBalance(s) && |s| > 0 && s[0].balance > x.balance
    requires multiset(rest) == multiset(s[1..]) + multiset{x}
    ensures forall j :: 0 <= j < |rest| ==> rest[j].balance <= s[0].balance
  {
    forall j | 0 <= j < |rest| ensures rest[j].balance <= s[0].balance {
      assert rest[j] in multiset(rest);
      if rest[j] != x {
        assert rest[j] in multiset(s[1..]);
        var k :| 0 <= k < |s[1..]| && s[1..][k] == rest[j];
        assert s[k + 1] == rest[j];
      }
    }
  }

  /**
   * A stable sort on balance, highest first: Python's
   * `sort(key=balance, reverse=True)`.
   */
  function SortByBalance(s: seq<WorkerRow>): (r: seq<WorkerRow>)
    ensures ByBalance(r)
    ensures multiset(r) == multiset(s)
  {
    if s == [] then []
    else
      assert s == [s[0]] + s[1..];
      InsertByBalance(s[0], SortByBalance(s[1..]))
  }

  const TopSize: nat := 10

  function IsActive(w: WorkerRow): bool { w.role == RoleWorker }

  /** `show_top_workers`: approved workers by balance, highest first, at most ten. */
  function TopWorkers(ws: seq<WorkerRow>): seq<WorkerRow> {
    var sorted := SortByBalance(Filter(ws, IsActive));
    if |sorted| <= TopSize then sorted else sorted[..TopSize]
  }

  /** The sorted approved workers: exactly the approved rows, highest balance first. */
  lemma SortedActive(ws: seq<WorkerRow>)
    ensures var sorted := SortByBalance(Filter(ws, IsActive));
            && ByBalance(sorted)
            && |sorted| == |Filter(ws, IsActive)|
            && (forall i :: 0 <= i < |sorted| ==> sorted[i] in ws && sorted[i].role == RoleWorker)
            && forall w :: w in ws && w.role == RoleWorker ==> w in sorted
  {
    var f := Filter(ws, IsActive);
    var sorted := SortByBalance(f);
    assert |sorted| == |multiset(sorted)| == |multiset(f)| == |f|;
    forall i | 0 <= i < |sorted| ensures sorted[i] in ws && sorted[i].role == RoleWorker {
      assert sorted[i] in multiset(f);
    }
    forall w | w in ws && w.role == RoleWorker ensures w in sorted {
      assert w in multiset(f);
    }
  }

  /**
   * The first `n` of the sorted approved rows: still sorted, still approved
   * rows of `ws`, and every approved row left out is at most each of them.
   */
  lemma PrefixOutranks(ws: seq<WorkerRow>, sorted: seq<WorkerRow>, n: nat)
    requires ByBalance(sorted) && n <= |sorted|
    requires forall i :: 0 <= i < |sorted| ==> sorted[i] in ws && sorted[i].role == RoleWorker
    requires forall w :: w in ws && w.role == RoleWorker ==> w in sorted
    ensures var r := sorted[..n];
            && ByBalance(r)
            && (forall i :: 0 <= i < |r| ==> r[i] in ws && r[i].role == RoleWorker)
            && forall w :: w in ws && w.role == RoleWorker ==>
                 w in r || forall i :: 0 <= i < |r| ==> r[i].balance >= w.balance
  {
    var r := sorted[..n];
    forall w | w in ws && w.role == RoleWorker
      ensures w in r || forall i :: 0 <= i < |r| ==> r[i].balance >= w.balance
    {
      var k :| 0 <= k < |sorted| && sorted[k] == w;
      if k < n {
        assert r[k] == w;
      }
    }
  }

  /**
   * The top list holds approved workers only, highest balance first; it is
   * as long as it can be up to ten; and no approved worker left out has a
   * higher balance than anyone listed.
   */
  lemma TopWorkersRanked(ws: seq<WorkerRow>)
    ensures var r := TopWorkers(ws);
            && ByBalance(r)
            && (forall i :: 0 <= i < |r| ==> r[i] in ws && r[i].role == RoleWorker)
            && |r| == (if |Filter(ws, IsActive)| <= TopSize then |Filter(ws, IsActive)| else TopSize)
            && forall w :: w in ws && w.role == RoleWorker ==>
                 w in r || forall i :: 0 <= i < |r| ==> r[i].balance >= w.balance
  {
    var sorted := SortByBalance(Filter(ws, IsActive));
    SortedActive(ws);
    var n := if |sorted| <= TopSize then |sorted| else TopSize;
    assert TopWorkers(ws) == sorted[..n];
    PrefixOutranks(ws, sorted, n);
  }

  /** One line of the pending list: the request and its owner's username. */
  datatype PendingItem = PendingItem(id: int, tgId: int, username: string, amount: int)

  /** The username a list shows for a worker id: "unknown" when there is no such worker. */
  function UsernameOf(ws: seq<WorkerRow>, tgId: int): (r: string)
    ensures GetWorker(ws, tgId).Some? ==> r == GetWorker(ws, tgId).value.username
    ensures GetWorker(ws, tgId).None? ==> r == "unknown"
  {
    match GetWorker(ws, tgId)
    case Some(w) => w.username
    case None => "unknown"
  }

  function IsPending(w: WithdrawalRow): bool { w.status == StatusPending }

  function IsDone(w: WithdrawalRow): bool { w.status == StatusDone }

  function PendingItemOf(ws: seq<WorkerRow>, w: WithdrawalRow): PendingItem {
    PendingItem(w.id, w.tgId, UsernameOf(ws, w.tgId), w.amount)
  }

  function PendingItems(ws: seq<WorkerRow>, rows: seq<WithdrawalRow>): (r: seq<PendingItem>)
    ensures |r| == |rows|
    ensures forall i :: 0 <= i < |rows| ==> r[i] == PendingItemOf(ws, rows[i])
  {
    if rows == [] then [] else [PendingItemOf(ws, rows[0])] + PendingItems(ws, rows[1..])
  }

  /** `show_withdrawals`: the PENDING requests in table order. */
  function PendingList(t: Tables): seq<PendingItem> {
    PendingItems(t.workers, Filter(t.withdrawals, IsPending))
  }

  /**
   * The pending list shows every PENDING request and only those, each under
   * its owner's current username.
   */
  lemma PendingListShowsPending(t: Tables)
    ensures forall p :: p in PendingList(t) ==>
              exists w :: w in t.withdrawals && w.status == StatusPending && p == PendingItemOf(t.workers, w)
    ensures forall w :: w in t.withdrawals && w.status == StatusPending ==>
              PendingItemOf(t.workers, w) in PendingList(t)
  {
    var rows := Filter(t.withdrawals, IsPending);
    var r := PendingList(t);
    forall p | p in r
      ensures exists w :: w in t.withdrawals && w.status == StatusPending && p == PendingItemOf(t.workers, w)
    {
      var i :| 0 <= i < |r| && r[i] == p;
      assert rows[i] in t.withdrawals && IsPending(rows[i]);
    }
    forall w | w in t.withdrawals && w.status == StatusPending
      ensures PendingItemOf(t.workers, w) in r
    {
      assert IsPending(w);
      var i :| 0 <= i < |rows| && rows[i] == w;
      assert r[i] == PendingItemOf(t.workers, w);
    }
  }

  /** One line of the export: `ID, TG_ID, Username, Amount, Status, Date`. */
  datatype ExportRow = ExportRow(id: int, tgId: int, username: string, amount: int, status: string, date: string)

  function ExportRowOf(ws: seq<WorkerRow>, w: WithdrawalRow): ExportRow {
    ExportRow(w.id, w.tgId, UsernameOf(ws, w.tgId), w.amount, w.status, w.createdAt)
  }

  function ExportRowsOf(ws: seq<WorkerRow>, rows: seq<WithdrawalRow>): (r: seq<ExportRow>)
    ensures |r| == |rows|
    ensures forall i :: 0 <= i < |rows| ==> r[i] == ExportRowOf(ws, rows[i])
  {
    if rows == [] then [] else [ExportRowOf(ws, rows[0])] + ExportRowsOf(ws, rows[1..])
  }

  /** `export_csv`: the DONE requests in table order; `None` when there are none to export. */
  function Export(t: Tables): Option<seq<ExportRow>> {
    var done := Filter(t.withdrawals, IsDone);
    if done == [] then None else Some(ExportRowsOf(t.workers, done))
  }

  /**
   * The export holds exactly the finished payouts: every row says DONE, and
   * every DONE request is in it; with none, there is no file.
   */
  lemma ExportHoldsDone(t: Tables)
    ensures Export(t).None? <==> forall w :: w in t.withdrawals ==> w.status != StatusDone
    ensures Export(t).Some? ==> forall x :: x in Export(t).value ==> x.status == StatusDone
    ensures Export(t).Some? ==> forall w :: w in t.withdrawals && w.status == StatusDone ==>
              ExportRowOf(t.workers, w) in Export(t).value
  {
    var done := Filter(t.withdrawals, IsDone);
    if done != [] {
      var r := Export(t).value;
      forall x | x in r ensures x.status == StatusDone {
        var i :| 0 <= i < |r| && r[i] == x;
        assert IsDone(done[i]);
      }
      forall w | w in t.withdrawals && w.status == StatusDone
        ensures ExportRowOf(t.workers, w) in r
      {
        assert IsDone(w);
        var i :| 0 <= i < |done| && done[i] == w;
        assert r[i] == ExportRowOf(t.workers, w);
      }
    } else {
      assert forall w :: w in t.withdrawals ==> !IsDone(w);
    }
  }

  /** The DONE requests of `a + b` are exported as those of `a`, then those of `b`. */
  lemma ExportInTableOrder(ws: seq<WorkerRow>, a: seq<WithdrawalRow>, b: seq<WithdrawalRow>)
    ensures ExportRowsOf(ws, Filter(a + b, IsDone))
            == ExportRowsOf(ws, Filter(a, IsDone)) + ExportRowsOf(ws, Filter(b, IsDone))
  {
    FilterConcat(a, b, IsDone);
    ExportRowsConcat(ws, Filter(a, IsDone), Filter(b, IsDone));
  }

  lemma {:induction false} ExportRowsConcat(ws: seq<WorkerRow>, a: seq<WithdrawalRow>, b: seq<WithdrawalRow>)
    ensures ExportRowsOf(ws, a + b) == ExportRowsOf(ws, a) + ExportRowsOf(ws, b)
  {
    var l, r := ExportRowsOf(ws, a + b), ExportRowsOf(ws, a) + ExportRowsOf(ws, b);
    assert |l| == |r|;
    forall i | 0 <= i < |l| ensures l[i] == r[i] {
      if i < |a| {
        assert (a + b)[i] == a[i];
      } else {
        assert (a + b)[i] == b[i - |a|];
      }
    }
  }

  // ----------------------------------------------------------- View buttons

  /** What a view button shows. */
  datatype View =
    | TopList(top: seq<WorkerRow>)
    | NoWorkersYet
    | PendingView(items: seq<PendingItem>)
    | NoPendingRequests
    | ExportFile(lines: seq<ExportRow>)
    | NothingToExport
    | ViewError

  /** The answer to a view button: a refusal, or a view. */
  datatype ViewReply = Refused | Shown(view: View)

  /**
   * `show_top_workers`. A non-admin is refused before anything is read.
   * Remote call 0 reads the Workers table; when it raises, the error text
   * is shown.
   */
  function ShowTopWorkers(admins: seq<int>, user: int, t: Tables, fault: Option<nat>): (r: ViewReply)
    ensures r == Refused <==> user !in admins
    ensures user in admins && Raises(fault, 0) ==> r == Shown(ViewError)
    ensures user in admins && !Raises(fault, 0) ==>
              (r == Shown(NoWorkersYet) <==> forall w :: w in t.workers ==> w.role != RoleWorker)
    ensures user in admins && !Raises(fault, 0) && (exists w :: w in t.workers && w.role == RoleWorker) ==>
              r == Shown(TopList(TopWorkers(t.workers)))
    ensures r.Shown? && r.view.TopList? ==>
              && r.view.top == TopWorkers(t.workers) && 0 < |r.view.top| <= TopSize
              && forall i :: 0 <= i < |r.view.top| ==> r.view.top[i] in t.workers
  {
    if !IsAdmin(admins, user) then Refused
    else if Raises(fault, 0) then Shown(ViewError)
    else
      var top := TopWorkers(t.workers);
      TopWorkersRanked(t.workers);
      if top == [] then Shown(NoWorkersYet) else Shown(TopList(top))
  }

  /**
   * `show_withdrawals`. A non-admin is refused before anything is read.
   * Remote call 0 reads the Withdrawals table and call `k`, for `k` from 1,
   * looks up the owner of the `k`-th PENDING request; any of them raising
   * shows the error text.
   */
  function ShowWithdrawals(admins: seq<int>, user: int, t: Tables, fault: Option<nat>): (r: ViewReply)
    ensures r == Refused <==> user !in admins
    ensures user in admins && fault.Some? && fault.value <= |Filter(t.withdrawals, IsPending)| ==>
              r == Shown(ViewError)
    ensures user in admins && !(fault.Some? && fault.value <= |Filter(t.withdrawals, IsPending)|) ==>
              (r == Shown(NoPendingRequests) <==> forall w :: w in t.withdrawals ==> w.status != StatusPending)
    ensures user in admins && !(fault.Some? && fault.value <= |Filter(t.withdrawals, IsPending)|)
            && (exists w :: w in t.withdrawals && w.status == StatusPending) ==>
              r == Shown(PendingView(PendingList(t)))
    ensures r.Shown? && r.view.PendingView? ==> r.view.items == PendingList(t) && |r.view.items| > 0
  {
    var pending := Filter(t.withdrawals, IsPending);
    if !IsAdmin(admins, user) then Refused
    else if fault.Some? && fault.value <= |pending| then Shown(ViewError)
    else
      FilterEmpty(t.withdrawals, IsPending);
      if pending == [] then Shown(NoPendingRequests) else Shown(PendingView(PendingList(t)))
  }

  /**
   * `export_csv`. A non-admin is refused before anything is read. Remote
   * call 0 reads the Withdrawals table and call `k`, for `k` from 1, looks
   * up the owner of the `k`-th DONE request; any of them raising sends the
   * error text instead of the file.
   */
  function ExportCsv(admins: seq<int>, user: int, t: Tables, fault: Option<nat>): (r: ViewReply)
    ensures r == Refused <==> user !in admins
    ensures user in admins && fault.Some? && fault.value <= |Filter(t.withdrawals, IsDone)| ==>
              r == Shown(ViewError)
    ensures user in admins && !(fault.Some? && fault.value <= |Filter(t.withdrawals, IsDone)|) ==>
              (r == Shown(NothingToExport) <==> forall w :: w in t.withdrawals ==> w.status != StatusDone)
    ensures user in admins && !(fault.Some? && fault.value <= |Filter(t.withdrawals, IsDone)|)
            && (exists w :: w in t.withdrawals && w.status == StatusDone) ==>
              Export(t).Some? && r == Shown(ExportFile(Export(t).value))
    ensures r.Shown? && r.view.ExportFile? ==> Export(t) == Some(r.view.lines)
  {
    var done := Filter(t.withdrawals, IsDone);
    if !IsAdmin(admins, user) then Refused
    else if fault.Some? && fault.value <= |done| then Shown(ViewError)
    else
      ExportHoldsDone(t);
      match Export(t)
      case None => Shown(NothingToExport)
      case Some(rows) => Shown(ExportFile(rows))
  }

  // ---------------------------------------------------------------- Settle

  /** The request id in the third `_`-separated field of the button data; `None` where `int()` raises. */
  function WithdrawalIdOf(tag: string): Option<int> {
    match Text.Field(tag, '_', 2)
    case Some(f) => Text.ParseInt(f)
    case None => None
  }

  /** The button data of the two settle buttons for request `id`. */
  function SettleTag(verb: string, id: int): string {
    "withdraw_" + verb + "_" + Text.IntToString(id)
  }

  /** The id comes back out of the button data it was put in. */
  lemma SettleTagRoundTrip(verb: string, id: int)
    requires '_' !in verb
    ensures WithdrawalIdOf(SettleTag(verb, id)) == Some(id)
  {
    Text.NumberHasNo(id, '_');
    Text.ThirdField("withdraw", verb, Text.IntToString(id), '_');
    assert SettleTag(verb, id) == "withdraw" + ['_'] + verb + ['_'] + Text.IntToString(id);
    Text.ParseIntRoundTrip(id);
  }

  /**
   * `approve_withdrawal`. The id is parsed before the handler's `try`, so a
   * bad id escapes. Remote calls: 0 reads the table, 1 sets the status.
   * The worker's notice cannot fail the handler.
   */
  function ApproveWithdrawal(admins: seq<int>, user: int, chat: int, tag: string, t: Tables,
                             fault: Option<nat>): (r: Handled)
    ensures r.tables.workers == t.workers && r.tables.clients == t.clients
    ensures user !in admins ==> r == Handled(t, [Send(chat, Forbidden)], false)
    ensures r.raised <==> user in admins && WithdrawalIdOf(tag).None?
    ensures r.tables != t ==>
              && user in admins && WithdrawalIdOf(tag).Some?
              && FindWithdrawal(t.withdrawals, WithdrawalIdOf(tag).value).Some?
              && r.tables.withdrawals == UpdateWithdrawal(t.withdrawals, WithdrawalIdOf(tag).value, StatusDone)
  {
    if !IsAdmin(admins, user) then Handled(t, [Send(chat, Forbidden)], false)
    else
      match WithdrawalIdOf(tag)
      case None => Handled(t, [], true)
      case Some(id) =>
        if Raises(fault, 0) then Handled(t, [Send(chat, ApprovalError)], false)
        else
          match FindWithdrawal(t.withdrawals, id)
          case None => Handled(t, [Send(chat, WithdrawalNotFound)], false)
          case Some(i) =>
            var row := t.withdrawals[i];
            if Raises(fault, 1) then Handled(t, [Send(chat, ApprovalError)], false)
            else Handled(t.(withdrawals := UpdateWithdrawal(t.withdrawals, id, StatusDone)),
                         [Send(row.tgId, PayoutDone(row.amount)), Send(chat, PayoutApproved(id))], false)
  }

  /**
   * `decline_withdrawal`. As approval, then call 2 gives the recorded amount
   * back to the request's owner. The status is not checked first.
   */
  function DeclineWithdrawal(admins: seq<int>, user: int, chat: int, tag: string, t: Tables,
                             fault: Option<nat>): (r: Handled)
    ensures r.tables.clients == t.clients
    ensures user !in admins ==> r == Handled(t, [Send(chat, Forbidden)], false)
    ensures r.raised <==> user in admins && WithdrawalIdOf(tag).None?
    ensures r.tables != t ==>
              && user in admins && WithdrawalIdOf(tag).Some?
              && FindWithdrawal(t.withdrawals, WithdrawalIdOf(tag).value).Some?
              && r.tables.withdrawals == UpdateWithdrawal(t.withdrawals, WithdrawalIdOf(tag).value, StatusDeclined)
    ensures r.tables.workers != t.workers ==>
              && user in admins && WithdrawalIdOf(tag).Some?
              && FindWithdrawal(t.withdrawals, WithdrawalIdOf(tag).value).Some?
              && var row := t.withdrawals[FindWithdrawal(t.withdrawals, WithdrawalIdOf(tag).value).value];
                 r.tables.workers == IncBalance(t.workers, row.tgId, row.amount)
  {
    if !IsAdmin(admins, user) then Handled(t, [Send(chat, Forbidden)], false)
    else
      match WithdrawalIdOf(tag)
      case None => Handled(t, [], true)
      case Some(id) =>
        if Raises(fault, 0) then Handled(t, [Send(chat, DeclineError)], false)
        else
          match FindWithdrawal(t.withdrawals, id)
          case None => Handled(t, [Send(chat, WithdrawalNotFound)], false)
          case Some(i) =>
            var row := t.withdrawals[i];
            var t1 := t.(withdrawals := UpdateWithdrawal(t.withdrawals, id, StatusDeclined));
            if Raises(fault, 1) then Handled(t, [Send(chat, DeclineError)], false)
            else if Raises(fault, 2) then Handled(t1, [Send(chat, DeclineError)], false)
            else Handled(t1.(workers := IncBalance(t.workers, row.tgId, row.amount)),
                         [Send(row.tgId, PayoutDeclined(row.amount)), Send(chat, PayoutRefused(id))], false)
  }

  /**
   * Declining a request that is there, with no failure: its status becomes
   * DECLINED and its owner gets the recorded amount back.
   */
  lemma DeclineRefunds(admins: seq<int>, user: int, chat: int, tag: string, t: Tables, id: int)
    requires user in admins && WithdrawalIdOf(tag) == Some(id)
    requires FindWithdrawal(t.withdrawals, id).Some?
    ensures var r := DeclineWithdrawal(admins, user, chat, tag, t, None);
            var row := t.withdrawals[FindWithdrawal(t.withdrawals, id).value];
            && r.tables.withdrawals == UpdateWithdrawal(t.withdrawals, id, StatusDeclined)
            && r.tables.workers == IncBalance(t.workers, row.tgId, row.amount)
            && r.effects == [Send(row.tgId, PayoutDeclined(row.amount)), Send(chat, PayoutRefused(id))]
  {
    var row := t.withdrawals[FindWithdrawal(t.withdrawals, id).value];
    var t1 := t.(withdrawals := UpdateWithdrawal(t.withdrawals, id, StatusDeclined));
    assert DeclineWithdrawal(admins, user, chat, tag, t, None)
           == Handled(t1.(workers := IncBalance(t.workers, row.tgId, row.amount)),
                      [Send(row.tgId, PayoutDeclined(row.amount)), Send(chat, PayoutRefused(id))], false);
  }

  /** Approving a request that is there, with no failure: its status becomes DONE, balances stay. */
  lemma ApproveMarksDone(admins: seq<int>, user: int, chat: int, tag: string, t: Tables, id: int)
    requires user in admins && WithdrawalIdOf(tag) == Some(id)
    requires FindWithdrawal(t.withdrawals, id).Some?
    ensures var r := ApproveWithdrawal(admins, user, chat, tag, t, None);
            var row := t.withdrawals[FindWithdrawal(t.withdrawals, id).value];
            && r.tables.withdrawals == UpdateWithdrawal(t.withdrawals, id, StatusDone)
            && r.tables.workers == t.workers
            && r.effects == [Send(row.tgId, PayoutDone(row.amount)), Send(chat, PayoutApproved(id))]
  {
  }

  // ------------------------------------------------- Settling once (corrected)

  /** The request the button names is there and no longer PENDING. */
  predicate AlreadySettledIn(t: Tables, tag: string) {
    && WithdrawalIdOf(tag).Some?
    && FindWithdrawal(t.withdrawals, WithdrawalIdOf(tag).value).Some?
    && t.withdrawals[FindWithdrawal(t.withdrawals, WithdrawalIdOf(tag).value).value].status != StatusPending
  }

  /**
   * Approval that acts only on a PENDING request: a request already approved
   * or declined is left alone and the admin is told so.
   */
  function ApproveWithdrawalOnce(admins: seq<int>, user: int, chat: int, tag: string, t: Tables,
                                 fault: Option<nat>): (r: Handled)
    ensures AlreadySettledIn(t, tag) ==> r.tables == t
    ensures !AlreadySettledIn(t, tag) ==> r == ApproveWithdrawal(admins, user, chat, tag, t, fault)
  {
    if IsAdmin(admins, user) && !Raises(fault, 0) && AlreadySettledIn(t, tag) then
      Handled(t, [Send(chat, AlreadySettled(WithdrawalIdOf(tag).value))], false)
    else ApproveWithdrawal(admins, user, chat, tag, t, fault)
  }

  /** Declining that acts only on a PENDING request, so an amount is given back at most once. */
  function DeclineWithdrawalOnce(admins: seq<int>, user: int, chat: int, tag: string, t: Tables,
                                 fault: Option<nat>): (r: Handled)
    ensures AlreadySettledIn(t, tag) ==> r.tables == t
    ensures !AlreadySettledIn(t, tag) ==> r == DeclineWithdrawal(admins, user, chat, tag, t, fault)
  {
    if IsAdmin(admins, user) && !Raises(fault, 0) && AlreadySettledIn(t, tag) then
      Handled(t, [Send(chat, AlreadySettled(WithdrawalIdOf(tag).value))], false)
    else DeclineWithdrawal(admins, user, chat, tag, t, fault)
  }
}

=== FILE: chat.dfy ===
/**
 * The chat side of the bot, reduced to what the handlers decide: who an
 * update comes from, and which kind of message goes to whom. The wording,
 * keyboards and formatting of the messages are not modelled.
 */
module Chat {

  /** A text message: its sender and the chat it was written in. */
  datatype Message = Message(fromUser: int, chatId: int, text: string)

  /** A button press: its sender, the chat of the message carrying the button, the button's data. */
  datatype Callback = Callback(fromUser: int, chatId: int, data: string)

  /** The kind of a message the bot sends. */
  datatype Note =
    | Ask(field: string)
    | Rejected(field: string)
    | AmountNotPositive
    | ReceiptSaved
    | ReceiptFailed
    | Confirmation
    | ClientCancelled
    | Forbidden
    | AdminGreeting
    | AdminPanel
    | Cabinet(clientsCount: int, balance: int)
    | WorkerNotFound
    | AwaitingApproval
    | RegistrationDeclined
    | UnknownRole
    | RegistrationSent
    | RegistrationRequest(tgId: int, username: string)
    | WorkerApproved(tgId: int)
    | ApprovalNotice
    | ApproveFailed
    | WorkerDeclined(tgId: int)
    | DeclineNotice
    | DeclineFailed
    | NewClient(workerUsername: string, amount: int, commission: int, status: string)
    | ClientSaved(commission: int)
    | SaveFailed
    | Balance(balance: int)
    | NoFunds
    | WithdrawalRequested(tgId: int, username: string, amount: int, id: int)
    | WithdrawalSent(amount: int)
    | InsufficientFunds(balance: int)
    | WithdrawalFailed
    | WithdrawalNotFound
    | PayoutDone(amount: int)
    | PayoutDeclined(amount: int)
    | PayoutApproved(id: int)
    | PayoutRefused(id: int)
    | ApprovalError
    | DeclineError
    | AlreadySettled(id: int)

  /** One message sent to one chat. */
  datatype Effect = Send(to: int, note: Note)

  /** `note` sent to every admin, in list order. */
  function Broadcast(admins: seq<int>, note: Note): (r: seq<Effect>)
    ensures |r| == |admins|
    ensures forall i :: 0 <= i < |r| ==> r[i] == Send(admins[i], note)
  {
    if admins == [] then [] else [Send(admins[0], note)] + Broadcast(admins[1..], note)
  }

  /** A broadcast followed by one more message: the admins in order, then `last`. */
  lemma BroadcastThen(admins: seq<int>, note: Note, last: Effect)
    ensures var r := Broadcast(admins, note) + [last];
            && |r| == |admins| + 1 && r[|admins|] == last
            && forall i :: 0 <= i < |admins| ==> r[i] == Send(admins[i], note)
  {
  }

  /** Membership in the configured admin id list. */
  predicate IsAdmin(admins: seq<int>, user: int) {
    user in admins
  }
}

=== FILE: commission.dfy ===
/**
 * The commission a worker earns on one order: a rate picked from an ordered
 * table of client-count tiers, applied to the order amount and rounded to the
 * cent. Amounts are integer cents (kopecks), rates integer percents.
 */
module Commission {

  /** A tier applies to every worker with at most `maxClients` clients. */
  datatype Tier = Tier(maxClients: int, ratePercent: nat)

  /** The tier table, scanned in this order. */
  const Thresholds: seq<Tier> := [Tier(10, 5), Tier(99999, 10)]

  /** The rate used when no tier applies. */
  const DefaultRate: nat := 5

  /** Tier `i` is the first one from position `k` on that admits `count`. */
  predicate FirstAdmitting(tiers: seq<Tier>, count: int, k: nat, i: int) {
    k <= i < |tiers| && count <= tiers[i].maxClients
    && forall j :: k <= j < i ==> count > tiers[j].maxClients
  }

  /**
   * The table scan from position `k`: the first tier admitting `count` sets
   * the rate; with none, `default` does.
   */
  function RateFrom(tiers: seq<Tier>, count: int, default: nat, k: nat): (r: nat)
    requires k <= |tiers|
    ensures (forall i :: k <= i < |tiers| ==> count > tiers[i].maxClients) ==> r == default
    decreases |tiers| - k
  {
    if k == |tiers| then default
    else if count <= tiers[k].maxClients then tiers[k].ratePercent
    else RateFrom(tiers, count, default, k + 1)
  }

  /** The first tier from position `k` on that admits `count` sets the rate. */
  lemma {:induction false} RateFromFirst(tiers: seq<Tier>, count: int, default: nat, k: nat, i: nat)
    requires FirstAdmitting(tiers, count, k, i)
    ensures RateFrom(tiers, count, default, k) == tiers[i].ratePercent
    decreases i - k
  {
    if k < i {
      assert count > tiers[k].maxClients;
      RateFromFirst(tiers, count, default, k + 1, i);
    }
  }

  /** The commission rate, in percent, for a worker with `count` clients. */
  function Rate(count: int): nat
  {
    RateFrom(Thresholds, count, DefaultRate, 0)
  }

  /** Rounds hundredths of a cent to the nearest cent, halves upwards. */
  function RoundToCents(x: int): (r: int)
    ensures 100 * r - 50 <= x < 100 * r + 50
  {
    (x + 50) / 100
  }

  /** The commission, in cents, on an order of `amount` cents. */
  function Calc(count: int, amount: int): (r: int)
    ensures 100 * r - 50 <= amount * Rate(count) < 100 * r + 50
  {
    RoundToCents(amount * Rate(count))
  }

  /** Up to ten clients: 5%. */
  lemma RateUpToTen(count: int)
    requires count <= 10
    ensures Rate(count) == 5
  {
    RateFromFirst(Thresholds, count, DefaultRate, 0, 0);
  }

  /** Eleven to 99999 clients: 10%. */
  lemma RateAboveTen(count: int)
    requires 10 < count <= 99999
    ensures Rate(count) == 10
  {
    assert count > Thresholds[0].maxClients && count <= Thresholds[1].maxClients;
    RateFromFirst(Thresholds, count, DefaultRate, 0, 1);
  }

  /** Past the last tier no tier applies and the default 5% is used. */
  lemma RatePastTable(count: int)
    requires count > 99999
    ensures Rate(count) == DefaultRate == 5
  {
    assert forall i :: 0 <= i < |Thresholds| ==> count > Thresholds[i].maxClients;
  }

  lemma RateIsFiveOrTen(count: int)
    ensures Rate(count) == 5 || Rate(count) == 10
  {
    if count <= 10 {
      RateUpToTen(count);
    } else if count <= 99999 {
      RateAboveTen(count);
    } else {
      RatePastTable(count);
    }
  }

  lemma CalcNonNegative(count: int, amount: int)
    requires amount >= 0
    ensures Calc(count, amount) >= 0
  {
    var k := Rate(count);
    assert amount * k >= 0;
  }

  /** A larger order never earns a smaller commission. */
  lemma CalcMonotone(count: int, a: int, b: int)
    requires a <= b
    ensures Calc(count, a) <= Calc(count, b)
  {
    var k := Rate(count);
    assert a * k <= b * k by {
      assert (b - a) * k >= 0;
    }
  }

  /** An order of 1000.00 earns 50.00 at five clients. */
  lemma CalcFewClientsExample()
    ensures Calc(5, 100000) == 5000
  {
    RateUpToTen(5);
    assert 100000 * Rate(5) == 500000;
  }

  /** An order of 1000.00 earns 100.00 at twenty clients. */
  lemma CalcManyClientsExample()
    ensures Calc(20, 100000) == 10000
  {
    RateAboveTen(20);
    assert 100000 * Rate(20) == 1000000;
  }
}

=== FILE: forms.dfy ===
/**
 * The two conversations a worker can be in: adding a client (phone, name,
 * messenger, order link, amount, status, receipt, confirmation) and asking
 * for a payout (amount). A session is a store entry whose data holds the
 * fields collected so far.
 */
module Forms {
  import opened Wrappers
  import opened Text
  import opened Validators
  import opened Fsm
  import opened Chat
  import opened Sheets

  datatype FormState =
    | ClientPhone | ClientName | ClientMessenger | ClientOrderLink
    | ClientAmount | ClientStatus | ClientReceipt | ClientConfirm
    | WithdrawalAmount

  /** A collected field: text, or an amount in cents. */
  datatype Value = Str(str: string) | Cents(cents: int)

  type Session = UserState<FormState, Value>

  const PhoneKey: string := "phone"
  const NameKey: string := "name"
  const MessengerKey: string := "messenger"
  const OrderLinkKey: string := "order_link"
  const AmountKey: string := "amount"
  const StatusKey: string := "status"
  const ReceiptKey: string := "receipt_url"

  /** The messenger labels the buttons map to. */
  const Telegram: string := "Telegram"
  const WhatsApp: string := "WhatsApp"
  const OtherMessenger: string := "Другое"

  /** The order statuses the buttons map to. */
  const WantsToBuy: string := "хочет купить"
  const AwaitingPayment: string := "ждём оплаты"
  const Paid: string := "оплатил"

  /** What one message or button press does to the sender's session. */
  datatype Step = Step(session: Session, replies: seq<Note>, raised: bool)

  /** What a step that also touches the tables does. */
  datatype Outcome = Outcome(session: Session, tables: Tables, effects: seq<Effect>)

  /** The session every finished, cancelled or failed conversation is reset to. */
  function Cleared(): Session {
    Fresh()
  }

  /** The fields the intake flow collects, in flow order. */
  datatype FormField =
    | PhoneField | NameField | MessengerField | OrderLinkField
    | AmountField | StatusField | ReceiptField

  /** The data key each field is stored under. */
  function KeyOf(f: FormField): string {
    match f
    case PhoneField => PhoneKey
    case NameField => NameKey
    case MessengerField => MessengerKey
    case OrderLinkField => OrderLinkKey
    case AmountField => AmountKey
    case StatusField => StatusKey
    case ReceiptField => ReceiptKey
  }

  /** Different fields are stored under different keys. */
  lemma KeyInjective(f: FormField, g: FormField)
    requires f != g
    ensures KeyOf(f) != KeyOf(g)
  {
    if f in {AmountField, StatusField} && g in {AmountField, StatusField} {
      assert KeyOf(f)[0] != KeyOf(g)[0];
    }
  }

  /** What the intake flow stores for field `f` is well formed. */
  predicate FieldOk(f: FormField, v: Value) {
    match f
    case PhoneField => v.Str? && Trimmed(v.str) && PhoneMinDigits <= |v.str| <= PhoneMaxDigits && AllDigits(v.str)
    case NameField => v.Str? && |v.str| >= 2 && Trimmed(v.str)
    case MessengerField => v.Str? && v.str in {Telegram, WhatsApp, OtherMessenger}
    case OrderLinkField => v.Str? && |v.str| >= 3 && Trimmed(v.str)
    case AmountField => v.Cents? && v.cents > 0
    case StatusField => v.Str? && v.str in {WantsToBuy, AwaitingPayment, Paid}
    case ReceiptField => v.Str?
  }

  /** Field `f` holds a well-formed value. */
  predicate Has(e: Session, f: FormField) {
    KeyOf(f) in e.data && FieldOk(f, e.data[KeyOf(f)])
  }

  /** How many intake fields are collected on reaching state `s`. */
  function Reached(s: Option<FormState>): nat {
    match s
    case Some(ClientName) => 1
    case Some(ClientMessenger) => 2
    case Some(ClientOrderLink) => 3
    case Some(ClientAmount) => 4
    case Some(ClientStatus) => 5
    case Some(ClientReceipt) => 6
    case Some(ClientConfirm) => 7
    case _ => 0
  }

  /** The first `n` intake fields, in flow order, are collected and well formed. */
  predicate Collected(e: Session, n: nat) {
    && (n >= 1 ==> Has(e, PhoneField))
    && (n >= 2 ==> Has(e, NameField))
    && (n >= 3 ==> Has(e, MessengerField))
    && (n >= 4 ==> Has(e, OrderLinkField))
    && (n >= 5 ==> Has(e, AmountField))
    && (n >= 6 ==> Has(e, StatusField))
    && (n >= 7 ==> Has(e, ReceiptField))
  }

  /**
   * The intake invariant: every field before the current state is there and
   * well formed, and only a paid order waits for a receipt.
   */
  predicate Valid(e: Session) {
    && Collected(e, Reached(e.state))
    && (e.state == Some(ClientReceipt) ==> e.data[StatusKey] == Str(Paid))
  }
}

=== FILE: fsm.dfy ===
/**
 * The in-memory conversation store: a map from (user id, chat id) to a state
 * and a dictionary of collected fields. Entries are created on first touch,
 * by reads as well as writes, and are never removed; clearing resets an
 * entry to no state and no data.
 */
module Fsm {
  import opened Wrappers
  import opened Chat

  /** One conversation: the current form state, if any, and the fields collected so far. */
  datatype UserState<S, V> = UserState(state: Option<S>, data: map<string, V>)

  /** (user id, chat id). */
  type Key = (int, int)

  type Store<S, V> = map<Key, UserState<S, V>>

  /** What `get_data` hands back: the whole dictionary, or the value of one key. */
  datatype View<V> = Whole(fields: map<string, V>) | Field(value: Option<V>)

  /** The entry a new key gets. */
  function Fresh<S, V>(): UserState<S, V> {
    UserState(None, map[])
  }

  /** `a` and `b` agree on every key except `x`. */
  ghost predicate AgreeExcept<K(!new), W>(a: map<K, W>, b: map<K, W>, x: K) {
    forall y :: y != x ==> (y in a <==> y in b) && (y in a ==> a[y] == b[y])
  }

  /** The entry at `k` as the store sees it: a missing key reads as a fresh entry. */
  function Entry<S, V>(st: Store<S, V>, k: Key): UserState<S, V> {
    if k in st then st[k] else Fresh()
  }

  /** An entry moved to state `s`, its data kept. */
  function WithState<S, V>(e: UserState<S, V>, s: S): UserState<S, V> {
    e.(state := Some(s))
  }

  /** An entry with `data[key] = value`, its state kept. */
  function WithField<S, V>(e: UserState<S, V>, key: string, value: V): UserState<S, V> {
    e.(data := e.data[key := value])
  }

  /** `data.get(key)`. */
  function Lookup<S, V>(e: UserState<S, V>, key: string): Option<V> {
    if key in e.data then Some(e.data[key]) else None
  }

  /** The lookup that creates the entry when it is missing. */
  function Touch<S, V>(st: Store<S, V>, k: Key): (r: Store<S, V>)
    ensures k in r && r[k] == Entry(st, k)
    ensures k !in st ==> r[k].state == None && r[k].data == map[]
    ensures AgreeExcept(st, r, k)
  {
    if k in st then st else st[k := Fresh()]
  }

  function SetState<S, V>(st: Store<S, V>, user: int, chat: int, s: S): (r: Store<S, V>)
    ensures (user, chat) in r
    ensures r[(user, chat)].state == Some(s)
    ensures r[(user, chat)].data == Entry(st, (user, chat)).data
    ensures AgreeExcept(st, r, (user, chat))
  {
    var k := (user, chat);
    Touch(st, k)[k := WithState(Entry(st, k), s)]
  }

  function GetState<S, V>(st: Store<S, V>, user: int, chat: int): (r: (Store<S, V>, Option<S>))
    ensures r.1 == Entry(st, (user, chat)).state
    ensures (user, chat) in r.0 && r.0[(user, chat)] == Entry(st, (user, chat))
    ensures AgreeExcept(st, r.0, (user, chat))
  {
    var k := (user, chat);
    (Touch(st, k), Entry(st, k).state)
  }

  function ClearState<S, V>(st: Store<S, V>, user: int, chat: int): (r: Store<S, V>)
    ensures (user, chat) in r
    ensures r[(user, chat)].state == None && r[(user, chat)].data == map[]
    ensures AgreeExcept(st, r, (user, chat))
  {
    Touch(st, (user, chat))[(user, chat) := Fresh()]
  }

  function SetData<S, V>(st: Store<S, V>, user: int, chat: int, key: string, value: V): (r: Store<S, V>)
    ensures (user, chat) in r
    ensures r[(user, chat)].state == Entry(st, (user, chat)).state
    ensures key in r[(user, chat)].data && r[(user, chat)].data[key] == value
    ensures AgreeExcept(Entry(st, (user, chat)).data, r[(user, chat)].data, key)
    ensures AgreeExcept(st, r, (user, chat))
  {
    var k := (user, chat);
    Touch(st, k)[k := WithField(Entry(st, k), key, value)]
  }

  /** `key` absent: the whole dictionary, as a value of its own; present: `dict.get(key)`. */
  function GetData<S, V>(st: Store<S, V>, user: int, chat: int, key: Option<string>): (r: (Store<S, V>, View<V>))
    ensures key.None? ==> r.1 == Whole(Entry(st, (user, chat)).data)
    ensures key.Some? && key.value in Entry(st, (user, chat)).data ==>
              r.1 == Field(Some(Entry(st, (user, chat)).data[key.value]))
    ensures key.Some? && key.value !in Entry(st, (user, chat)).data ==> r.1 == Field(None)
    ensures (user, chat) in r.0 && r.0[(user, chat)] == Entry(st, (user, chat))
    ensures AgreeExcept(st, r.0, (user, chat))
  {
    var k := (user, chat);
    var view := match key
      case None => Whole(Entry(st, k).data)
      case Some(x) => Field(Lookup(Entry(st, k), x));
    (Touch(st, k), view)
  }

  /** `dict.update(kwargs)`: the given keys take the given values, the others stay. */
  function UpdateData<S, V>(st: Store<S, V>, user: int, chat: int, kwargs: map<string, V>): (r: Store<S, V>)
    ensures (user, chat) in r
    ensures r[(user, chat)].state == Entry(st, (user, chat)).state
    ensures forall x :: x in kwargs ==> x in r[(user, chat)].data && r[(user, chat)].data[x] == kwargs[x]
    ensures forall x :: x !in kwargs ==>
              (x in r[(user, chat)].data <==> x in Entry(st, (user, chat)).data)
              && (x in r[(user, chat)].data ==> r[(user, chat)].data[x] == Entry(st, (user, chat)).data[x])
    ensures AgreeExcept(st, r, (user, chat))
  {
    var k := (user, chat);
    var e := Entry(st, k);
    Touch(st, k)[k := e.(data := e.data + kwargs)]
  }

  /**
   * A message handler registered for state `want`: it runs, on the store as
   * the state lookup left it, exactly when the sender's state in this chat is
   * `want`; otherwise the answer is `None`.
   */
  function StateHandler<S(==), V, R>(st: Store<S, V>, m: Message, want: S,
                                      handler: (Store<S, V>, Message) -> R): (r: (Store<S, V>, Option<R>))
    ensures r.0 == GetState(st, m.fromUser, m.chatId).0
    ensures r.1.Some? <==> Entry(st, (m.fromUser, m.chatId)).state == Some(want)
    ensures r.1.Some? ==> r.1.value == handler(r.0, m)
  {
    var (st', s) := GetState(st, m.fromUser, m.chatId);
    if s == Some(want) then (st', Some(handler(st', m))) else (st', None)
  }

  /** The same gate for button presses, keyed by the presser and the chat of the pressed message. */
  function CallbackStateHandler<S(==), V, R>(st: Store<S, V>, c: Callback, want: S,
                                              handler: (Store<S, V>, Callback) -> R): (r: (Store<S, V>, Option<R>))
    ensures r.0 == GetState(st, c.fromUser, c.chatId).0
    ensures r.1.Some? <==> Entry(st, (c.fromUser, c.chatId)).state == Some(want)
    ensures r.1.Some? ==> r.1.value == handler(r.0, c)
  {
    var (st', s) := GetState(st, c.fromUser, c.chatId);
    if s == Some(want) then (st', Some(handler(st', c))) else (st', None)
  }

  /** A key never touched reads as no state and no data. */
  lemma FreshKeyIsEmpty<S, V>(st: Store<S, V>, user: int, chat: int)
    requires (user, chat) !in st
    ensures GetState(st, user, chat).1 == None
    ensures GetData(st, user, chat, None).1 == Whole(map[])
    ensures GetState(st, user, chat).0[(user, chat)] == UserState(None, map[])
  {
  }

  /** Setting a state and reading it back gives that state, with the data untouched. */
  lemma SetThenGetState<S, V>(st: Store<S, V>, user: int, chat: int, s: S)
    ensures GetState(SetState(st, user, chat, s), user, chat).1 == Some(s)
    ensures GetData(SetState(st, user, chat, s), user, chat, None).1 == GetData(st, user, chat, None).1
  {
  }

  /** Clearing twice is clearing once. */
  lemma ClearIdempotent<S, V>(st: Store<S, V>, user: int, chat: int)
    ensures ClearState(ClearState(st, user, chat), user, chat) == ClearState(st, user, chat)
  {
  }

  /** Writing a field and reading it back gives the value; other fields and the state stay. */
  lemma SetThenGetData<S, V>(st: Store<S, V>, user: int, chat: int, key: string, value: V, other: string)
    requires other != key
    ensures GetData(SetData(st, user, chat, key, value), user, chat, Some(key)).1 == Field(Some(value))
    ensures GetData(SetData(st, user, chat, key, value), user, chat, Some(other)).1
            == GetData(st, user, chat, Some(other)).1
    ensures GetState(SetData(st, user, chat, key, value), user, chat).1 == GetState(st, user, chat).1
  {
  }

  /** A key never written reads as `None`. */
  lemma MissingFieldIsNone<S, V>(st: Store<S, V>, user: int, chat: int, key: string)
    requires key !in Entry(st, (user, chat)).data
    ensures GetData(st, user, chat, Some(key)).1 == Field(None)
  {
  }

  /**
   * A snapshot taken by `get_data()` keeps the fields it was taken with:
   * after a later write the store differs from it at the written key only.
   */
  lemma SnapshotUnaffectedByWrites<S, V>(st: Store<S, V>, user: int, chat: int, key: string, value: V)
    ensures var (st1, view) := GetData(st, user, chat, None);
            var st2 := SetData(st1, user, chat, key, value);
            && view == Whole(Entry(st, (user, chat)).data)
            && GetData(st2, user, chat, None).1 == Whole(view.fields[key := value])
  {
  }

  /** Updating with one key is setting that key. */
  lemma UpdateOneIsSet<S, V>(st: Store<S, V>, user: int, chat: int, key: string, value: V)
    ensures UpdateData(st, user, chat, map[key := value]) == SetData(st, user, chat, key, value)
  {
    var k := (user, chat);
    var e := Entry(st, k);
    assert e.data + map[key := value] == e.data[key := value];
  }

  /** Writes to two different conversations commute: neither sees the other. */
  lemma DistinctKeysCommute<S, V>(st: Store<S, V>, u1: int, c1: int, s: S,
                                  u2: int, c2: int, key: string, value: V)
    requires (u1, c1) != (u2, c2)
    ensures SetData(SetState(st, u1, c1, s), u2, c2, key, value)
            == SetState(SetData(st, u2, c2, key, value), u1, c1, s)
    ensures Entry(SetState(st, u1, c1, s), (u2, c2)) == Entry(st, (u2, c2))
  {
    var a := SetData(SetState(st, u1, c1, s), u2, c2, key, value);
    var b := SetState(SetData(st, u2, c2, key, value), u1, c1, s);
    assert a.Keys == b.Keys;
    assert forall k :: k in a ==> a[k] == b[k];
  }

  /**
   * Writing a field on a fresh key leaves the state unset: an entry with no
   * state can carry data.
   */
  lemma NoStateWithData()
    ensures var st := SetData<int, int>(map[], 1, 1, "phone", 7);
            Entry(st, (1, 1)).state == None && Entry(st, (1, 1)).data != map[]
  {
    var st := SetData<int, int>(map[], 1, 1, "phone", 7);
    assert "phone" in Entry(st, (1, 1)).data;
  }
}

=== FILE: intake.dfy ===
/**
 * The add-client conversation: each handler takes the sender's session and
 * one message or button press, and returns the new session and the replies.
 * Saving at the end writes the Clients and Workers tables.
 */
module Intake {
  import opened Wrappers
  import opened Text
  import opened Validators
  import opened Commission
  import opened Fsm
  import opened Chat
  import opened Sheets
  import opened Forms

  /** The "add client" button: the form starts at the phone; earlier data stays. */
  function StartAddClient(e: Session): (r: Step)
    ensures r.session.state == Some(ClientPhone) && r.session.data == e.data
    ensures r.replies == [Ask(PhoneKey)] && !r.raised
  {
    Step(WithState(e, ClientPhone), [Ask(PhoneKey)], false)
  }

  /** Input refused: the session stays as it was. */
  function Refuse(e: Session, why: Note): Step {
    Step(e, [why], false)
  }

  /** `field` stored as `v` and the form moved on to `next`. */
  function Advance(e: Session, field: string, v: Value, next: FormState, ask: string): (r: Step)
    ensures r.session.state == Some(next) && Lookup(r.session, field) == Some(v)
    ensures AgreeExcept(e.data, r.session.data, field)
    ensures r.replies == [Ask(ask)] && !r.raised
  {
    Step(WithState(WithField(e, field, v), next), [Ask(ask)], false)
  }

  function ProcessPhone(e: Session, text: string): (r: Step)
    ensures !r.raised
    ensures !IsPhone(Trim(text)) ==> r.session == e && r.replies == [Rejected(PhoneKey)]
    ensures IsPhone(Trim(text)) ==>
              r.session.state == Some(ClientName) && Lookup(r.session, PhoneKey) == Some(Str(Trim(text)))
              && AgreeExcept(e.data, r.session.data, PhoneKey)
  {
    var phone := Trim(text);
    if !IsPhone(phone) then Refuse(e, Rejected(PhoneKey))
    else Advance(e, PhoneKey, Str(phone), ClientName, NameKey)
  }

  function ProcessName(e: Session, text: string): (r: Step)
    ensures !r.raised
    ensures |Trim(text)| < 2 ==> r.session == e && r.replies == [Rejected(NameKey)]
    ensures |Trim(text)| >= 2 ==>
              r.session.state == Some(ClientMessenger) && Lookup(r.session, NameKey) == Some(Str(Trim(text)))
              && AgreeExcept(e.data, r.session.data, NameKey)
  {
    var name := Trim(text);
    if |name| < 2 then Refuse(e, Rejected(NameKey))
    else Advance(e, NameKey, Str(name), ClientMessenger, MessengerKey)
  }

  /** The messenger a button stands for; an unknown button counts as "other". */
  function MessengerOf(tag: string): (m: string)
    ensures m in {Telegram, WhatsApp, OtherMessenger}
    ensures tag !in {"messenger_telegram", "messenger_whatsapp"} ==> m == OtherMessenger
  {
    if tag == "messenger_telegram" then Telegram
    else if tag == "messenger_whatsapp" then WhatsApp
    else OtherMessenger
  }

  function ProcessMessenger(e: Session, tag: string): (r: Step)
    ensures !r.raised && r.session.state == Some(ClientOrderLink)
    ensures Lookup(r.session, MessengerKey) == Some(Str(MessengerOf(tag)))
    ensures AgreeExcept(e.data, r.session.data, MessengerKey)
  {
    Advance(e, MessengerKey, Str(MessengerOf(tag)), ClientOrderLink, OrderLinkKey)
  }

  function ProcessOrderLink(e: Session, text: string): (r: Step)
    ensures !r.raised
    ensures |Trim(text)| < 3 ==> r.session == e && r.replies == [Rejected(OrderLinkKey)]
    ensures |Trim(text)| >= 3 ==>
              r.session.state == Some(ClientAmount) && Lookup(r.session, OrderLinkKey) == Some(Str(Trim(text)))
              && AgreeExcept(e.data, r.session.data, OrderLinkKey)
  {
    var link := Trim(text);
    if |link| < 3 then Refuse(e, Rejected(OrderLinkKey))
    else Advance(e, OrderLinkKey, Str(link), ClientAmount, AmountKey)
  }

  /** The amount step once the text has been read: `None` where the money check refuses it. */
  function AmountStepOf(e: Session, p: Option<nat>): (r: Step)
    ensures !r.raised
    ensures p.None? ==> r.session == e && r.replies == [Rejected(AmountKey)]
    ensures p == Some(0) ==> r.session == e && r.replies == [AmountNotPositive]
    ensures p.Some? && p.value > 0 ==>
              r.session.state == Some(ClientStatus)
              && Lookup(r.session, AmountKey) == Some(Cents(p.value))
              && AgreeExcept(e.data, r.session.data, AmountKey)
  {
    match p
    case None => Refuse(e, Rejected(AmountKey))
    case Some(amount) =>
      if amount <= 0 then Refuse(e, AmountNotPositive)
      else Advance(e, AmountKey, Cents(amount), ClientStatus, StatusKey)
  }

  function ProcessAmount(e: Session, text: string): (r: Step)
    ensures !r.raised
    ensures ParseMoney(Trim(text)).None? ==> r.session == e && r.replies == [Rejected(AmountKey)]
    ensures ParseMoney(Trim(text)) == Some(0) ==> r.session == e && r.replies == [AmountNotPositive]
    ensures ParseMoney(Trim(text)).Some? && ParseMoney(Trim(text)).value > 0 ==>
              r.session.state == Some(ClientStatus)
              && Lookup(r.session, AmountKey) == Some(Cents(ParseMoney(Trim(text)).value))
              && AgreeExcept(e.data, r.session.data, AmountKey)
  {
    AmountStepOf(e, ParseMoney(Trim(text)))
  }

  /** The status a button stands for; an unknown button counts as "wants to buy". */
  function StatusOf(tag: string): (s: string)
    ensures s in {WantsToBuy, AwaitingPayment, Paid}
    ensures s == Paid <==> tag == "status_paid"
    ensures tag !in {"status_waiting", "status_paid"} ==> s == WantsToBuy
  {
    if tag == "status_wants" then WantsToBuy
    else if tag == "status_waiting" then AwaitingPayment
    else if tag == "status_paid" then Paid
    else WantsToBuy
  }

  /** The summary reads these fields by key and formats the amount as a number. */
  predicate Summarisable(e: Session) {
    && PhoneKey in e.data && NameKey in e.data && MessengerKey in e.data
    && OrderLinkKey in e.data && StatusKey in e.data
    && AmountKey in e.data && e.data[AmountKey].Cents?
  }

  /** `show_confirmation`: moves to the confirmation state, or raises on a missing field. */
  function ShowConfirmation(e: Session): (r: Option<Session>)
    ensures r.Some? <==> Summarisable(e)
    ensures r.Some? ==> r.value.state == Some(ClientConfirm) && r.value.data == e.data
  {
    if Summarisable(e) then Some(WithState(e, ClientConfirm)) else None
  }

  /** The replies so far, then the summary; or an escaped exception. */
  function Confirm(e: Session, before: seq<Note>): (r: Step)
    ensures !r.raised <==> Summarisable(e)
    ensures !r.raised ==> r.session == WithState(e, ClientConfirm) && r.replies == before + [Confirmation]
    ensures r.raised ==> r.session == e && r.replies == before
  {
    match ShowConfirmation(e)
    case Some(e2) => Step(e2, before + [Confirmation], false)
    case None => Step(e, before, true)
  }

  /** A paid order goes on to the receipt; any other skips it with an empty link. */
  function ProcessStatus(e: Session, tag: string): (r: Step)
    ensures StatusOf(tag) == Paid ==>
              r.session == WithState(WithField(e, StatusKey, Str(Paid)), ClientReceipt) && !r.raised
    ensures StatusOf(tag) != Paid ==>
              r == Confirm(WithField(WithField(e, StatusKey, Str(StatusOf(tag))), ReceiptKey, Str("")), [])
  {
    var status := StatusOf(tag);
    var e1 := WithField(e, StatusKey, Str(status));
    if status == Paid then Step(WithState(e1, ClientReceipt), [Ask(ReceiptKey)], false)
    else Confirm(WithField(e1, ReceiptKey, Str("")), [])
  }

  /** The file a receipt message carries: the largest photo size, else the document. */
  function FileIdOf(photos: seq<string>, document: Option<string>): Option<string> {
    if |photos| > 0 then Some(photos[|photos| - 1]) else document
  }

  /**
   * `process_receipt`: `upload` is what storing the file gives, `None` when
   * it raises. Any failure falls back to an empty link and one more attempt
   * at the summary.
   */
  function ProcessReceipt(e: Session, photos: seq<string>, document: Option<string>,
                          upload: Option<string>): (r: Step)
    ensures !r.raised <==> Summarisable(e)
    ensures !r.raised ==> r.session.state == Some(ClientConfirm) && ReceiptKey in r.session.data
    ensures !r.raised ==> AgreeExcept(e.data, r.session.data, ReceiptKey)
    ensures var f := FileIdOf(photos, document);
            !r.raised && f.Some? && f.value != "" && upload.Some? ==>
              r.session.data[ReceiptKey] == Str(upload.value) && r.replies == [ReceiptSaved, Confirmation]
    ensures var f := FileIdOf(photos, document);
            !r.raised && !(f.Some? && f.value != "") ==>
              r.session.data[ReceiptKey] == Str("") && r.replies == [Confirmation]
  {
    var fallback := WithField(e, ReceiptKey, Str(""));
    var f := FileIdOf(photos, document);
    if f.Some? && f.value != "" then
      match upload
      case Some(url) =>
        var e1 := WithField(e, ReceiptKey, Str(url));
        if Summarisable(e1) then Confirm(e1, [ReceiptSaved])
        else Confirm(fallback, [ReceiptSaved, ReceiptFailed])
      case None => Confirm(fallback, [ReceiptFailed])
    else if Summarisable(fallback) then Confirm(fallback, [])
    else Confirm(fallback, [ReceiptFailed])
  }

  /** `skip_receipt`: any text message in the receipt state continues without one. */
  function SkipReceipt(e: Session): (r: Step)
    ensures !r.raised <==> Summarisable(e)
    ensures !r.raised ==> r.session.state == Some(ClientConfirm) && r.session.data == e.data[ReceiptKey := Str("")]
  {
    Confirm(WithField(e, ReceiptKey, Str("")), [])
  }

  /** An incoming update, as far as the intake handlers tell them apart. */
  datatype Input =
    | Typed(text: string)
    | Pressed(tag: string)
    | Attached(photos: seq<string>, document: Option<string>, upload: Option<string>)

  /**
   * The handler the current state has for this kind of update, applied; `None`
   * where no handler is registered (before confirmation, which needs the tables).
   */
  function ClientStep(e: Session, input: Input): Option<Step> {
    match (e.state, input)
    case (Some(ClientPhone), Typed(t)) => Some(ProcessPhone(e, t))
    case (Some(ClientName), Typed(t)) => Some(ProcessName(e, t))
    case (Some(ClientMessenger), Pressed(tag)) => Some(ProcessMessenger(e, tag))
    case (Some(ClientOrderLink), Typed(t)) => Some(ProcessOrderLink(e, t))
    case (Some(ClientAmount), Typed(t)) => Some(ProcessAmount(e, t))
    case (Some(ClientStatus), Pressed(tag)) => Some(ProcessStatus(e, tag))
    case (Some(ClientReceipt), Attached(p, d, u)) => Some(ProcessReceipt(e, p, d, u))
    case (Some(ClientReceipt), Typed(_)) => Some(SkipReceipt(e))
    case _ => None
  }

  // ------------------------------------------------------------ Acceptance

  /** The phone step accepts exactly 10 to 15 digits, surrounding whitespace aside. */
  lemma PhoneAcceptedIff(e: Session, text: string)
    requires e.state == Some(ClientPhone)
    ensures ProcessPhone(e, text).session.state == Some(ClientName)
            <==> 10 <= |Trim(text)| <= 15 && AllDigits(Trim(text))
  {
    IsPhoneIff(Trim(text));
    TrimIdempotent(text);
  }

  /** The amount step accepts exactly the well-formed amounts above zero. */
  lemma AmountAcceptedIff(e: Session, text: string)
    requires e.state == Some(ClientAmount)
    ensures ProcessAmount(e, text).session.state == Some(ClientStatus)
            <==> ParseMoney(Trim(text)).Some? && ParseMoney(Trim(text)).value > 0
    ensures ProcessAmount(e, text).session.state == Some(ClientStatus) ==> IsMoney(Trim(text))
  {
    ParseMoneyAccepts(Trim(text));
  }

  // ------------------------------------------------------------ Invariant

  /** Storing a well-formed field keeps every field well formed. */
  lemma HasAfterField(e: Session, f: FormField, v: Value, g: FormField)
    requires Has(e, g) && FieldOk(f, v)
    ensures Has(WithField(e, KeyOf(f), v), g)
  {
    if f != g {
      KeyInjective(f, g);
      assert WithField(e, KeyOf(f), v).data[KeyOf(g)] == e.data[KeyOf(g)];
    }
  }

  /** Storing a well-formed field keeps every collected field. */
  lemma CollectedAfterField(e: Session, f: FormField, v: Value, n: nat)
    requires Collected(e, n) && FieldOk(f, v)
    ensures Collected(WithField(e, KeyOf(f), v), n)
  {
    if n >= 1 { HasAfterField(e, f, v, PhoneField); }
    if n >= 2 { HasAfterField(e, f, v, NameField); }
    if n >= 3 { HasAfterField(e, f, v, MessengerField); }
    if n >= 4 { HasAfterField(e, f, v, OrderLinkField); }
    if n >= 5 { HasAfterField(e, f, v, AmountField); }
    if n >= 6 { HasAfterField(e, f, v, StatusField); }
    if n >= 7 { HasAfterField(e, f, v, ReceiptField); }
  }

  /**
   * Storing field `f`, the next one the form asks for after `n` fields, and
   * moving to the state that expects `n + 1` fields gives a valid session.
   */
  lemma StoreNext(e: Session, f: FormField, v: Value, n: nat, next: FormState, ask: string)
    requires Collected(e, n) && FieldOk(f, v)
    requires Reached(Some(next)) == n + 1 && n <= 4
    requires n == 0 ==> f == PhoneField
    requires n == 1 ==> f == NameField
    requires n == 2 ==> f == MessengerField
    requires n == 3 ==> f == OrderLinkField
    requires n == 4 ==> f == AmountField
    ensures Valid(Advance(e, KeyOf(f), v, next, ask).session)
  {
    CollectedAfterField(e, f, v, n);
    var e1 := WithField(e, KeyOf(f), v);
    assert Has(e1, f);
    assert Advance(e, KeyOf(f), v, next, ask).session == WithState(e1, next);
  }

  /** A stripped text the phone check accepts is a well-formed phone field. */
  lemma PhoneFieldOk(phone: string)
    requires Trimmed(phone) && IsPhone(phone)
    ensures FieldOk(PhoneField, Str(phone))
  {
    IsPhoneOfTrimmed(phone);
  }

  lemma ValidAfterPhone(e: Session, text: string)
    requires Valid(e) && e.state == Some(ClientPhone)
    ensures Valid(ProcessPhone(e, text).session)
  {
    var phone := Trim(text);
    if IsPhone(phone) {
      PhoneFieldOk(phone);
      StoreNext(e, PhoneField, Str(phone), 0, ClientName, NameKey);
      assert ProcessPhone(e, text) == Advance(e, PhoneKey, Str(phone), ClientName, NameKey);
    }
  }

  lemma ValidAfterName(e: Session, text: string)
    requires Valid(e) && e.state == Some(ClientName)
    ensures Valid(ProcessName(e, text).session)
  {
    var name := Trim(text);
    if |name| >= 2 {
      StoreNext(e, NameField, Str(name), 1, ClientMessenger, MessengerKey);
      assert ProcessName(e, text) == Advance(e, NameKey, Str(name), ClientMessenger, MessengerKey);
    }
  }

  lemma ValidAfterMessenger(e: Session, tag: string)
    requires Valid(e) && e.state == Some(ClientMessenger)
    ensures Valid(ProcessMessenger(e, tag).session)
  {
    var v := Str(MessengerOf(tag));
    StoreNext(e, MessengerField, v, 2, ClientOrderLink, OrderLinkKey);
    assert ProcessMessenger(e, tag) == Advance(e, MessengerKey, v, ClientOrderLink, OrderLinkKey);
  }

  lemma ValidAfterOrderLink(e: Session, text: string)
    requires Valid(e) && e.state == Some(ClientOrderLink)
    ensures Valid(ProcessOrderLink(e, text).session)
  {
    var link := Trim(text);
    if |link| >= 3 {
      StoreNext(e, OrderLinkField, Str(link), 3, ClientAmount, AmountKey);
      assert ProcessOrderLink(e, text) == Advance(e, OrderLinkKey, Str(link), ClientAmount, AmountKey);
    }
  }

  /** The amount step once the text has been read as `p`. */
  lemma ValidAfterAmountOf(e: Session, p: Option<nat>)
    requires Valid(e) && e.state == Some(ClientAmount)
    ensures Valid(AmountStepOf(e, p).session)
  {
    if p.Some? && p.value > 0 {
      StoreNext(e, AmountField, Cents(p.value), 4, ClientStatus, StatusKey);
    }
  }

  lemma ValidAfterAmount(e: Session, text: string)
    requires Valid(e) && e.state == Some(ClientAmount)
    ensures Valid(ProcessAmount(e, text).session)
  {
    ValidAfterAmountOf(e, ParseMoney(Trim(text)));
  }

  /** A valid session at the status step or later can always be summarised. */
  lemma ValidIsSummarisable(e: Session)
    requires Collected(e, 6)
    ensures Summarisable(e)
  {
  }

  /** A paid order moves to the receipt step with its status stored. */
  lemma ValidAfterPaid(e: Session)
    requires Collected(e, 5)
    ensures Valid(WithState(WithField(e, StatusKey, Str(Paid)), ClientReceipt))
  {
    CollectedAfterField(e, StatusField, Str(Paid), 5);
    var e1 := WithField(e, StatusKey, Str(Paid));
    assert Has(e1, StatusField);
  }

  /** Any other status stores an empty receipt link and shows the summary. */
  lemma ValidAfterUnpaid(e: Session, status: string)
    requires Collected(e, 5) && status in {WantsToBuy, AwaitingPayment, Paid}
    ensures var r := Confirm(WithField(WithField(e, StatusKey, Str(status)), ReceiptKey, Str("")), []);
            Valid(r.session) && !r.raised
  {
    CollectedAfterField(e, StatusField, Str(status), 5);
    var e1 := WithField(e, StatusKey, Str(status));
    assert Has(e1, StatusField);
    CollectedAfterField(e1, ReceiptField, Str(""), 6);
    var e2 := WithField(e1, ReceiptKey, Str(""));
    assert Has(e2, ReceiptField);
    ValidIsSummarisable(e2);
  }

  lemma ValidAfterStatus(e: Session, tag: string)
    requires Valid(e) && e.state == Some(ClientStatus)
    ensures Valid(ProcessStatus(e, tag).session) && !ProcessStatus(e, tag).raised
  {
    if StatusOf(tag) == Paid {
      ValidAfterPaid(e);
    } else {
      ValidAfterUnpaid(e, StatusOf(tag));
    }
  }

  lemma ValidAfterReceipt(e: Session, photos: seq<string>, document: Option<string>, upload: Option<string>)
    requires Valid(e) && e.state == Some(ClientReceipt)
    ensures Valid(ProcessReceipt(e, photos, document, upload).session)
    ensures !ProcessReceipt(e, photos, document, upload).raised
  {
    ValidIsSummarisable(e);
    var r := ProcessReceipt(e, photos, document, upload);
    CollectedAfterField(e, ReceiptField, r.session.data[ReceiptKey], 6);
    assert r.session.data == e.data[ReceiptKey := r.session.data[ReceiptKey]];
  }

  lemma ValidAfterSkip(e: Session)
    requires Valid(e) && e.state == Some(ClientReceipt)
    ensures Valid(SkipReceipt(e).session) && !SkipReceipt(e).raised
  {
    ValidIsSummarisable(e);
    CollectedAfterField(e, ReceiptField, Str(""), 6);
  }

  /** Every intake handler keeps the invariant, and none of them raises on a valid session. */
  lemma ClientStepPreservesValid(e: Session, input: Input)
    requires Valid(e) && ClientStep(e, input).Some?
    ensures Valid(ClientStep(e, input).value.session)
    ensures !ClientStep(e, input).value.raised
  {
    match (e.state, input)
    case (Some(ClientPhone), Typed(t)) => ValidAfterPhone(e, t);
    case (Some(ClientName), Typed(t)) => ValidAfterName(e, t);
    case (Some(ClientMessenger), Pressed(tag)) => ValidAfterMessenger(e, tag);
    case (Some(ClientOrderLink), Typed(t)) => ValidAfterOrderLink(e, t);
    case (Some(ClientAmount), Typed(t)) => ValidAfterAmount(e, t);
    case (Some(ClientStatus), Pressed(tag)) => ValidAfterStatus(e, tag);
    case (Some(ClientReceipt), Attached(p, d, u)) => ValidAfterReceipt(e, p, d, u);
    case (Some(ClientReceipt), Typed(_)) => ValidAfterSkip(e);
  }

  /** The start of the form is valid whatever data is left over. */
  lemma StartIsValid(e: Session)
    ensures Valid(StartAddClient(e).session)
  {
  }

  /**
   * Every way out of the receipt state, and the bypass from the status step,
   * ends in the confirmation state with a receipt link set.
   */
  lemma ReceiptPathsReachConfirm(e: Session, input: Input)
    requires Valid(e) && ClientStep(e, input).Some?
    requires e.state == Some(ClientReceipt) || (e.state == Some(ClientStatus) && input.Pressed? && StatusOf(input.tag) != Paid)
    ensures ClientStep(e, input).value.session.state == Some(ClientConfirm)
    ensures ReceiptKey in ClientStep(e, input).value.session.data
  {
    ClientStepPreservesValid(e, input);
    if e.state == Some(ClientStatus) {
      CollectedAfterField(e, StatusField, Str(StatusOf(input.tag)), 5);
      ValidIsSummarisable(WithField(WithField(e, StatusKey, Str(StatusOf(input.tag))), ReceiptKey, Str("")));
    }
  }

  // ------------------------------------------------------------ Saving

  /** The text stored under `key`, if it is there as text. */
  function StrField(e: Session, key: string): (r: Option<string>)
    ensures r.Some? <==> key in e.data && e.data[key].Str?
    ensures r.Some? ==> e.data[key] == Str(r.value)
  {
    if key in e.data && e.data[key].Str? then Some(e.data[key].str) else None
  }

  /**
   * The row `save_client` builds from the session: `None` when a field it
   * reads by key is missing (the `KeyError` the handler catches). The receipt
   * link alone is optional.
   */
  function ClientDataOf(e: Session, user: int, username: string, timestamp: string): (r: Option<ClientData>)
    ensures r.Some? <==> Summarisable(e) && StrField(e, PhoneKey).Some? && StrField(e, NameKey).Some?
                         && StrField(e, MessengerKey).Some? && StrField(e, OrderLinkKey).Some?
                         && StrField(e, StatusKey).Some?
    ensures r.Some? ==>
              && Str(r.value.phone) == e.data[PhoneKey] && Str(r.value.name) == e.data[NameKey]
              && Str(r.value.messenger) == e.data[MessengerKey] && Str(r.value.orderLink) == e.data[OrderLinkKey]
              && Cents(r.value.amount) == e.data[AmountKey] && Str(r.value.status) == e.data[StatusKey]
              && r.value.receiptUrl == StrField(e, ReceiptKey)
              && r.value.workerTgId == user && r.value.workerUsername == username
              && r.value.timestamp == timestamp
  {
    if !Summarisable(e) || StrField(e, PhoneKey).None? || StrField(e, NameKey).None?
       || StrField(e, MessengerKey).None? || StrField(e, OrderLinkKey).None? || StrField(e, StatusKey).None?
    then None
    else
      Some(ClientData(user, username, e.data[PhoneKey].str, e.data[NameKey].str, e.data[MessengerKey].str,
                      e.data[OrderLinkKey].str, e.data[AmountKey].cents, e.data[StatusKey].str,
                      StrField(e, ReceiptKey), timestamp))
  }

  /** What the client-saved notice tells the admins. */
  function NewClientNote(d: ClientData, commission: int): Note {
    NewClient(d.workerUsername, d.amount, commission, d.status)
  }

  /**
   * `save_client`. Remote calls, in order: 0 reads the worker, 1 appends the
   * client row, 2 counts the client, 3 credits the commission (paid orders
   * only). A call that raises ends the handler with an error reply; what the
   * earlier calls wrote stays. Whatever happens, the session is cleared.
   */
  function SaveClient(e: Session, t: Tables, user: int, chat: int, admins: seq<int>,
                      timestamp: string, fault: Option<nat>): (r: Outcome)
    ensures r.session == Cleared()
    ensures r.tables.withdrawals == t.withdrawals
    ensures r.tables.clients == t.clients || (|r.tables.clients| == |t.clients| + 1 && r.tables.clients[..|t.clients|] == t.clients)
    ensures Raises(fault, 0) ==> r.tables == t && r.effects == [Send(chat, SaveFailed)]
    ensures !Raises(fault, 0) && GetWorker(t.workers, user).None? ==>
              r.tables == t && r.effects == [Send(chat, WorkerNotFound)]
  {
    if Raises(fault, 0) then Outcome(Cleared(), t, [Send(chat, SaveFailed)])
    else
      match GetWorker(t.workers, user)
      case None => Outcome(Cleared(), t, [Send(chat, WorkerNotFound)])
      case Some(w) =>
        match ClientDataOf(e, user, w.username, timestamp)
        case None => Outcome(Cleared(), t, [Send(chat, SaveFailed)])
        case Some(d) =>
          var commission := Calc(w.clientsCount, d.amount);
          var t1 := t.(clients := AppendClientRow(t.clients, d));
          var t2 := t1.(workers := IncClientsCount(t1.workers, user));
          var paid := d.status == Paid;
          var t3 := if paid then t2.(workers := IncBalance(t2.workers, user, commission)) else t2;
          if Raises(fault, 1) then Outcome(Cleared(), t, [Send(chat, SaveFailed)])
          else if Raises(fault, 2) then Outcome(Cleared(), t1, [Send(chat, SaveFailed)])
          else if paid && Raises(fault, 3) then Outcome(Cleared(), t2, [Send(chat, SaveFailed)])
          else Outcome(Cleared(), t3, Broadcast(admins, NewClientNote(d, commission)) + [Send(chat, ClientSaved(commission))])
  }

  /** The button data that saves; any other button on the summary cancels. */
  const ConfirmSave: string := "confirm_save"

  /** `process_confirm`: save on the save button; otherwise drop the form and say so. */
  function ProcessConfirm(e: Session, t: Tables, user: int, chat: int, tag: string, admins: seq<int>,
                          timestamp: string, fault: Option<nat>): (r: Outcome)
    ensures r.session == Cleared()
    ensures tag != ConfirmSave ==> r.tables == t && r.effects == [Send(chat, ClientCancelled)]
    ensures tag == ConfirmSave ==> r == SaveClient(e, t, user, chat, admins, timestamp, fault)
  {
    if tag == ConfirmSave then SaveClient(e, t, user, chat, admins, timestamp, fault)
    else Outcome(Cleared(), t, [Send(chat, ClientCancelled)])
  }

  /** A session that passed every step has everything the row needs. */
  lemma ValidConfirmHasData(e: Session, user: int, username: string, timestamp: string)
    requires Valid(e) && e.state == Some(ClientConfirm)
    ensures ClientDataOf(e, user, username, timestamp).Some?
    ensures ClientDataOf(e, user, username, timestamp).value.amount > 0
  {
    ValidIsSummarisable(e);
    assert Has(e, PhoneField) && Has(e, NameField) && Has(e, MessengerField);
    assert Has(e, OrderLinkField) && Has(e, StatusField) && Has(e, AmountField);
  }

  /**
   * With no failure, saving a form that holds every field the row needs (as
   * every valid session at the confirmation step does) adds one client row
   * holding the form's fields, counts the client for the worker, credits the
   * commission (computed on the count before this client) only for a paid
   * order, tells every admin and then the worker.
   */
  lemma SaveClientSaves(e: Session, t: Tables, user: int, chat: int, admins: seq<int>, timestamp: string)
    requires GetWorker(t.workers, user).Some?
    requires ClientDataOf(e, user, GetWorker(t.workers, user).value.username, timestamp).Some?
    ensures var r := SaveClient(e, t, user, chat, admins, timestamp, None);
            && |r.tables.clients| == |t.clients| + 1 && r.tables.clients[..|t.clients|] == t.clients
            && r.tables.clients[|t.clients|].workerTgId == user
            && Str(r.tables.clients[|t.clients|].phone) == e.data[PhoneKey]
            && Cents(r.tables.clients[|t.clients|].amount) == e.data[AmountKey]
            && Str(r.tables.clients[|t.clients|].status) == e.data[StatusKey]
    ensures var r := SaveClient(e, t, user, chat, admins, timestamp, None);
            var row := r.tables.clients[|t.clients|];
            var w := GetWorker(t.workers, user).value;
            var c := Calc(w.clientsCount, row.amount);
            var credit := if row.status == Paid then c else 0;
            GetWorker(r.tables.workers, user) == Some(w.(clientsCount := w.clientsCount + 1, balance := w.balance + credit))
    ensures var r := SaveClient(e, t, user, chat, admins, timestamp, None);
            var w := GetWorker(t.workers, user).value;
            var c := Calc(w.clientsCount, r.tables.clients[|t.clients|].amount);
            && |r.effects| == |admins| + 1 && r.effects[|admins|] == Send(chat, ClientSaved(c))
            && forall i :: 0 <= i < |admins| ==> r.effects[i].to == admins[i] && r.effects[i].note.NewClient?
  {
    var w := GetWorker(t.workers, user).value;
    var d := ClientDataOf(e, user, w.username, timestamp).value;
    SavedRow(e, t, user, chat, admins, timestamp, w, d);
  }

  /** `SaveClientSaves` for the row `d` the session gives. */
  lemma SavedRow(e: Session, t: Tables, user: int, chat: int, admins: seq<int>, timestamp: string,
                 w: WorkerRow, d: ClientData)
    requires GetWorker(t.workers, user) == Some(w)
    requires ClientDataOf(e, user, w.username, timestamp) == Some(d)
    ensures var r := SaveClient(e, t, user, chat, admins, timestamp, None);
            var c := Calc(w.clientsCount, d.amount);
            && |r.tables.clients| == |t.clients| + 1 && r.tables.clients[..|t.clients|] == t.clients
            && r.tables.clients[|t.clients|].workerTgId == user
            && r.tables.clients[|t.clients|].phone == d.phone
            && r.tables.clients[|t.clients|].amount == d.amount
            && r.tables.clients[|t.clients|].status == d.status
            && |r.effects| == |admins| + 1 && r.effects[|admins|] == Send(chat, ClientSaved(c))
            && forall i :: 0 <= i < |admins| ==> r.effects[i] == Send(admins[i], NewClientNote(d, c))
    ensures var r := SaveClient(e, t, user, chat, admins, timestamp, None);
            var row := r.tables.clients[|t.clients|];
            var c := Calc(w.clientsCount, row.amount);
            var credit := if row.status == Paid then c else 0;
            GetWorker(r.tables.workers, user) == Some(w.(clientsCount := w.clientsCount + 1, balance := w.balance + credit))
  {
    var c := Calc(w.clientsCount, d.amount);
    SavedTables(e, t, user, chat, admins, timestamp, w, d);
    CountThenCredit(t.workers, user, w, d.status == Paid, c);
    Chat.BroadcastThen(admins, NewClientNote(d, c), Send(chat, ClientSaved(c)));
  }

  /** With no failure, what saving the row `d` built from the session writes and says. */
  lemma SavedTables(e: Session, t: Tables, user: int, chat: int, admins: seq<int>, timestamp: string,
                    w: WorkerRow, d: ClientData)
    requires GetWorker(t.workers, user) == Some(w)
    requires ClientDataOf(e, user, w.username, timestamp) == Some(d)
    ensures var r := SaveClient(e, t, user, chat, admins, timestamp, None);
            var c := Calc(w.clientsCount, d.amount);
            var counted := IncClientsCount(t.workers, user);
            && r.tables == t.(clients := AppendClientRow(t.clients, d),
                              workers := if d.status == Paid then IncBalance(counted, user, c) else counted)
            && r.effects == Broadcast(admins, NewClientNote(d, c)) + [Send(chat, ClientSaved(c))]
  {
  }

  /** Counting a client and then crediting `c` only when `paid`, as `get_worker` sees it. */
  lemma CountThenCredit(ws: seq<WorkerRow>, user: int, w: WorkerRow, paid: bool, c: int)
    requires GetWorker(ws, user) == Some(w)
    ensures var counted := IncClientsCount(ws, user);
            GetWorker(if paid then IncBalance(counted, user, c) else counted, user)
            == Some(w.(clientsCount := w.clientsCount + 1, balance := w.balance + (if paid then c else 0)))
  {
    IncClientsCountThenGet(ws, user);
    IncBalanceThenGet(IncClientsCount(ws, user), user, c);
  }

  /**
   * A call that raises part-way leaves exactly the writes before it, no
   * admin notice and one error reply: a failed append writes nothing, a
   * failed count leaves the row uncounted, a failed credit leaves the
   * counted row unpaid.
   */
  lemma SaveClientPartial(e: Session, t: Tables, user: int, chat: int, admins: seq<int>, timestamp: string, k: nat)
    requires Valid(e) && e.state == Some(ClientConfirm)
    requires GetWorker(t.workers, user).Some?
    requires 1 <= k <= 3 && (k == 3 ==> e.data[StatusKey] == Str(Paid))
    ensures var r := SaveClient(e, t, user, chat, admins, timestamp, Some(k));
            var w := GetWorker(t.workers, user).value;
            && r.effects == [Send(chat, SaveFailed)]
            && (k == 1 ==> r.tables == t)
            && (k >= 2 ==> |r.tables.clients| == |t.clients| + 1 && r.tables.clients[..|t.clients|] == t.clients)
            && (k == 2 ==> r.tables.workers == t.workers)
            && (k == 3 ==> GetWorker(r.tables.workers, user) == Some(w.(clientsCount := w.clientsCount + 1)))
  {
    var w := GetWorker(t.workers, user).value;
    ValidConfirmHasData(e, user, w.username, timestamp);
    var d := ClientDataOf(e, user, w.username, timestamp).value;
    FailedSaveTables(e, t, user, chat, admins, timestamp, Some(k), w, d);
    IncClientsCountThenGet(t.workers, user);
  }

  /** Where each write of `save_client` fails, the tables hold exactly the writes before it. */
  lemma FailedSaveTables(e: Session, t: Tables, user: int, chat: int, admins: seq<int>, timestamp: string,
                         fault: Option<nat>, w: WorkerRow, d: ClientData)
    requires GetWorker(t.workers, user) == Some(w)
    requires ClientDataOf(e, user, w.username, timestamp) == Some(d)
    ensures var r := SaveClient(e, t, user, chat, admins, timestamp, fault);
            var t1 := t.(clients := AppendClientRow(t.clients, d));
            && (Raises(fault, 1) ==> r.tables == t && r.effects == [Send(chat, SaveFailed)])
            && (Raises(fault, 2) ==> r.tables == t1 && r.effects == [Send(chat, SaveFailed)])
            && (Raises(fault, 3) && d.status == Paid ==>
                  r.tables == t1.(workers := IncClientsCount(t.workers, user)) && r.effects == [Send(chat, SaveFailed)])
  {
  }
}

=== FILE: payouts.dfy ===
/**
 * The life of a payout request across its handlers: a worker asks, an admin
 * approves or declines. The balance is taken when the request is made and
 * given back only on a decline.
 */
module Payouts {
  import opened Wrappers
  import opened Chat
  import opened Sheets
  import opened Forms
  import opened Withdrawals
  import opened Admin

  /** A positive request the worker's balance covers. */
  predicate Grantable(t: Tables, user: int, a: int) {
    a > 0 && GetWorker(t.workers, user).Some? && a <= GetWorker(t.workers, user).value.balance
  }

  /** The tables after a granted request: one more PENDING row, the amount taken off. */
  lemma RequestTables(t: Tables, user: int, chat: int, a: int, admins: seq<int>)
    requires Grantable(t, user, a)
    ensures var t1 := Withdraw(t, user, chat, a, admins, None).tables;
                    var id := NextWithdrawalId(t.withdrawals);
            && t1.workers == IncBalance(t.workers, user, -a)
            && t1.withdrawals == t.withdrawals + [WithdrawalRow(id, user, a, StatusPending, "")]
            && FindWithdrawal(t1.withdrawals, id) == Some(|t.withdrawals|)
  {
    WithdrawalRecordsAndDebits(t, user, chat, a, admins);
    CreatedIsFound(t.withdrawals, user, a);
    var (rows, id) := CreateWithdrawal(t.withdrawals, user, a);
    assert Withdraw(t, user, chat, a, admins, None).tables
           == t.(withdrawals := rows, workers := IncBalance(t.workers, user, -a));
  }

  /** Declining a PENDING request for `a` gives back what taking `a` took. */
  lemma DeclineUndoesDebit(ws: seq<WorkerRow>, t1: Tables, user: int, a: int, id: int, k: nat,
                           admins: seq<int>, admin: int, adminChat: int, tag: string)
    requires admin in admins && WithdrawalIdOf(tag) == Some(id)
    requires t1.workers == IncBalance(ws, user, -a)
    requires FindWithdrawal(t1.withdrawals, id) == Some(k)
    requires t1.withdrawals[k] == WithdrawalRow(id, user, a, StatusPending, "")
    ensures var t2 := DeclineWithdrawalOnce(admins, admin, adminChat, tag, t1, None).tables;
            && t2.workers == ws
            && |t2.withdrawals| == |t1.withdrawals|
            && t2.withdrawals[k].status == StatusDeclined
  {
    assert !AlreadySettledIn(t1, tag);
    DeclineRefunds(admins, admin, adminChat, tag, t1, id);
    IncBalanceTwice(ws, user, -a, a);
    IncBalanceZero(ws, user);
  }

  /**
   * Asking for a payout and having it declined leaves the Workers table
   * exactly as it was, with the request on record as DECLINED. The request
   * is still PENDING, so the settled check changes nothing on this path.
   */
  lemma WithdrawThenDeclineRestores(t: Tables, user: int, chat: int, a: int, admins: seq<int>,
                                    admin: int, adminChat: int, tag: string)
    requires Grantable(t, user, a)
    requires admin in admins && WithdrawalIdOf(tag) == Some(NextWithdrawalId(t.withdrawals))
    ensures var t1 := Withdraw(t, user, chat, a, admins, None).tables;
            var t2 := DeclineWithdrawal(admins, admin, adminChat, tag, t1, None).tables;
            && DeclineWithdrawalOnce(admins, admin, adminChat, tag, t1, None).tables == t2
            && t2.workers == t.workers
            && |t2.withdrawals| == |t.withdrawals| + 1
            && t2.withdrawals[|t.withdrawals|].status == StatusDeclined
  {
    var t1 := Withdraw(t, user, chat, a, admins, None).tables;
    RequestTables(t, user, chat, a, admins);
    assert !AlreadySettledIn(t1, tag);
    DeclineUndoesDebit(t.workers, t1, user, a, NextWithdrawalId(t.withdrawals),
                       |t.withdrawals|, admins, admin, adminChat, tag);
  }

  /**
   * Asking for a payout and having it approved keeps the amount off the
   * balance, with the request on record as DONE. As with a decline, the
   * settled check changes nothing on this path.
   */
  lemma WithdrawThenApproveKeepsDebit(t: Tables, user: int, chat: int, a: int, admins: seq<int>,
                                      admin: int, adminChat: int, tag: string)
    requires Grantable(t, user, a)
    requires admin in admins && WithdrawalIdOf(tag) == Some(NextWithdrawalId(t.withdrawals))
    ensures var t1 := Withdraw(t, user, chat, a, admins, None).tables;
            var t2 := ApproveWithdrawal(admins, admin, adminChat, tag, t1, None).tables;
            var w := GetWorker(t.workers, user).value;
            && ApproveWithdrawalOnce(admins, admin, adminChat, tag, t1, None).tables == t2
            && GetWorker(t2.workers, user) == Some(w.(balance := w.balance - a))
            && |t2.withdrawals| == |t.withdrawals| + 1
            && t2.withdrawals[|t.withdrawals|].status == StatusDone
  {
    var id := NextWithdrawalId(t.withdrawals);
    var t1 := Withdraw(t, user, chat, a, admins, None).tables;
    RequestTables(t, user, chat, a, admins);
    assert t1.withdrawals[|t.withdrawals|].status == StatusPending;
    assert !AlreadySettledIn(t1, tag);
    ApproveMarksDone(admins, admin, adminChat, tag, t1, id);
    IncBalanceThenGet(t.workers, user, -a);
  }

  // ------------------------------------------------------------ Finding

  /**
   * As written, declining checks no status: pressing decline twice on one
   * request gives its amount back twice.
   */
  lemma DeclineTwiceRefundsTwice(admins: seq<int>, admin: int, chat: int, tag: string, t: Tables, id: int)
    requires admin in admins && WithdrawalIdOf(tag) == Some(id)
    requires FindWithdrawal(t.withdrawals, id).Some?
    ensures var row := t.withdrawals[FindWithdrawal(t.withdrawals, id).value];
            var t1 := DeclineWithdrawal(admins, admin, chat, tag, t, None).tables;
            var t2 := DeclineWithdrawal(admins, admin, chat, tag, t1, None).tables;
            t2.workers == IncBalance(t.workers, row.tgId, 2 * row.amount)
  {
    var i := FindWithdrawal(t.withdrawals, id).value;
    var row := t.withdrawals[i];
    var t1 := DeclineWithdrawal(admins, admin, chat, tag, t, None).tables;
    DeclineRefunds(admins, admin, chat, tag, t, id);
    UpdateKeepsFind(t.withdrawals, id, StatusDeclined, id);
    assert t1.withdrawals[i].tgId == row.tgId && t1.withdrawals[i].amount == row.amount;
    DeclineRefunds(admins, admin, chat, tag, t1, id);
    IncBalanceTwice(t.workers, row.tgId, row.amount, row.amount);
  }

  /**
   * The worked case: a worker with 200.00 asks for 50.00 (150.00 left), and
   * the request is declined twice; the balance ends at 250.00, not 200.00.
   */
  lemma DoubleDeclineExample()
    ensures var t := Tables([WorkerRow(7, "w", RoleWorker, 0, 15000)], [],
                            [WithdrawalRow(1, 7, 5000, StatusPending, "")]);
            var tag := SettleTag("decline", 1);
            var t1 := DeclineWithdrawal([9], 9, 9, tag, t, None).tables;
            var t2 := DeclineWithdrawal([9], 9, 9, tag, t1, None).tables;
            GetWorker(t2.workers, 7) == Some(WorkerRow(7, "w", RoleWorker, 0, 25000))
  {
    var t := Tables([WorkerRow(7, "w", RoleWorker, 0, 15000)], [],
                    [WithdrawalRow(1, 7, 5000, StatusPending, "")]);
    var tag := SettleTag("decline", 1);
    SettleTagRoundTrip("decline", 1);
    assert FindWithdrawal(t.withdrawals, 1) == Some(0);
    DeclineTwiceRefundsTwice([9], 9, 9, tag, t, 1);
    IncBalanceThenGet(t.workers, 7, 10000);
  }

  /**
   * Corrected: once a request is settled, neither button does anything to
   * it again, so a decline gives the amount back once.
   */
  lemma SettledIsFinal(admins: seq<int>, admin: int, chat: int, tag: string, t: Tables, id: int,
                       again: bool, fault: Option<nat>)
    requires admin in admins && WithdrawalIdOf(tag) == Some(id)
    requires FindWithdrawal(t.withdrawals, id).Some?
    ensures var t1 := DeclineWithdrawalOnce(admins, admin, chat, tag, t, None).tables;
            var t2 := if again then DeclineWithdrawalOnce(admins, admin, chat, tag, t1, fault).tables
                      else ApproveWithdrawalOnce(admins, admin, chat, tag, t1, fault).tables;
            t2 == t1
  {
    var i := FindWithdrawal(t.withdrawals, id).value;
    var t1 := DeclineWithdrawalOnce(admins, admin, chat, tag, t, None).tables;
    if !AlreadySettledIn(t, tag) {
      DeclineRefunds(admins, admin, chat, tag, t, id);
      UpdateKeepsFind(t.withdrawals, id, StatusDeclined, id);
      assert t1.withdrawals[i].status == StatusDeclined;
    } else {
      assert t1 == t;
    }
    assert AlreadySettledIn(t1, tag);
  }

  /** Corrected: asking, then declining twice, leaves the Workers table as it was. */
  lemma WithdrawThenDeclineTwiceRestores(t: Tables, user: int, chat: int, a: int, admins: seq<int>,
                                         admin: int, adminChat: int, tag: string)
    requires Grantable(t, user, a)
    requires admin in admins && WithdrawalIdOf(tag) == Some(NextWithdrawalId(t.withdrawals))
    ensures var t1 := Withdraw(t, user, chat, a, admins, None).tables;
            var t2 := DeclineWithdrawalOnce(admins, admin, adminChat, tag, t1, None).tables;
            var t3 := DeclineWithdrawalOnce(admins, admin, adminChat, tag, t2, None).tables;
            t3.workers == t.workers
  {
    var t1 := Withdraw(t, user, chat, a, admins, None).tables;
    WithdrawThenDeclineRestores(t, user, chat, a, admins, admin, adminChat, tag);
    RequestTables(t, user, chat, a, admins);
    SettledIsFinal(admins, admin, adminChat, tag, t1, NextWithdrawalId(t.withdrawals), true, None);
  }

  // ------------------------------------------------------- Finding: failed debit

  /**
   * As written, a request whose debit raises stays PENDING with nothing
   * taken: the worker is told it failed, and a later decline still gives
   * its amount back, so the balance ends higher than it started.
   */
  lemma FailedDebitThenDeclineCredits(t: Tables, user: int, chat: int, a: int, admins: seq<int>,
                                      admin: int, adminChat: int, tag: string)
    requires Grantable(t, user, a)
    requires admin in admins && WithdrawalIdOf(tag) == Some(NextWithdrawalId(t.withdrawals))
    ensures var h := Withdraw(t, user, chat, a, admins, Some(2));
            var t2 := DeclineWithdrawal(admins, admin, adminChat, tag, h.tables, None).tables;
            var w := GetWorker(t.workers, user).value;
            && h.effects == [Send(chat, WithdrawalFailed)]
            && GetWorker(t2.workers, user) == Some(w.(balance := w.balance + a))
  {
    var id := NextWithdrawalId(t.withdrawals);
    var t1 := Withdraw(t, user, chat, a, admins, Some(2)).tables;
    var (rows, _) := CreateWithdrawal(t.withdrawals, user, a);
    assert t1 == t.(withdrawals := rows);
    CreatedIsFound(t.withdrawals, user, a);
    DeclineRefunds(admins, admin, adminChat, tag, t1, id);
    IncBalanceThenGet(t.workers, user, a);
  }

  /** The worked case: 200.00 on the balance, a 50.00 request whose debit fails, one decline: 250.00. */
  lemma FailedDebitExample()
    ensures var t := Tables([WorkerRow(7, "w", RoleWorker, 0, 20000)], [], []);
            var h := Withdraw(t, 7, 7, 5000, [9], Some(2));
            var t2 := DeclineWithdrawal([9], 9, 9, SettleTag("decline", 1), h.tables, None).tables;
            GetWorker(t2.workers, 7) == Some(WorkerRow(7, "w", RoleWorker, 0, 25000))
  {
    var t := Tables([WorkerRow(7, "w", RoleWorker, 0, 20000)], [], []);
    SettleTagRoundTrip("decline", 1);
    FailedDebitThenDeclineCredits(t, 7, 7, 5000, [9], 9, 9, SettleTag("decline", 1));
  }

  /**
   * Corrected: a request that fails leaves no row behind, so declining the
   * id it would have had finds nothing and gives nothing back.
   */
  lemma FailedRequestCannotBeRefunded(t: Tables, user: int, chat: int, a: int, admins: seq<int>,
                                      fault: Option<nat>, admin: int, adminChat: int, tag: string)
    requires Grantable(t, user, a)
    requires admin in admins && WithdrawalIdOf(tag) == Some(NextWithdrawalId(t.withdrawals))
    ensures var h := WithdrawAtomic(t, user, chat, a, admins, fault);
            h.effects == [Send(chat, WithdrawalFailed)] ==>
              && h.tables == t
              && DeclineWithdrawal(admins, admin, adminChat, tag, h.tables, None).tables.workers == t.workers
  {
    WithdrawalRecordsAndDebits(t, user, chat, a, admins);
  }

  /** Corrected: whatever fails, a request either happens in full or leaves the tables as they were. */
  lemma AtomicRequestAllOrNothing(t: Tables, user: int, chat: int, a: int, admins: seq<int>, fault: Option<nat>)
    requires Grantable(t, user, a)
    ensures var r := WithdrawAtomic(t, user, chat, a, admins, fault).tables;
            var w := GetWorker(t.workers, user).value;
            || r == t
            || (&& r.withdrawals == t.withdrawals + [WithdrawalRow(NextWithdrawalId(t.withdrawals), user, a, StatusPending, "")]
                && GetWorker(r.workers, user) == Some(w.(balance := w.balance - a)))
  {
    WithdrawalRecordsAndDebits(t, user, chat, a, admins);
  }
}

=== FILE: sheets.dfy ===
/**
 * The spreadsheet behind the bot, as three tables of rows: Workers, Clients
 * and Withdrawals. Every lookup scans a table from the top and the first
 * matching row wins; every update rewrites that one row; appends go at the
 * end. Money is in integer cents. Every remote call goes through a retry
 * policy that retries only on HTTP 429.
 */
module Sheets {
  import opened Wrappers
  import opened Chat

  /** A Workers row: `tg_id, username, role, clients_count, balance`. */
  datatype WorkerRow = WorkerRow(tgId: int, username: string, role: string, clientsCount: int, balance: int)

  /** A Clients row, fields in column order. */
  datatype ClientRow = ClientRow(workerTgId: int, workerUsername: string, phone: string, name: string,
                                 messenger: string, orderLink: string, amount: int, status: string,
                                 receiptUrl: string, timestamp: string)

  /** A Withdrawals row: `id, tg_id, amount, status, created_at`. */
  datatype WithdrawalRow = WithdrawalRow(id: int, tgId: int, amount: int, status: string, createdAt: string)

  datatype Tables = Tables(workers: seq<WorkerRow>, clients: seq<ClientRow>, withdrawals: seq<WithdrawalRow>)

  /**
   * What a handler outside the forms does: the tables after it, the messages
   * it sent, and whether an exception escaped it.
   */
  datatype Handled = Handled(tables: Tables, effects: seq<Effect>, raised: bool)

  /** The client fields a new Clients row is made from; `receiptUrl` may be missing. */
  datatype ClientData = ClientData(workerTgId: int, workerUsername: string, phone: string, name: string,
                                   messenger: string, orderLink: string, amount: int, status: string,
                                   receiptUrl: Option<string>, timestamp: string)

  const RolePending: string := "pending"
  const RoleWorker: string := "worker"
  const RoleDeclined: string := "declined"

  const StatusPending: string := "PENDING"
  const StatusDone: string := "DONE"
  const StatusDeclined: string := "DECLINED"

  /** Whether remote call number `call` of a handler (counting from 0) raises. */
  predicate Raises(fault: Option<nat>, call: nat) {
    fault == Some(call)
  }

  // ---------------------------------------------------------------- Workers

  /** Position of the first row of worker `tgId`. */
  function FindWorker(ws: seq<WorkerRow>, tgId: int): (r: Option<nat>)
    ensures r.Some? ==> r.value < |ws| && ws[r.value].tgId == tgId
                        && forall j :: 0 <= j < r.value ==> ws[j].tgId != tgId
    ensures r.None? ==> forall j :: 0 <= j < |ws| ==> ws[j].tgId != tgId
  {
    FindWorkerFrom(ws, tgId, 0)
  }

  function FindWorkerFrom(ws: seq<WorkerRow>, tgId: int, k: nat): (r: Option<nat>)
    requires k <= |ws|
    ensures r.Some? ==> k <= r.value < |ws| && ws[r.value].tgId == tgId
                        && forall j :: k <= j < r.value ==> ws[j].tgId != tgId
    ensures r.None? ==> forall j :: k <= j < |ws| ==> ws[j].tgId != tgId
    decreases |ws| - k
  {
    if k == |ws| then None
    else if ws[k].tgId == tgId then Some(k)
    else FindWorkerFrom(ws, tgId, k + 1)
  }

  /** `get_worker`: the first row of worker `tgId`, if any. */
  function GetWorker(ws: seq<WorkerRow>, tgId: int): (r: Option<WorkerRow>)
    ensures r.None? <==> forall j :: 0 <= j < |ws| ==> ws[j].tgId != tgId
    ensures r.Some? ==> r.value.tgId == tgId
                        && exists i :: 0 <= i < |ws| && ws[i] == r.value
                                       && forall j :: 0 <= j < i ==> ws[j].tgId != tgId
  {
    match FindWorker(ws, tgId)
    case Some(i) => Some(ws[i])
    case None => None
  }

  /** The row `add_worker` appends for a newcomer. */
  function NewWorker(tgId: int, username: string): WorkerRow {
    WorkerRow(tgId, username, RolePending, 0, 0)
  }

  /** `add_worker`: one pending row at the end, whether or not the worker is already there. */
  function AddWorker(ws: seq<WorkerRow>, tgId: int, username: string): (r: seq<WorkerRow>)
    ensures |r| == |ws| + 1 && r[..|ws|] == ws
    ensures r[|ws|].tgId == tgId && r[|ws|].username == username && r[|ws|].role == RolePending
    ensures r[|ws|].clientsCount == 0 && r[|ws|].balance == 0
  {
    ws + [NewWorker(tgId, username)]
  }

  /**
   * `ws` and `r` differ at most in the first row of worker `tgId`, which
   * becomes `f` of what it was; with no such row they are equal.
   */
  ghost predicate ChangesFirst(ws: seq<WorkerRow>, r: seq<WorkerRow>, tgId: int, f: WorkerRow -> WorkerRow) {
    |r| == |ws|
    && match FindWorker(ws, tgId)
       case None => r == ws
       case Some(i) => r[i] == f(ws[i]) && forall j :: 0 <= j < |ws| && j != i ==> r[j] == ws[j]
  }

  /** The one-row update shared by the three worker writes. */
  function UpdateFirstWorker(ws: seq<WorkerRow>, tgId: int, f: WorkerRow -> WorkerRow): (r: seq<WorkerRow>)
    ensures ChangesFirst(ws, r, tgId, f)
  {
    match FindWorker(ws, tgId)
    case Some(i) => ws[i := f(ws[i])]
    case None => ws
  }

  function Approved(w: WorkerRow): WorkerRow { w.(role := RoleWorker) }

  /** `approve_worker`: the first row of the worker gets role "worker", whatever it was. */
  function ApproveWorker(ws: seq<WorkerRow>, tgId: int): (r: seq<WorkerRow>)
    ensures ChangesFirst(ws, r, tgId, Approved)
  {
    UpdateFirstWorker(ws, tgId, Approved)
  }

  /** `inc_balance`: the first row of the worker gains `delta` cents. */
  function IncBalance(ws: seq<WorkerRow>, tgId: int, delta: int): (r: seq<WorkerRow>)
    ensures ChangesFirst(ws, r, tgId, (w: WorkerRow) => w.(balance := w.balance + delta))
  {
    UpdateFirstWorker(ws, tgId, (w: WorkerRow) => w.(balance := w.balance + delta))
  }

  /** `inc_clients_count`: the first row of the worker counts one more client. */
  function IncClientsCount(ws: seq<WorkerRow>, tgId: int): (r: seq<WorkerRow>)
    ensures ChangesFirst(ws, r, tgId, (w: WorkerRow) => w.(clientsCount := w.clientsCount + 1))
  {
    UpdateFirstWorker(ws, tgId, (w: WorkerRow) => w.(clientsCount := w.clientsCount + 1))
  }

  /** An added worker is found, unless an earlier row already has that id. */
  lemma GetWorkerAfterAdd(ws: seq<WorkerRow>, tgId: int, username: string, other: int)
    requires other != tgId
    ensures GetWorker(ws, tgId).None? ==> GetWorker(AddWorker(ws, tgId, username), tgId) == Some(NewWorker(tgId, username))
    ensures GetWorker(ws, tgId).Some? ==> GetWorker(AddWorker(ws, tgId, username), tgId) == GetWorker(ws, tgId)
    ensures GetWorker(AddWorker(ws, tgId, username), other) == GetWorker(ws, other)
  {
    var r := AddWorker(ws, tgId, username);
    FindWorkerExtend(ws, NewWorker(tgId, username), tgId);
    FindWorkerExtend(ws, NewWorker(tgId, username), other);
  }

  /** Appending a row does not move the first match of an id already present. */
  lemma FindWorkerExtend(ws: seq<WorkerRow>, row: WorkerRow, tgId: int)
    ensures FindWorker(ws, tgId).Some? ==> FindWorker(ws + [row], tgId) == FindWorker(ws, tgId)
    ensures FindWorker(ws, tgId).None? && row.tgId == tgId ==> FindWorker(ws + [row], tgId) == Some(|ws|)
    ensures FindWorker(ws, tgId).None? && row.tgId != tgId ==> FindWorker(ws + [row], tgId).None?
  {
    var s := ws + [row];
    assert forall j :: 0 <= j < |ws| ==> s[j] == ws[j];
    match FindWorker(ws, tgId)
    case Some(i) =>
      FirstMatchUnique(s, tgId, FindWorker(s, tgId), Some(i));
    case None =>
      FirstMatchUnique(s, tgId, FindWorker(s, tgId), if row.tgId == tgId then Some(|ws|) else None);
  }

  /** Two answers satisfying the first-match description are the same answer. */
  lemma FirstMatchUnique(ws: seq<WorkerRow>, tgId: int, a: Option<nat>, b: Option<nat>)
    requires IsFirstMatch(ws, tgId, a) && IsFirstMatch(ws, tgId, b)
    ensures a == b
  {
  }

  ghost predicate IsFirstMatch(ws: seq<WorkerRow>, tgId: int, r: Option<nat>) {
    match r
    case Some(i) => i < |ws| && ws[i].tgId == tgId && forall j :: 0 <= j < i ==> ws[j].tgId != tgId
    case None => forall j :: 0 <= j < |ws| ==> ws[j].tgId != tgId
  }

  /**
   * After a one-row update that keeps ids, reading the updated worker gives
   * the updated row, and reading any other worker gives what it gave before.
   */
  lemma GetWorkerAfterUpdate(ws: seq<WorkerRow>, tgId: int, f: WorkerRow -> WorkerRow, other: int)
    requires forall w :: f(w).tgId == w.tgId
    requires other != tgId
    ensures GetWorker(UpdateFirstWorker(ws, tgId, f), tgId)
            == (match GetWorker(ws, tgId) case Some(w) => Some(f(w)) case None => None)
    ensures GetWorker(UpdateFirstWorker(ws, tgId, f), other) == GetWorker(ws, other)
  {
    var r := UpdateFirstWorker(ws, tgId, f);
    assert forall j :: 0 <= j < |r| ==> r[j].tgId == ws[j].tgId;
    FirstMatchUnique(r, tgId, FindWorker(r, tgId), FindWorker(ws, tgId));
    FirstMatchUnique(r, other, FindWorker(r, other), FindWorker(ws, other));
  }

  /** Approving a worker makes `get_worker` report role "worker", everything else as before. */
  lemma ApproveThenGet(ws: seq<WorkerRow>, tgId: int)
    ensures GetWorker(ApproveWorker(ws, tgId), tgId).Some? <==> GetWorker(ws, tgId).Some?
    ensures GetWorker(ApproveWorker(ws, tgId), tgId).Some? ==>
              GetWorker(ApproveWorker(ws, tgId), tgId).value == GetWorker(ws, tgId).value.(role := RoleWorker)
  {
    GetWorkerAfterUpdate(ws, tgId, Approved, tgId + 1);
  }

  /** Crediting `delta` makes `get_worker` report a balance `delta` higher. */
  lemma IncBalanceThenGet(ws: seq<WorkerRow>, tgId: int, delta: int)
    ensures GetWorker(IncBalance(ws, tgId, delta), tgId).Some? <==> GetWorker(ws, tgId).Some?
    ensures GetWorker(IncBalance(ws, tgId, delta), tgId).Some? ==>
              GetWorker(IncBalance(ws, tgId, delta), tgId).value
              == GetWorker(ws, tgId).value.(balance := GetWorker(ws, tgId).value.balance + delta)
  {
    GetWorkerAfterUpdate(ws, tgId, (w: WorkerRow) => w.(balance := w.balance + delta), tgId + 1);
  }

  /** Counting a client makes `get_worker` report one more client, everything else as before. */
  lemma IncClientsCountThenGet(ws: seq<WorkerRow>, tgId: int)
    ensures GetWorker(IncClientsCount(ws, tgId), tgId).Some? <==> GetWorker(ws, tgId).Some?
    ensures GetWorker(IncClientsCount(ws, tgId), tgId).Some? ==>
              GetWorker(IncClientsCount(ws, tgId), tgId).value
              == GetWorker(ws, tgId).value.(clientsCount := GetWorker(ws, tgId).value.clientsCount + 1)
  {
    GetWorkerAfterUpdate(ws, tgId, (w: WorkerRow) => w.(clientsCount := w.clientsCount + 1), tgId + 1);
  }

  /** A zero credit changes nothing. */
  lemma IncBalanceZero(ws: seq<WorkerRow>, tgId: int)
    ensures IncBalance(ws, tgId, 0) == ws
  {
    var r := IncBalance(ws, tgId, 0);
    assert forall j :: 0 <= j < |ws| ==> r[j] == ws[j];
  }

  /** Two balance changes of one worker add up. */
  lemma IncBalanceTwice(ws: seq<WorkerRow>, tgId: int, a: int, b: int)
    ensures IncBalance(IncBalance(ws, tgId, a), tgId, b) == IncBalance(ws, tgId, a + b)
  {
    var r1 := IncBalance(ws, tgId, a);
    assert forall j :: 0 <= j < |r1| ==> r1[j].tgId == ws[j].tgId;
    FirstMatchUnique(r1, tgId, FindWorker(r1, tgId), FindWorker(ws, tgId));
  }

  // ---------------------------------------------------------------- Clients

  /** `append_client_row`: the fields in column order, with a missing receipt link written as "". */
  function AppendClientRow(cs: seq<ClientRow>, d: ClientData): (r: seq<ClientRow>)
    ensures |r| == |cs| + 1 && r[..|cs|] == cs
    ensures r[|cs|].receiptUrl == d.receiptUrl.GetOr("")
    ensures r[|cs|] == ClientRow(d.workerTgId, d.workerUsername, d.phone, d.name, d.messenger,
                                 d.orderLink, d.amount, d.status, r[|cs|].receiptUrl, d.timestamp)
  {
    cs + [ClientRow(d.workerTgId, d.workerUsername, d.phone, d.name, d.messenger,
                    d.orderLink, d.amount, d.status, d.receiptUrl.GetOr(""), d.timestamp)]
  }

  // ------------------------------------------------------------ Withdrawals

  /** The largest id in a non-empty table. */
  function MaxId(ws: seq<WithdrawalRow>): (m: int)
    requires |ws| > 0
    ensures forall j :: 0 <= j < |ws| ==> ws[j].id <= m
    ensures exists j :: 0 <= j < |ws| && ws[j].id == m
  {
    if |ws| == 1 then ws[0].id
    else
      var m := MaxId(ws[1..]);
      assert forall j :: 1 <= j < |ws| ==> ws[j] == ws[1..][j - 1];
      if ws[0].id >= m then ws[0].id else m
  }

  /** The id `create_withdrawal` hands out: 1 on an empty table, otherwise one past the largest. */
  function NextWithdrawalId(ws: seq<WithdrawalRow>): (id: int)
    ensures |ws| == 0 ==> id == 1
    ensures forall j :: 0 <= j < |ws| ==> ws[j].id < id
    ensures |ws| > 0 ==> exists j :: 0 <= j < |ws| && ws[j].id == id - 1
  {
    if |ws| == 0 then 1 else MaxId(ws) + 1
  }

  /** `create_withdrawal`: a PENDING row under a fresh id, appended; the id is returned. */
  function CreateWithdrawal(ws: seq<WithdrawalRow>, tgId: int, amount: int): (r: (seq<WithdrawalRow>, int))
    ensures r.1 == NextWithdrawalId(ws)
    ensures forall j :: 0 <= j < |ws| ==> ws[j].id != r.1
    ensures |r.0| == |ws| + 1 && r.0[..|ws|] == ws
    ensures r.0[|ws|] == WithdrawalRow(r.1, tgId, amount, StatusPending, "")
  {
    var id := NextWithdrawalId(ws);
    (ws + [WithdrawalRow(id, tgId, amount, StatusPending, "")], id)
  }

  /** Position of the first row with withdrawal id `id`. */
  function FindWithdrawal(ws: seq<WithdrawalRow>, id: int): (r: Option<nat>)
    ensures r.Some? ==> r.value < |ws| && ws[r.value].id == id
                        && forall j :: 0 <= j < r.value ==> ws[j].id != id
    ensures r.None? ==> forall j :: 0 <= j < |ws| ==> ws[j].id != id
  {
    FindWithdrawalFrom(ws, id, 0)
  }

  function FindWithdrawalFrom(ws: seq<WithdrawalRow>, id: int, k: nat): (r: Option<nat>)
    requires k <= |ws|
    ensures r.Some? ==> k <= r.value < |ws| && ws[r.value].id == id
                        && forall j :: k <= j < r.value ==> ws[j].id != id
    ensures r.None? ==> forall j :: k <= j < |ws| ==> ws[j].id != id
    decreases |ws| - k
  {
    if k == |ws| then None
    else if ws[k].id == id then Some(k)
    else FindWithdrawalFrom(ws, id, k + 1)
  }

  /** `update_withdrawal`: only the first row with that id changes, and only its status. */
  function UpdateWithdrawal(ws: seq<WithdrawalRow>, id: int, status: string): (r: seq<WithdrawalRow>)
    ensures |r| == |ws|
    ensures FindWithdrawal(ws, id).None? ==> r == ws
    ensures FindWithdrawal(ws, id).Some? ==>
              var i := FindWithdrawal(ws, id).value;
              r[i] == ws[i].(status := status) && forall j :: 0 <= j < |ws| && j != i ==> r[j] == ws[j]
  {
    match FindWithdrawal(ws, id)
    case Some(i) => ws[i := ws[i].(status := status)]
    case None => ws
  }

  /** Lookups by id see only the ids, so tables with the same ids find the same rows. */
  lemma {:induction false} SameIdsSameFind(a: seq<WithdrawalRow>, b: seq<WithdrawalRow>, id: int, k: nat)
    requires |a| == |b| && k <= |a|
    requires forall j :: 0 <= j < |a| ==> a[j].id == b[j].id
    ensures FindWithdrawalFrom(a, id, k) == FindWithdrawalFrom(b, id, k)
    decreases |a| - k
  {
    if k < |a| && a[k].id != id {
      SameIdsSameFind(a, b, id, k + 1);
    }
  }

  /** A status update moves no request: every id is found where it was. */
  lemma UpdateKeepsFind(ws: seq<WithdrawalRow>, id: int, status: string, other: int)
    ensures FindWithdrawal(UpdateWithdrawal(ws, id, status), other) == FindWithdrawal(ws, other)
  {
    var r := UpdateWithdrawal(ws, id, status);
    assert forall j :: 0 <= j < |r| ==> r[j].id == ws[j].id;
    SameIdsSameFind(r, ws, other, 0);
  }

  /** No two rows share an id. */
  ghost predicate UniqueIds(ws: seq<WithdrawalRow>) {
    forall i, j :: 0 <= i < j < |ws| ==> ws[i].id != ws[j].id
  }

  /** A new request is found under the id it was given, in the appended row. */
  lemma CreatedIsFound(ws: seq<WithdrawalRow>, tgId: int, amount: int)
    ensures FindWithdrawal(CreateWithdrawal(ws, tgId, amount).0, CreateWithdrawal(ws, tgId, amount).1) == Some(|ws|)
  {
    var (r, id) := CreateWithdrawal(ws, tgId, amount);
    assert r[|ws|].id == id;
  }

  /** Creating a request keeps ids unique. */
  lemma CreateKeepsIdsUnique(ws: seq<WithdrawalRow>, tgId: int, amount: int)
    requires UniqueIds(ws)
    ensures UniqueIds(CreateWithdrawal(ws, tgId, amount).0)
  {
  }

  /** Status updates keep ids, so they keep ids unique. */
  lemma UpdateKeepsIdsUnique(ws: seq<WithdrawalRow>, id: int, status: string)
    requires UniqueIds(ws)
    ensures UniqueIds(UpdateWithdrawal(ws, id, status))
  {
    var r := UpdateWithdrawal(ws, id, status);
    assert forall j :: 0 <= j < |r| ==> r[j].id == ws[j].id;
  }

  // ------------------------------------------------------------------ Retry

  /** What one remote call does: return a value or fail with an HTTP status. */
  datatype Attempt<T> = Ok(value: T) | Failed(status: int)

  /** What the retry policy ends with; `NoResult` is its fall-through `return None`. */
  datatype CallOutcome<T> = Returned(value: T) | Raised(status: int) | NoResult

  const RateLimited: int := 429
  const MaxRetries: int := 3

  function Pow2(n: nat): (r: nat)
    ensures r >= 1
  {
    if n == 0 then 1 else 2 * Pow2(n - 1)
  }

  /**
   * `_retry_api_call`: call number `i` behaves as `call(i)`. A 429 is retried
   * while attempts remain, after a wait of `backoff * 2^i`; anything else,
   * or a 429 on the last attempt, is raised. Returns the outcome, how many
   * calls were made and the waits in between.
   */
  method RetryApiCall<T>(call: nat -> Attempt<T>, maxRetries: int, backoff: nat)
    returns (r: CallOutcome<T>, calls: nat, waits: seq<nat>)
    ensures maxRetries <= 0 ==> calls == 0 && r == NoResult
    ensures maxRetries >= 1 ==> 1 <= calls <= maxRetries && !r.NoResult?
    ensures forall i :: 0 <= i < calls - 1 ==> call(i) == Failed(RateLimited)
    ensures r.Returned? ==> calls >= 1 && call(calls - 1) == Ok(r.value)
    ensures r.Raised? ==> calls >= 1 && call(calls - 1) == Failed(r.status)
                          && (r.status != RateLimited || calls == maxRetries)
    ensures calls >= 1 && call(calls - 1).Ok? ==> r.Returned?
    ensures |waits| == (if calls == 0 then 0 else calls - 1)
    ensures forall i :: 0 <= i < |waits| ==> waits[i] == backoff * Pow2(i)
  {
    calls, waits, r := 0, [], NoResult;
    var attempt := 0;
    while attempt < maxRetries
      invariant attempt == 0 || attempt < maxRetries
      invariant calls == attempt
      invariant forall i :: 0 <= i < attempt ==> call(i) == Failed(RateLimited)
      invariant |waits| == attempt
      invariant forall i :: 0 <= i < attempt ==> waits[i] == backoff * Pow2(i)
    {
      calls := calls + 1;
      match call(attempt)
      case Ok(v) =>
        r := Returned(v);
        return;
      case Failed(status) =>
        if status == RateLimited && attempt < maxRetries - 1 {
          waits := waits + [backoff * Pow2(attempt)];
          attempt := attempt + 1;
        } else {
          r := Raised(status);
          return;
        }
    }
  }
}

=== FILE: start.dfy ===
/**
 * `/start` and the registration buttons: who the sender is decides the
 * reply; a newcomer is added as pending and announced to the admins, who
 * approve or decline with a button.
 */
module Start {
  import opened Wrappers
  import Text
  import opened Chat
  import opened Sheets

  /** The username recorded for a newcomer: "unknown" when Telegram gives none or an empty one. */
  function UsernameOrUnknown(username: Option<string>): (r: string)
    ensures username.Some? && username.value != "" ==> r == username.value
    ensures username.None? || username.value == "" ==> r == "unknown"
    ensures r != ""
  {
    match username
    case Some(u) => if u != "" then u else "unknown"
    case None => "unknown"
  }

  /**
   * `show_cabinet`: the worker's client count and balance as the table has
   * them now. Its read is remote call number `call` of the handler that
   * runs it, and is not guarded.
   */
  function ShowCabinet(t: Tables, user: int, chat: int, fault: Option<nat>, call: nat): (r: Handled)
    ensures r.tables == t
    ensures r.raised <==> Raises(fault, call)
    ensures !r.raised && GetWorker(t.workers, user).Some? ==>
              r.effects == [Send(chat, Cabinet(GetWorker(t.workers, user).value.clientsCount,
                                               GetWorker(t.workers, user).value.balance))]
    ensures !r.raised && GetWorker(t.workers, user).None? ==> r.effects == [Send(chat, WorkerNotFound)]
  {
    if Raises(fault, call) then Handled(t, [], true)
    else
      match GetWorker(t.workers, user)
      case Some(w) => Handled(t, [Send(chat, Cabinet(w.clientsCount, w.balance))], false)
      case None => Handled(t, [Send(chat, WorkerNotFound)], false)
  }

  /** The reply a known sender gets for each role. */
  function RoleReply(role: string): Note {
    if role == RolePending then AwaitingApproval
    else if role == RoleDeclined then RegistrationDeclined
    else UnknownRole
  }

  /**
   * `handle_start`. Remote calls, in order: 0 reads the sender's row; then
   * either 1 reads it again for the cabinet, or 1 adds the newcomer. No call
   * is guarded, so a raising one escapes the handler.
   */
  function HandleStart(admins: seq<int>, user: int, chat: int, username: Option<string>, t: Tables,
                       fault: Option<nat>): (r: Handled)
    ensures r.tables.clients == t.clients && r.tables.withdrawals == t.withdrawals
    ensures user in admins ==> r == Handled(t, [Send(chat, AdminGreeting)], false)
    ensures r.tables != t ==>
              && user !in admins && GetWorker(t.workers, user).None?
              && r.tables.workers == AddWorker(t.workers, user, UsernameOrUnknown(username))
  {
    if IsAdmin(admins, user) then Handled(t, [Send(chat, AdminGreeting)], false)
    else if Raises(fault, 0) then Handled(t, [], true)
    else
      match GetWorker(t.workers, user)
      case Some(w) =>
        if w.role == RoleWorker then ShowCabinet(t, user, chat, fault, 1)
        else Handled(t, [Send(chat, RoleReply(w.role))], false)
      case None =>
        var name := UsernameOrUnknown(username);
        if Raises(fault, 1) then Handled(t, [], true)
        else Handled(t.(workers := AddWorker(t.workers, user, name)),
                     Broadcast(admins, RegistrationRequest(user, name)) + [Send(chat, RegistrationSent)], false)
  }

  /**
   * A known sender is answered by role and never added again; only an
   * approved worker sees the cabinet.
   */
  lemma KnownSenderIsNotAdded(admins: seq<int>, user: int, chat: int, username: Option<string>, t: Tables)
    requires user !in admins && GetWorker(t.workers, user).Some?
    ensures var r := HandleStart(admins, user, chat, username, t, None);
            var w := GetWorker(t.workers, user).value;
            && r.tables == t && !r.raised
            && (w.role == RoleWorker ==> r.effects == [Send(chat, Cabinet(w.clientsCount, w.balance))])
            && (w.role == RolePending ==> r.effects == [Send(chat, AwaitingApproval)])
            && (w.role == RoleDeclined ==> r.effects == [Send(chat, RegistrationDeclined)])
            && (w.role !in {RoleWorker, RolePending, RoleDeclined} ==> r.effects == [Send(chat, UnknownRole)])
  {
  }

  /**
   * A newcomer is added as pending with no clients and no balance, every
   * admin is told, and a second `/start` is answered as pending without a
   * second row.
   */
  lemma NewcomerRegistersOnce(admins: seq<int>, user: int, chat: int, username: Option<string>, t: Tables)
    requires user !in admins && GetWorker(t.workers, user).None?
    ensures var r := HandleStart(admins, user, chat, username, t, None);
            var r2 := HandleStart(admins, user, chat, username, r.tables, None);
            && GetWorker(r.tables.workers, user) == Some(NewWorker(user, UsernameOrUnknown(username)))
            && |r.effects| == |admins| + 1 && r.effects[|admins|] == Send(chat, RegistrationSent)
            && (forall i :: 0 <= i < |admins| ==> r.effects[i] == Send(admins[i], RegistrationRequest(user, UsernameOrUnknown(username))))
            && r2.tables == r.tables && r2.effects == [Send(chat, AwaitingApproval)]
  {
    GetWorkerAfterAdd(t.workers, user, UsernameOrUnknown(username), user + 1);
  }

  // ------------------------------------------------------------ Approval

  /** The worker id in the second `_`-separated field of the button data; `None` where `int()` raises. */
  function WorkerIdOf(tag: string): Option<int> {
    match Text.Field(tag, '_', 1)
    case Some(f) => Text.ParseInt(f)
    case None => None
  }

  /** The button data of the registration buttons for worker `id`. */
  function RegistrationTag(verb: string, id: int): string {
    verb + "_" + Text.IntToString(id)
  }

  lemma RegistrationTagRoundTrip(verb: string, id: int)
    requires '_' !in verb
    ensures WorkerIdOf(RegistrationTag(verb, id)) == Some(id)
  {
    Text.NumberHasNo(id, '_');
    Text.SecondField(verb, Text.IntToString(id), '_');
    assert RegistrationTag(verb, id) == verb + ['_'] + Text.IntToString(id);
    Text.ParseIntRoundTrip(id);
  }

  /**
   * `handle_approve`. The id is parsed before the handler's `try`, so a bad
   * id escapes. Remote call 0 sets the role; the role is not checked first.
   */
  function HandleApprove(admins: seq<int>, user: int, chat: int, tag: string, t: Tables,
                         fault: Option<nat>): (r: Handled)
    ensures r.tables.clients == t.clients && r.tables.withdrawals == t.withdrawals
    ensures user !in admins ==> r == Handled(t, [Send(chat, Forbidden)], false)
    ensures r.raised <==> user in admins && WorkerIdOf(tag).None?
    ensures r.tables != t ==>
              user in admins && WorkerIdOf(tag).Some? && r.tables.workers == ApproveWorker(t.workers, WorkerIdOf(tag).value)
    ensures user in admins && WorkerIdOf(tag).Some? && Raises(fault, 0) ==>
              r == Handled(t, [Send(chat, ApproveFailed)], false)
    ensures user in admins && WorkerIdOf(tag).Some? && !Raises(fault, 0) ==>
              var id := WorkerIdOf(tag).value;
              && r.tables.workers == ApproveWorker(t.workers, id)
              && r.effects == [Send(chat, WorkerApproved(id)), Send(id, ApprovalNotice)]
  {
    if !IsAdmin(admins, user) then Handled(t, [Send(chat, Forbidden)], false)
    else
      match WorkerIdOf(tag)
      case None => Handled(t, [], true)
      case Some(id) =>
        if Raises(fault, 0) then Handled(t, [Send(chat, ApproveFailed)], false)
        else Handled(t.(workers := ApproveWorker(t.workers, id)),
                     [Send(chat, WorkerApproved(id)), Send(id, ApprovalNotice)], false)
  }

  /**
   * An admin's approval with no failure makes the worker with the id an
   * approved worker, whatever role they had, and changes nothing else of
   * their row; the admin and the worker are told.
   */
  lemma ApproveSetsRole(admins: seq<int>, admin: int, chat: int, tag: string, t: Tables, id: int)
    requires admin in admins && WorkerIdOf(tag) == Some(id)
    ensures var r := HandleApprove(admins, admin, chat, tag, t, None);
            && r.effects == [Send(chat, WorkerApproved(id)), Send(id, ApprovalNotice)]
            && (GetWorker(r.tables.workers, id).Some? <==> GetWorker(t.workers, id).Some?)
            && (GetWorker(t.workers, id).Some? ==>
                  GetWorker(r.tables.workers, id) == Some(GetWorker(t.workers, id).value.(role := RoleWorker)))
  {
    ApproveThenGet(t.workers, id);
  }

  /** Register, be approved, `/start` again: the cabinet opens with no clients and no balance. */
  lemma RegisterApproveOpensCabinet(admins: seq<int>, admin: int, user: int, chat: int, adminChat: int,
                                    username: Option<string>, t: Tables)
    requires user !in admins && admin in admins && GetWorker(t.workers, user).None?
    ensures var t1 := HandleStart(admins, user, chat, username, t, None).tables;
            var t2 := HandleApprove(admins, admin, adminChat, RegistrationTag("approve", user), t1, None).tables;
            HandleStart(admins, user, chat, username, t2, None).effects == [Send(chat, Cabinet(0, 0))]
  {
    var t1 := HandleStart(admins, user, chat, username, t, None).tables;
    GetWorkerAfterAdd(t.workers, user, UsernameOrUnknown(username), user + 1);
    RegistrationTagRoundTrip("approve", user);
    ApproveThenGet(t1.workers, user);
  }

  // ------------------------------------------------------------ Decline

  /**
   * `handle_decline` as written: the write it calls is not defined in the
   * Sheets module, so past the gate and the id parse it always lands in its
   * error branch and changes nothing.
   */
  function HandleDecline(admins: seq<int>, user: int, chat: int, tag: string, t: Tables): (r: Handled)
    ensures r.tables == t
    ensures user !in admins ==> r.effects == [Send(chat, Forbidden)] && !r.raised
    ensures r.raised <==> user in admins && WorkerIdOf(tag).None?
    ensures user in admins && WorkerIdOf(tag).Some? ==> r.effects == [Send(chat, DeclineFailed)]
  {
    if !IsAdmin(admins, user) then Handled(t, [Send(chat, Forbidden)], false)
    else
      match WorkerIdOf(tag)
      case None => Handled(t, [], true)
      case Some(_) => Handled(t, [Send(chat, DeclineFailed)], false)
  }

  /**
   * As written, declining a pending newcomer leaves them pending: their next
   * `/start` still says the request is under review.
   */
  lemma DeclineLeavesPending(admins: seq<int>, admin: int, user: int, chat: int, adminChat: int,
                             username: Option<string>, t: Tables)
    requires user !in admins && admin in admins
    requires GetWorker(t.workers, user).Some? && GetWorker(t.workers, user).value.role == RolePending
    ensures var t1 := HandleDecline(admins, admin, adminChat, RegistrationTag("decline", user), t).tables;
            HandleStart(admins, user, chat, username, t1, None).effects == [Send(chat, AwaitingApproval)]
  {
  }

  function Declined(w: WorkerRow): WorkerRow { w.(role := RoleDeclined) }

  /** The missing write: the first row of the worker gets role "declined". */
  function DeclineWorker(ws: seq<WorkerRow>, tgId: int): (r: seq<WorkerRow>)
    ensures ChangesFirst(ws, r, tgId, Declined)
  {
    UpdateFirstWorker(ws, tgId, Declined)
  }

  /** `handle_decline` with the write it means to call: the mirror of approval. */
  function HandleDeclineIntended(admins: seq<int>, user: int, chat: int, tag: string, t: Tables,
                                 fault: Option<nat>): (r: Handled)
    ensures r.tables.clients == t.clients && r.tables.withdrawals == t.withdrawals
    ensures user !in admins ==> r == Handled(t, [Send(chat, Forbidden)], false)
    ensures r.raised <==> user in admins && WorkerIdOf(tag).None?
    ensures r.tables != t ==>
              user in admins && WorkerIdOf(tag).Some? && r.tables.workers == DeclineWorker(t.workers, WorkerIdOf(tag).value)
    ensures user in admins && WorkerIdOf(tag).Some? && Raises(fault, 0) ==>
              r == Handled(t, [Send(chat, DeclineFailed)], false)
    ensures user in admins && WorkerIdOf(tag).Some? && !Raises(fault, 0) ==>
              var id := WorkerIdOf(tag).value;
              && r.tables.workers == DeclineWorker(t.workers, id)
              && r.effects == [Send(chat, WorkerDeclined(id)), Send(id, DeclineNotice)]
  {
    if !IsAdmin(admins, user) then Handled(t, [Send(chat, Forbidden)], false)
    else
      match WorkerIdOf(tag)
      case None => Handled(t, [], true)
      case Some(id) =>
        if Raises(fault, 0) then Handled(t, [Send(chat, DeclineFailed)], false)
        else Handled(t.(workers := DeclineWorker(t.workers, id)),
                     [Send(chat, WorkerDeclined(id)), Send(id, DeclineNotice)], false)
  }

  /** Corrected: a declined newcomer's next `/start` says the request was declined. */
  lemma DeclineIntendedIsSeen(admins: seq<int>, admin: int, user: int, chat: int, adminChat: int,
                              username: Option<string>, t: Tables)
    requires user !in admins && admin in admins
    requires GetWorker(t.workers, user).Some?
    ensures var t1 := HandleDeclineIntended(admins, admin, adminChat, RegistrationTag("decline", user), t, None).tables;
            HandleStart(admins, user, chat, username, t1, None).effects == [Send(chat, RegistrationDeclined)]
            && HandleStart(admins, user, chat, username, t1, None).tables == t1
  {
    RegistrationTagRoundTrip("decline", user);
    GetWorkerAfterUpdate(t.workers, user, Declined, user + 1);
  }
}

=== FILE: text.dfy ===
/**
 * The handful of Python string operations the bot relies on: `str.strip()`,
 * `str.replace()`, `str.split()`, `int()` and `str()` of an integer, with
 * strings as sequences of characters.
 */
module Text {
  import opened Wrappers

  /** The characters Python's `str.isspace()` accepts; `str.strip()` removes them. */
  predicate IsSpace(c: char) {
    || c == ' '
    || '\t' <= c <= '\r'
    || '\U{1C}' <= c <= '\U{1F}'
    || c == '\U{85}' || c == '\U{A0}' || c == '\U{1680}'
    || '\U{2000}' <= c <= '\U{200A}'
    || c == '\U{2028}' || c == '\U{2029}' || c == '\U{202F}' || c == '\U{205F}' || c == '\U{3000}'
  }

  /** Regex `\d`, restricted to the ASCII digits. */
  predicate IsDigit(c: char) { '0' <= c <= '9' }

  predicate AllDigits(s: string) { forall i :: 0 <= i < |s| ==> IsDigit(s[i]) }

  predicate AllSpace(s: string) { forall i :: 0 <= i < |s| ==> IsSpace(s[i]) }

  /** Neither end of `s` is whitespace. */
  predicate Trimmed(s: string) { s == [] || (!IsSpace(s[0]) && !IsSpace(s[|s| - 1])) }

  /** Where the run of whitespace starting at `i` ends: `str.lstrip()` cuts `s[..SpaceRunFrom(s, 0)]`. */
  function SpaceRunFrom(s: string, i: nat): (k: nat)
    requires i <= |s|
    ensures i <= k <= |s|
    ensures forall j | i <= j < k :: IsSpace(s[j])
    ensures k == |s| || !IsSpace(s[k])
    decreases |s| - i
  {
    if i < |s| && IsSpace(s[i]) then SpaceRunFrom(s, i + 1) else i
  }

  /**
   * Where the run of whitespace ending just before `j` starts, looking no
   * further left than `lo`: `str.rstrip()` cuts `s[SpaceRunBefore(s, 0, |s|)..]`.
   */
  function SpaceRunBefore(s: string, lo: nat, j: nat): (k: nat)
    requires lo <= j <= |s|
    ensures lo <= k <= j
    ensures forall m | k <= m < j :: IsSpace(s[m])
    ensures k == lo || !IsSpace(s[k - 1])
  {
    if j > lo && IsSpace(s[j - 1]) then SpaceRunBefore(s, lo, j - 1) else j
  }

  /** Where the stripped text starts inside `s`. */
  function TrimStart(s: string): (i: nat)
    ensures i <= |s|
  {
    SpaceRunFrom(s, 0)
  }

  /** Where the stripped text ends inside `s`. */
  function TrimEnd(s: string): (j: nat)
    ensures TrimStart(s) <= j <= |s|
  {
    SpaceRunBefore(s, TrimStart(s), |s|)
  }

  /** Python's `s.strip()`: the text between the leading and the trailing whitespace. */
  function Trim(s: string): (r: string)
    ensures Trimmed(r) && |r| <= |s|
  {
    s[TrimStart(s)..TrimEnd(s)]
  }

  /** `strip()` only cuts whitespace off the two ends: what is left is a slice of `s`. */
  lemma TrimIsSlice(s: string)
    ensures TrimStart(s) + |Trim(s)| <= |s|
    ensures Trim(s) == s[TrimStart(s)..TrimStart(s) + |Trim(s)|]
    ensures AllSpace(s[..TrimStart(s)]) && AllSpace(s[TrimStart(s) + |Trim(s)|..])
  {
    var i, j := TrimStart(s), TrimEnd(s);
    assert forall m | 0 <= m < i :: IsSpace(s[m]);
    assert forall m | j <= m < |s| :: IsSpace(s[m]);
  }

  /** Text with no whitespace at either end is its own `strip()`. */
  lemma TrimOfTrimmed(s: string)
    requires Trimmed(s)
    ensures Trim(s) == s
  {
    if s != [] {
      assert TrimStart(s) == 0;
      assert TrimEnd(s) == |s|;
    }
  }

  lemma TrimIdempotent(s: string)
    ensures Trim(Trim(s)) == Trim(s)
  {
    TrimOfTrimmed(Trim(s));
  }

  /** Python's `s.replace(from, to)` for single characters. */
  function Replace(s: string, from: char, to: char): (r: string)
    ensures |r| == |s|
    ensures forall i :: 0 <= i < |s| ==> r[i] == (if s[i] == from then to else s[i])
  {
    if s == [] then [] else [if s[0] == from then to else s[0]] + Replace(s[1..], from, to)
  }

  /** Replacing works character by character, so it distributes over concatenation. */
  lemma {:induction false} ReplaceConcat(x: string, y: string, from: char, to: char)
    ensures Replace(x + y, from, to) == Replace(x, from, to) + Replace(y, from, to)
  {
    if x == [] {
      assert x + y == y;
    } else {
      assert (x + y)[1..] == x[1..] + y;
      ReplaceConcat(x[1..], y, from, to);
    }
  }

  /** Replacing in text where `from` occurs once, between `x` and `y`, touches only that character. */
  lemma ReplaceOnce(x: string, y: string, from: char, to: char)
    requires from !in x && from !in y
    ensures Replace(x + [from] + y, from, to) == x + [to] + y
  {
    ReplaceConcat(x + [from], y, from, to);
    ReplaceConcat(x, [from], from, to);
    ReplaceAbsent(x, from, to);
    ReplaceAbsent(y, from, to);
  }

  lemma ReplaceAbsent(s: string, from: char, to: char)
    requires from !in s
    ensures Replace(s, from, to) == s
  {
  }

  function DigitValue(c: char): nat
    requires IsDigit(c)
  {
    c as int - '0' as int
  }

  function DigitChar(d: nat): (c: char)
    requires d < 10
    ensures IsDigit(c) && DigitValue(c) == d
  {
    ('0' as int + d) as char
  }

  /** The number a run of decimal digits denotes. */
  function DigitsValue(s: string): nat
    requires AllDigits(s)
  {
    if s == [] then 0 else DigitsValue(s[..|s| - 1]) * 10 + DigitValue(s[|s| - 1])
  }

  /** Python's `str(n)` for a natural number. */
  function NatToString(n: nat): (s: string)
    ensures 1 <= |s| && AllDigits(s)
  {
    if n < 10 then [DigitChar(n)] else NatToString(n / 10) + [DigitChar(n % 10)]
  }

  lemma {:induction false} NatToStringRoundTrip(n: nat)
    ensures DigitsValue(NatToString(n)) == n
  {
    if n >= 10 {
      var s := NatToString(n);
      assert s[..|s| - 1] == NatToString(n / 10);
      NatToStringRoundTrip(n / 10);
    }
  }

  /** Python's `str(i)` for an integer. */
  function IntToString(i: int): (s: string)
    ensures 1 <= |s| && Trimmed(s)
  {
    if i < 0 then "-" + NatToString(-i) else NatToString(i)
  }

  /**
   * Python's `int(s)` on a decimal literal, `None` where Python raises
   * `ValueError`.
   */
  function ParseInt(s: string): Option<int>
  {
    ParseLiteral(Trim(s))
  }

  /** An optionally signed run of digits. */
  function ParseLiteral(t: string): Option<int>
  {
    if |t| > 1 && (t[0] == '-' || t[0] == '+') && AllDigits(t[1..]) then
      var v: int := DigitsValue(t[1..]);
      Some(if t[0] == '-' then -v else v)
    else if |t| > 0 && AllDigits(t) then
      Some(DigitsValue(t))
    else
      None
  }

  /** A signed number's text reads back as the number. */
  lemma ParseLiteralRoundTrip(i: int)
    ensures ParseLiteral(IntToString(i)) == Some(i)
  {
    var s := IntToString(i);
    if i < 0 {
      var n := NatToString(-i);
      assert s == "-" + n && s[1..] == n;
      NatToStringRoundTrip(-i);
    } else {
      assert IsDigit(s[0]);
      NatToStringRoundTrip(i);
    }
  }

  /** `int(str(i)) == i`. */
  lemma ParseIntRoundTrip(i: int)
    ensures ParseInt(IntToString(i)) == Some(i)
  {
    TrimOfTrimmed(IntToString(i));
    ParseLiteralRoundTrip(i);
  }

  /** Python's `s.split(sep)` for a one-character separator. */
  function Split(s: string, sep: char): (r: seq<string>)
    ensures |r| >= 1
    ensures forall i :: 0 <= i < |r| ==> sep !in r[i]
  {
    if s == [] then [""]
    else
      var rest := Split(s[1..], sep);
      if s[0] == sep then [""] + rest else [[s[0]] + rest[0]] + rest[1..]
  }

  /** Python's `sep.join(parts)`. */
  function Join(parts: seq<string>, sep: char): string
    requires |parts| >= 1
  {
    if |parts| == 1 then parts[0] else parts[0] + [sep] + Join(parts[1..], sep)
  }

  /** Splitting loses nothing: joining the fields back gives the input. */
  lemma {:induction false} JoinSplit(s: string, sep: char)
    ensures Join(Split(s, sep), sep) == s
  {
    if s != [] {
      var rest := Split(s[1..], sep);
      JoinSplit(s[1..], sep);
      if s[0] == sep {
        assert ([""] + rest)[1..] == rest;
      } else {
        var r := [[s[0]] + rest[0]] + rest[1..];
        assert r[1..] == rest[1..];
        if |rest| == 1 {
          assert Join(r, sep) == [s[0]] + rest[0];
        } else {
          assert Join(rest, sep) == rest[0] + [sep] + Join(rest[1..], sep);
          assert Join(r, sep) == [s[0]] + rest[0] + [sep] + Join(rest[1..], sep);
        }
        assert s == [s[0]] + s[1..];
      }
    }
  }

  /** Extending the first field of `ra` commutes with appending more fields after it. */
  lemma ExtendFirstField(c: char, ra: seq<string>, rb: seq<string>)
    requires |ra| >= 1
    ensures [[c] + (ra + rb)[0]] + (ra + rb)[1..] == ([[c] + ra[0]] + ra[1..]) + rb
  {
    assert (ra + rb)[0] == ra[0] && (ra + rb)[1..] == ra[1..] + rb;
  }

  /** A separator splits the text around it into the fields of either side. */
  lemma {:induction false} SplitAround(a: string, b: string, sep: char)
    ensures Split(a + [sep] + b, sep) == Split(a, sep) + Split(b, sep)
  {
    var s := a + [sep] + b;
    if a == [] {
      assert s[1..] == b;
    } else {
      assert s[0] == a[0] && s[1..] == a[1..] + [sep] + b;
      SplitAround(a[1..], b, sep);
      var ra := Split(a[1..], sep);
      var rb := Split(b, sep);
      if a[0] == sep {
        assert [""] + (ra + rb) == ([""] + ra) + rb;
      } else {
        ExtendFirstField(a[0], ra, rb);
      }
    }
  }

  lemma SplitWithoutSeparator(s: string, sep: char)
    requires sep !in s
    ensures Split(s, sep) == [s]
  {
    if s != [] {
      SplitWithoutSeparator(s[1..], sep);
      assert s == [s[0]] + s[1..];
    }
  }

  /** Python's `s.split(sep)[n]`, `None` where Python raises `IndexError`. */
  function Field(s: string, sep: char, n: nat): Option<string>
  {
    var fields := Split(s, sep);
    if n < |fields| then Some(fields[n]) else None
  }

  /** A number's text holds nothing but digits and a leading minus sign. */
  lemma NumberHasNo(i: int, c: char)
    requires !IsDigit(c) && c != '-'
    ensures c !in IntToString(i)
  {
    var d := if i < 0 then NatToString(-i) else NatToString(i);
    assert forall k :: 0 <= k < |d| ==> d[k] != c;
    if i < 0 {
      assert IntToString(i) == "-" + d;
    }
  }

  /** `(a + sep + b).split(sep)[1] == b` when neither part holds the separator. */
  lemma SecondField(a: string, b: string, sep: char)
    requires sep !in a && sep !in b
    ensures Field(a + [sep] + b, sep, 1) == Some(b)
  {
    SplitAround(a, b, sep);
    SplitWithoutSeparator(a, sep);
    SplitWithoutSeparator(b, sep);
  }

  /** `(a + sep + b + sep + c).split(sep)[2] == c` when no part holds the separator. */
  lemma ThirdField(a: string, b: string, c: string, sep: char)
    requires sep !in a && sep !in b && sep !in c
    ensures Field(a + [sep] + b + [sep] + c, sep, 2) == Some(c)
  {
    SplitAround(a + [sep] + b, c, sep);
    SplitAround(a, b, sep);
    SplitWithoutSeparator(a, sep);
    SplitWithoutSeparator(b, sep);
    SplitWithoutSeparator(c, sep);
  }
}

=== FILE: validators.dfy ===
/**
 * The input validators of the worker forms: a phone number of 10 to 15
 * digits, a money amount with at most two decimals (comma or dot), and a
 * URL prefix. Each Python regex is modelled by what `re.match` accepts,
 * including the way `$` also matches just before a final newline.
 */
module Validators {
  import opened Wrappers
  import opened Text

  const PhoneMinDigits: nat := 10
  const PhoneMaxDigits: nat := 15

  /** Python's `$`: the end of the text, or just before a final newline. */
  predicate AtEnd(t: string, k: nat) {
    k == |t| || (k + 1 == |t| && t[k] == '\n')
  }

  /** On stripped text `$` can only match at the very end: a final newline would have been stripped. */
  lemma AtEndOfTrimmed(t: string, k: nat)
    requires Trimmed(t) && AtEnd(t, k)
    ensures k == |t|
  {
    assert IsSpace('\n');
  }

  /** `\d{n}$` matches at the start of `t`. */
  predicate PhoneMatchOf(t: string, n: nat) {
    n <= |t| && AllDigits(t[..n]) && AtEnd(t, n)
  }

  /** `re.match(r"^\d{10,15}$", t)` succeeds. */
  predicate PhonePattern(t: string) {
    exists n: nat | PhoneMinDigits <= n <= PhoneMaxDigits :: PhoneMatchOf(t, n)
  }

  /** `is_phone(s)`: the phone pattern applied to the stripped text. */
  predicate IsPhone(s: string) {
    PhonePattern(Trim(s))
  }

  /** A phone is accepted exactly when its stripped text is 10 to 15 ASCII digits. */
  lemma IsPhoneIff(s: string)
    ensures IsPhone(s) <==> PhoneMinDigits <= |Trim(s)| <= PhoneMaxDigits && AllDigits(Trim(s))
  {
    var t := Trim(s);
    if IsPhone(s) {
      var n: nat :| PhoneMinDigits <= n <= PhoneMaxDigits && PhoneMatchOf(t, n);
      AtEndOfTrimmed(t, n);
      assert t[..n] == t;
    } else if PhoneMinDigits <= |t| <= PhoneMaxDigits && AllDigits(t) {
      assert t[..|t|] == t;
      assert PhoneMatchOf(t, |t|);
    }
  }

  /** On text with nothing to strip, the phone check is exactly 10 to 15 digits. */
  lemma IsPhoneOfTrimmed(t: string)
    requires Trimmed(t)
    ensures IsPhone(t) <==> PhoneMinDigits <= |t| <= PhoneMaxDigits && AllDigits(t)
  {
    IsPhoneIff(t);
    TrimOfTrimmed(t);
  }

  /** Eleven digits pass; nine digits, sixteen digits or a leading `+` do not. */
  lemma ElevenDigitPhoneExample(s: string)
    requires s == "79991234567"
    ensures IsPhone(s)
  {
    assert Trimmed(s);
    assert AllDigits(s);
    IsPhoneOfTrimmed(s);
  }

  lemma NineDigitPhoneExample(s: string)
    requires s == "799912345"
    ensures !IsPhone(s)
  {
    IsPhoneOfTrimmed(s);
  }

  lemma SixteenDigitPhoneExample(s: string)
    requires s == "7999123456789012"
    ensures !IsPhone(s)
  {
    IsPhoneOfTrimmed(s);
  }

  lemma PlusPhoneExample(s: string)
    requires s == "+79991234567"
    ensures !IsPhone(s)
  {
    IsPhoneOfTrimmed(s);
    assert !IsDigit(s[0]);
  }

  /** `[.,]\d{m}$` matches right after an integer part of `k` digits. */
  predicate FractionAt(t: string, k: nat, m: nat) {
    && k + 1 + m <= |t|
    && (t[k] == '.' || t[k] == ',')
    && AllDigits(t[k + 1..k + 1 + m])
    && AtEnd(t, k + 1 + m)
  }

  /** `\d{k}(?:[.,]\d{1,2})?$` matches at the start of `t`. */
  predicate MoneyMatchOf(t: string, k: nat) {
    k <= |t| && AllDigits(t[..k]) && (AtEnd(t, k) || FractionAt(t, k, 1) || FractionAt(t, k, 2))
  }

  /** `re.match(r"^\d+(?:[.,]\d{1,2})?$", t)` succeeds. */
  predicate MoneyPattern(t: string) {
    exists k: nat | 1 <= k <= |t| :: MoneyMatchOf(t, k)
  }

  /** `normalize_money(s)`: strip, then every comma becomes a dot. */
  function NormalizeMoney(s: string): (r: string)
    ensures ',' !in r && Trimmed(r)
    ensures |r| == |Trim(s)|
    ensures forall i :: 0 <= i < |r| ==> r[i] == (if Trim(s)[i] == ',' then '.' else Trim(s)[i])
  {
    Replace(Trim(s), ',', '.')
  }

  /** `is_money(s)`: the money pattern applied to the normalised text. */
  predicate IsMoney(s: string) {
    MoneyPattern(NormalizeMoney(s))
  }

  /** Length of the run of digits `t` starts with. */
  function DigitRun(t: string): (k: nat)
    ensures k <= |t| && AllDigits(t[..k])
    ensures k < |t| ==> !IsDigit(t[k])
  {
    if |t| > 0 && IsDigit(t[0]) then
      var k := 1 + DigitRun(t[1..]);
      assert t[..k] == [t[0]] + t[1..][..k - 1];
      k
    else
      0
  }

  /** The digit run of digits followed by a non-digit ends at the non-digit. */
  lemma {:induction false} DigitRunOf(a: string, b: string)
    requires AllDigits(a) && (b == [] || !IsDigit(b[0]))
    ensures DigitRun(a + b) == |a|
  {
    if a != [] {
      assert (a + b)[1..] == a[1..] + b;
      DigitRunOf(a[1..], b);
    }
  }

  /**
   * The integer and fractional digits of a normalised amount: one or more
   * digits, then optionally a dot and one or two digits.
   */
  function SplitAmount(t: string): (r: Option<(string, string)>)
    ensures r.Some? ==> |r.value.0| >= 1 && AllDigits(r.value.0)
    ensures r.Some? ==> |r.value.1| <= 2 && AllDigits(r.value.1)
    ensures r.Some? ==> t == r.value.0 + (if r.value.1 == "" then "" else "." + r.value.1)
  {
    var k := DigitRun(t);
    if k == 0 then None
    else if k == |t| then Some((t, ""))
    else if t[k] == '.' && 2 <= |t| - k <= 3 && AllDigits(t[k + 1..]) then
      assert t == t[..k] + "." + t[k + 1..];
      Some((t[..k], t[k + 1..]))
    else None
  }

  /** A match with a fraction of `m` digits, on stripped comma-free text, is a split amount. */
  lemma FractionSplits(t: string, k: nat, m: nat)
    requires Trimmed(t) && ',' !in t
    requires 1 <= k && 1 <= m <= 2 && FractionAt(t, k, m) && AllDigits(t[..k])
    ensures SplitAmount(t).Some?
  {
    AtEndOfTrimmed(t, k + 1 + m);
    assert t[k] in t;
    assert t[..k] + t[k..] == t;
    DigitRunOf(t[..k], t[k..]);
    assert t[k + 1..] == t[k + 1..k + 1 + m];
  }

  /** A match of the money regex on stripped, comma-free text is a split amount. */
  lemma MoneyPatternSplits(t: string, k: nat)
    requires Trimmed(t) && ',' !in t
    requires 1 <= k <= |t| && MoneyMatchOf(t, k)
    ensures SplitAmount(t).Some?
  {
    if AtEnd(t, k) {
      AtEndOfTrimmed(t, k);
      assert t[..k] == t && t + [] == t;
      DigitRunOf(t, []);
    } else if FractionAt(t, k, 1) {
      FractionSplits(t, k, 1);
    } else {
      FractionSplits(t, k, 2);
    }
  }

  /** A split amount is matched by the money regex. */
  lemma SplitMatchesPattern(t: string)
    requires SplitAmount(t).Some?
    ensures MoneyPattern(t)
  {
    var d := DigitRun(t);
    if d == |t| {
      assert MoneyMatchOf(t, d);
    } else {
      var m: nat := |t| - d - 1;
      assert t[d + 1..d + 1 + m] == t[d + 1..];
      assert FractionAt(t, d, m);
      assert MoneyMatchOf(t, d);
    }
  }

  /**
   * On stripped text without commas, the money regex accepts exactly what
   * SplitAmount splits.
   */
  lemma MoneyPatternIff(t: string)
    requires Trimmed(t) && ',' !in t
    ensures MoneyPattern(t) <==> SplitAmount(t).Some?
  {
    if MoneyPattern(t) {
      var k: nat :| 1 <= k <= |t| && MoneyMatchOf(t, k);
      MoneyPatternSplits(t, k);
    } else if SplitAmount(t).Some? {
      SplitMatchesPattern(t);
    }
  }

  /** Money is accepted exactly when the normalised text splits into integer and fraction. */
  lemma IsMoneyIff(s: string)
    ensures IsMoney(s) <==> SplitAmount(NormalizeMoney(s)).Some?
  {
    MoneyPatternIff(NormalizeMoney(s));
  }

  /** Normalising twice is normalising once. */
  lemma NormalizeMoneyIdempotent(s: string)
    ensures NormalizeMoney(NormalizeMoney(s)) == NormalizeMoney(s)
  {
    var r := NormalizeMoney(s);
    TrimOfTrimmed(r);
    ReplaceAbsent(r, ',', '.');
  }

  /** `is_money` does not care whether a comma or a dot separates the cents. */
  lemma IsMoneyOfNormalized(s: string)
    ensures IsMoney(NormalizeMoney(s)) == IsMoney(s)
  {
    NormalizeMoneyIdempotent(s);
  }

  /**
   * Normalising only strips whitespace off the ends and turns commas into
   * dots: every other character keeps its place.
   */
  lemma NormalizeMoneyEdits(s: string)
    ensures TrimStart(s) + |NormalizeMoney(s)| <= |s|
    ensures AllSpace(s[..TrimStart(s)]) && AllSpace(s[TrimStart(s) + |NormalizeMoney(s)|..])
    ensures forall k :: 0 <= k < |NormalizeMoney(s)| ==>
      NormalizeMoney(s)[k] == (if s[TrimStart(s) + k] == ',' then '.' else s[TrimStart(s) + k])
  {
    TrimIsSlice(s);
  }

  /** The cents a split amount denotes: `float()` of the text, times 100. */
  function CentsOf(int_part: string, frac: string): nat
    requires AllDigits(int_part) && AllDigits(frac) && |frac| <= 2
  {
    DigitsValue(int_part) * 100
      + (if |frac| == 0 then 0 else if |frac| == 1 then 10 * DigitsValue(frac) else DigitsValue(frac))
  }

  /**
   * `float(normalize_money(s))` in cents for text `is_money` accepts, and
   * None for any other text.
   */
  function ParseMoney(s: string): (r: Option<nat>)
  {
    match SplitAmount(NormalizeMoney(s))
    case Some(parts) => Some(CentsOf(parts.0, parts.1))
    case None => None
  }

  /** An amount is read exactly when the money check accepts the text. */
  lemma ParseMoneyAccepts(s: string)
    ensures ParseMoney(s).Some? <==> IsMoney(s)
  {
    IsMoneyIff(s);
  }

  /** Text that is already stripped and uses a dot normalises to itself. */
  lemma NormalizeMoneyOfNormal(t: string)
    requires Trimmed(t) && ',' !in t
    ensures NormalizeMoney(t) == t
  {
    TrimOfTrimmed(t);
    ReplaceAbsent(t, ',', '.');
  }

  /** On text that needs no normalising, ParseMoney reads the split digits. */
  lemma ParseMoneyOfNormal(t: string, int_part: string, frac: string)
    requires Trimmed(t) && ',' !in t
    requires SplitAmount(t) == Some((int_part, frac))
    ensures IsMoney(t)
    ensures ParseMoney(t) == Some(CentsOf(int_part, frac))
  {
    NormalizeMoneyOfNormal(t);
    IsMoneyIff(t);
  }

  /** A whole amount reads as that many units. */
  lemma WholeAmountExample(s: string)
    requires s == "1000"
    ensures ParseMoney(s) == Some(100000)
  {
    NormalizeMoneyOfNormal(s);
    assert s + "" == s;
    DigitRunOf(s, "");
    NatToStringRoundTrip(1000);
    assert NatToString(1000) == s;
  }

  /** Two decimals after a dot are the cents. */
  lemma CentsAmountExample(s: string)
    requires s == "1000.50"
    ensures ParseMoney(s) == Some(100050)
  {
    assert NatToString(1000) == "1000";
    assert FormatCents(100050) == s;
    ParseFormattedMoney(100050);
  }

  /** ParseMoney only sees the normalised text. */
  lemma ParseMoneyOfSameNormal(a: string, b: string)
    requires NormalizeMoney(a) == NormalizeMoney(b)
    ensures ParseMoney(a) == ParseMoney(b)
  {
  }

  lemma DigitsHaveNo(a: string, c: char)
    requires AllDigits(a) && !IsDigit(c)
    ensures c !in a
  {
    assert forall i :: 0 <= i < |a| ==> a[i] != c;
  }

  /** Digits, a comma and digits normalise to the same with a dot. */
  lemma CommaNormalizesToDot(a: string, b: string)
    requires |a| >= 1 && AllDigits(a) && |b| >= 1 && AllDigits(b)
    ensures NormalizeMoney(a + [','] + b) == a + ['.'] + b
  {
    var c := a + [','] + b;
    DigitsHaveNo(a, ',');
    DigitsHaveNo(b, ',');
    assert c[0] == a[0] && c[|c| - 1] == b[|b| - 1];
    TrimOfTrimmed(c);
    ReplaceOnce(a, b, ',', '.');
  }

  /** Digits, a dot and one or two digits split into the two runs of digits. */
  lemma DotSplits(a: string, b: string)
    requires |a| >= 1 && AllDigits(a) && 1 <= |b| <= 2 && AllDigits(b)
    ensures SplitAmount(a + ['.'] + b) == Some((a, b))
  {
    var d := a + ['.'] + b;
    assert d == a + (['.'] + b);
    DigitRunOf(a, ['.'] + b);
    assert d[..|a|] == a && d[|a| + 1..] == b;
  }

  /**
   * A decimal comma reads exactly like a decimal dot: digits, a comma and one
   * or two digits are accepted, as the same number of cents.
   */
  lemma CommaReadsAsDot(a: string, b: string)
    requires |a| >= 1 && AllDigits(a) && 1 <= |b| <= 2 && AllDigits(b)
    ensures NormalizeMoney(a + [','] + b) == a + ['.'] + b
    ensures ParseMoney(a + [','] + b) == ParseMoney(a + ['.'] + b) == Some(CentsOf(a, b))
  {
    var d := a + ['.'] + b;
    CommaNormalizesToDot(a, b);
    NormalizeMoneyOfNormal(d);
    ParseMoneyOfSameNormal(a + [','] + b, d);
    DotSplits(a, b);
    ParseMoneyOfNormal(d, a, b);
  }

  /** `1000,50` reads as 1000.50. */
  lemma CommaAmountExample(s: string)
    requires s == "1000,50"
    ensures ParseMoney(s) == Some(100050)
  {
    var a, b := NatToString(1000), NatToString(50);
    assert a == "1000" && b == "50";
    assert s == a + [','] + b;
    CommaReadsAsDot(a, b);
    NatToStringRoundTrip(1000);
    NatToStringRoundTrip(50);
  }

  /** A minus sign is refused. */
  lemma NegativeAmountExample(s: string)
    requires s == "-5"
    ensures !IsMoney(s)
  {
    NormalizeMoneyOfNormal(s);
    assert DigitRun(s) == 0;
    IsMoneyIff(s);
  }

  /** Three decimals are refused. */
  lemma ThreeDecimalsExample(s: string)
    requires s == "12.345"
    ensures !IsMoney(s)
  {
    NormalizeMoneyOfNormal(s);
    assert s == "12" + ".345";
    DigitRunOf("12", ".345");
    IsMoneyIff(s);
  }

  /** Letters are refused. */
  lemma LettersExample(s: string)
    requires s == "abc"
    ensures !IsMoney(s)
  {
    NormalizeMoneyOfNormal(s);
    assert DigitRun(s) == 0;
    IsMoneyIff(s);
  }

  /** Python's `f"{c / 100:.2f}"` for an amount of `c` cents. */
  function FormatCents(c: nat): (s: string)
    ensures Trimmed(s) && ',' !in s
  {
    NatToString(c / 100) + "." + [DigitChar(c % 100 / 10), DigitChar(c % 10)]
  }

  /** A formatted amount splits back into its whole and cent digits. */
  lemma FormatCentsSplits(c: nat)
    ensures SplitAmount(FormatCents(c))
      == Some((NatToString(c / 100), [DigitChar(c % 100 / 10), DigitChar(c % 10)]))
  {
    var n := NatToString(c / 100);
    var f := [DigitChar(c % 100 / 10), DigitChar(c % 10)];
    assert FormatCents(c) == n + ['.'] + f;
    assert AllDigits(f);
    DotSplits(n, f);
  }

  lemma TwoDigitsValue(a: char, b: char)
    requires IsDigit(a) && IsDigit(b)
    ensures DigitsValue([a, b]) == DigitValue(a) * 10 + DigitValue(b)
  {
    var s := [a, b];
    assert s[..|s| - 1] == [a];
    assert [a][..0] == [];
    assert DigitsValue([a]) == DigitValue(a);
    assert DigitsValue(s) == DigitsValue([a]) * 10 + DigitValue(s[1]);
  }

  /** The digits FormatCents writes denote the amount it was given. */
  lemma FormattedDigitsValue(c: nat)
    ensures CentsOf(NatToString(c / 100), [DigitChar(c % 100 / 10), DigitChar(c % 10)]) == c
  {
    var f := [DigitChar(c % 100 / 10), DigitChar(c % 10)];
    NatToStringRoundTrip(c / 100);
    TwoDigitsValue(f[0], f[1]);
  }

  /** Reading back a formatted amount gives the same number of cents. */
  lemma ParseFormattedMoney(c: nat)
    ensures IsMoney(FormatCents(c))
    ensures ParseMoney(FormatCents(c)) == Some(c)
  {
    var n := NatToString(c / 100);
    var f := [DigitChar(c % 100 / 10), DigitChar(c % 10)];
    FormatCentsSplits(c);
    ParseMoneyOfNormal(FormatCents(c), n, f);
    FormattedDigitsValue(c);
  }

  /** `re.match(r"^https?://", t)`: "http", an optional "s", then "://". */
  predicate UrlPattern(t: string) {
    && |t| >= 4 && t[..4] == "http"
    && ((|t| >= 8 && t[4] == 's' && t[5..8] == "://") || (|t| >= 7 && t[4..7] == "://"))
  }

  /** `is_url(s)`: the URL pattern applied to the stripped text. */
  predicate IsUrl(s: string) {
    UrlPattern(Trim(s))
  }

  /** The pattern with the `s`: the text starts with "https://". */
  lemma SecureUrlPattern(t: string)
    ensures (|t| >= 8 && t[..4] == "http" && t[4] == 's' && t[5..8] == "://") <==> "https://" <= t
  {
    if |t| >= 8 {
      assert t[..8] == t[..4] + [t[4]] + t[5..8];
      assert "https://" == "http" + ['s'] + "://";
      if "https://" <= t {
        assert t[..4] == t[..8][..4] && t[4] == t[..8][4] && t[5..8] == t[..8][5..8];
      }
    }
  }

  /** The pattern without the `s`: the text starts with "http://". */
  lemma PlainUrlPattern(t: string)
    ensures (|t| >= 7 && t[..4] == "http" && t[4..7] == "://") <==> "http://" <= t
  {
    if |t| >= 7 {
      assert t[..7] == t[..4] + t[4..7];
      assert "http://" == "http" + "://";
      if "http://" <= t {
        assert t[..4] == t[..7][..4] && t[4..7] == t[..7][4..7];
      }
    }
  }

  /** A URL is accepted exactly when the stripped text starts with http:// or https://. */
  lemma IsUrlIff(s: string)
    ensures IsUrl(s) <==> ("http://" <= Trim(s) || "https://" <= Trim(s))
  {
    SecureUrlPattern(Trim(s));
    PlainUrlPattern(Trim(s));
  }
}

=== FILE: withdrawal.dfy ===
/**
 * The payout request a worker makes from the cabinet: the button checks the
 * balance and opens the amount form; the amount message records a PENDING
 * request and takes the amount off the balance at once.
 */
module Withdrawals {
  import opened Wrappers
  import opened Text
  import opened Validators
  import opened Fsm
  import opened Chat
  import opened Sheets
  import opened Forms

  /**
   * `start_withdrawal`. Remote call 0 reads the worker; it is not guarded,
   * so when it raises the handler ends with no reply and the session as it was.
   */
  function StartWithdrawal(e: Session, t: Tables, user: int, fault: Option<nat>): (r: Step)
    ensures r.raised <==> Raises(fault, 0)
    ensures r.raised ==> r.session == e && r.replies == []
    ensures r.session != e ==> r.session == WithState(e, WithdrawalAmount)
    ensures r.session.state == Some(WithdrawalAmount) && e.state != Some(WithdrawalAmount) ==>
              GetWorker(t.workers, user).Some? && GetWorker(t.workers, user).value.balance > 0
    ensures !r.raised && GetWorker(t.workers, user).None? ==> r.session == e && r.replies == [WorkerNotFound]
    ensures !r.raised && GetWorker(t.workers, user).Some? ==>
              var b := GetWorker(t.workers, user).value.balance;
              if b <= 0 then r.session == e && r.replies == [NoFunds]
              else r.session.state == Some(WithdrawalAmount) && r.session.data == e.data && r.replies == [Balance(b)]
  {
    if Raises(fault, 0) then Step(e, [], true)
    else
      match GetWorker(t.workers, user)
      case None => Step(e, [WorkerNotFound], false)
      case Some(w) =>
        if w.balance <= 0 then Step(e, [NoFunds], false)
        else Step(WithState(e, WithdrawalAmount), [Balance(w.balance)], false)
  }

  /** The amount a payout message asks for, in cents; `None` unless it passes the money check. */
  function RequestedAmount(text: string): (r: Option<int>)
    ensures r.Some? <==> IsMoney(Trim(text))
    ensures r.Some? ==> r.value >= 0
  {
    ParseMoneyAccepts(Trim(text));
    ParseMoney(Trim(text))
  }

  /**
   * `process_withdrawal_amount` once the amount has passed the format check:
   * `amount` cents. Remote calls, in order: 0 reads the worker, 1 records the
   * request, 2 takes the amount off the balance. A missing worker fails like
   * a raising call, since the handler reads its balance regardless.
   */
  function Withdraw(t: Tables, user: int, chat: int, amount: int, admins: seq<int>,
                    fault: Option<nat>): (r: Handled)
    ensures !r.raised && r.tables.clients == t.clients
    ensures amount <= 0 ==> r.tables == t && r.effects == [Send(chat, AmountNotPositive)]
    ensures r.tables != t ==>
              GetWorker(t.workers, user).Some? && 0 < amount <= GetWorker(t.workers, user).value.balance
  {
    if amount <= 0 then Handled(t, [Send(chat, AmountNotPositive)], false)
    else if Raises(fault, 0) then Handled(t, [Send(chat, WithdrawalFailed)], false)
    else
      match GetWorker(t.workers, user)
      case None => Handled(t, [Send(chat, WithdrawalFailed)], false)
      case Some(w) =>
        if amount > w.balance then Handled(t, [Send(chat, InsufficientFunds(w.balance))], false)
        else
          var (rows, id) := CreateWithdrawal(t.withdrawals, user, amount);
          var t1 := t.(withdrawals := rows);
          var t2 := t1.(workers := IncBalance(t.workers, user, -amount));
          if Raises(fault, 1) then Handled(t, [Send(chat, WithdrawalFailed)], false)
          else if Raises(fault, 2) then Handled(t1, [Send(chat, WithdrawalFailed)], false)
          else Handled(t2, Broadcast(admins, WithdrawalRequested(user, w.username, amount, id))
                           + [Send(chat, WithdrawalSent(amount))], false)
  }

  /**
   * `process_withdrawal_amount`: the format check, then `Withdraw`. Every
   * way out clears the session, a refused amount included.
   */
  function ProcessWithdrawalAmount(t: Tables, user: int, chat: int, text: string, admins: seq<int>,
                                   fault: Option<nat>): (r: Outcome)
    ensures r.session == Cleared()
    ensures RequestedAmount(text).None? ==> r.tables == t && r.effects == [Send(chat, Rejected(AmountKey))]
    ensures RequestedAmount(text).Some? ==>
              r.tables == Withdraw(t, user, chat, RequestedAmount(text).value, admins, fault).tables
              && r.effects == Withdraw(t, user, chat, RequestedAmount(text).value, admins, fault).effects
  {
    match RequestedAmount(text)
    case None => Outcome(Cleared(), t, [Send(chat, Rejected(AmountKey))])
    case Some(amount) =>
      var h := Withdraw(t, user, chat, amount, admins, fault);
      Outcome(Cleared(), h.tables, h.effects)
  }

  /**
   * A granted request appends one PENDING row for the worker under a fresh
   * id, takes exactly that amount off the balance, offers it to every admin
   * and confirms to the worker.
   */
  lemma WithdrawalRecordsAndDebits(t: Tables, user: int, chat: int, amount: int, admins: seq<int>)
    requires amount > 0 && GetWorker(t.workers, user).Some?
    requires amount <= GetWorker(t.workers, user).value.balance
    ensures var r := Withdraw(t, user, chat, amount, admins, None);
            var w := GetWorker(t.workers, user).value;
            var id := NextWithdrawalId(t.withdrawals);
            && r.tables.withdrawals == t.withdrawals + [WithdrawalRow(id, user, amount, StatusPending, "")]
            && (forall j :: 0 <= j < |t.withdrawals| ==> t.withdrawals[j].id != id)
            && GetWorker(r.tables.workers, user) == Some(w.(balance := w.balance - amount))
            && GetWorker(r.tables.workers, user).value.balance >= 0
            && |r.effects| == |admins| + 1
            && r.effects[|admins|] == Send(chat, WithdrawalSent(amount))
            && forall i :: 0 <= i < |admins| ==>
                 r.effects[i] == Send(admins[i], WithdrawalRequested(user, w.username, amount, id))
  {
    IncBalanceThenGet(t.workers, user, -amount);
    var (rows, id) := CreateWithdrawal(t.withdrawals, user, amount);
    assert rows == t.withdrawals + [WithdrawalRow(id, user, amount, StatusPending, "")];
  }

  /** No failure and no input takes a worker's balance below zero if it was not already. */
  lemma WithdrawalNeverOverdraws(t: Tables, user: int, chat: int, amount: int, admins: seq<int>,
                                 fault: Option<nat>)
    requires GetWorker(t.workers, user).Some? && GetWorker(t.workers, user).value.balance >= 0
    ensures var r := Withdraw(t, user, chat, amount, admins, fault);
            GetWorker(r.tables.workers, user).Some? && GetWorker(r.tables.workers, user).value.balance >= 0
  {
    IncBalanceThenGet(t.workers, user, -amount);
  }

  /**
   * When the debit is the call that raises, the request stays recorded while
   * the balance is untouched: the worker is told the request failed, yet an
   * admin can still act on it.
   */
  lemma FailedDebitKeepsRequest(t: Tables, user: int, chat: int, amount: int, admins: seq<int>)
    requires amount > 0 && GetWorker(t.workers, user).Some?
    requires amount <= GetWorker(t.workers, user).value.balance
    ensures var r := Withdraw(t, user, chat, amount, admins, Some(2));
            && r.tables.workers == t.workers
            && |r.tables.withdrawals| == |t.withdrawals| + 1
            && r.tables.withdrawals[|t.withdrawals|].status == StatusPending
            && r.effects == [Send(chat, WithdrawalFailed)]
  {
  }

  /**
   * The payout request as its failure reply means it: when recording or
   * debiting raises, the worker is told the request failed and nothing of
   * it stays in the tables. Otherwise it is `Withdraw`.
   */
  function WithdrawAtomic(t: Tables, user: int, chat: int, amount: int, admins: seq<int>,
                          fault: Option<nat>): (r: Handled)
    ensures !r.raised
    ensures r.tables == t || r.tables == Withdraw(t, user, chat, amount, admins, None).tables
    ensures r.effects == [Send(chat, WithdrawalFailed)] ==> r.tables == t
    ensures !Raises(fault, 2) ==> r == Withdraw(t, user, chat, amount, admins, fault)
  {
    var h := Withdraw(t, user, chat, amount, admins, fault);
    FailureReplyOnlyAfterDebit(t, user, chat, amount, admins, fault);
    if Raises(fault, 2) then Handled(t, h.effects, false) else h
  }

  /** Apart from a raising debit, the failure reply comes only with the tables as they were. */
  lemma FailureReplyOnlyAfterDebit(t: Tables, user: int, chat: int, amount: int, admins: seq<int>,
                                   fault: Option<nat>)
    ensures var h := Withdraw(t, user, chat, amount, admins, fault);
            h.effects == [Send(chat, WithdrawalFailed)] && !Raises(fault, 2) ==> h.tables == t
  {
    var h := Withdraw(t, user, chat, amount, admins, fault);
    if amount > 0 && !Raises(fault, 0) && GetWorker(t.workers, user).Some?
       && amount <= GetWorker(t.workers, user).value.balance && !Raises(fault, 1) && !Raises(fault, 2) {
      var w := GetWorker(t.workers, user).value;
      var (rows, id) := CreateWithdrawal(t.withdrawals, user, amount);
      BroadcastThen(admins, WithdrawalRequested(user, w.username, amount, id), Send(chat, WithdrawalSent(amount)));
    }
  }
}

=== FILE: wrappers.dfy ===
/** Optional values, standing in for Python's `None`-or-value results. */
module Wrappers {

  datatype Option<+T> = None | Some(value: T) {

    /** The wrapped value, or `default` when there is none (Python's `x or default`). */
    function GetOr(default: T): T {
      match this
      case Some(v) => v
      case None => default
    }
  }
}
